=== FILE: README.md ===
# lfdm laboratory drivers and stepper, in Dafny

This project models the logic core of a small laboratory-automation code
base written in Python for PyQt4, lantz, PyVISA and the Data Translation
DT-Open Layers DLLs. It covers five areas.

- **The breakpoint stepper** (`coroutines/stepper.py`). It is a
  PAUSED / RUNNING / FINISHED state machine that drives the generator of a
  task's `work()` and runs `finalize()` in the generator's `finally`.
  - The generator is abstracted as a position over `n` breakpoints, with a
    phase (not started, suspended, exhausted), an optional segment that
    raises, the list of segments run, and a count of `finalize()` runs.
  - Qt's queued `stepped → try_step` connection becomes a count of pending
    calls, which the event loop delivers one at a time.
  - `Stepper.State` is the specification. Each slot is a function on it.
    The class `Stepper.Stepper` updates its fields in place, and every
    method's contract ties its new state to the specification function.
  - `StepperButtons` models the four-button panel of
    `coroutines/stepperbuttons.py` on top of it.
- **GPIB instrument codecs.**
  - `Keithley705`: the scanner matrix.
  - `Keithley220`: the current source.
  - `Keithley617`: the electrometer.
  - `HP8112A`: the pulse generator.
  - `GwinstekGDS2062`: the oscilloscope's acquisition block.
  - `TestDriver`: the trial driver in `test.py`.

  Command strings are built by total functions. Status replies are parsed
  with the Python exceptions modelled as `Result` values. The traffic with
  the instrument is a list of `Io` events (`Send`, `Query`, `Receive`,
  base-class `initialize`/`finalize`), and replies are parameters.
- **The save-file name auto-increment** (`AutoIncrement`), from
  `autoincrement_file.py`. The regular expressions are written out by hand
  with Python's `re` semantics: `$` also matches before a final newline,
  `.` does not match a newline, and `\d`/`\w` are ASCII.
- **The DT-Open Layers library wrapper** (`DtLib`): the error-code table,
  `ecodeCheck` and `_register_function`.
- **The analog subsystems** (`DtSubsystems`):
  - the integer step of `voltageToCode` and of `codeToVoltage`;
  - de-interleaving a filled buffer into channels;
  - the A/D subsystem's buffer counter, buffer queue and queue of waiting
    futures. The driver library is an abstract buffer source and sink.

Shared pieces live in `Wrappers` (Option, Result, the Python exceptions),
`Text` (Python `str.split`, `int()`, `str(int)`, `strip`, `lower`,
`replace`) and `Instrument` (the `Io` log, and digit and `<letter><n>X`
commands).

A task whose `work()` has `n` breakpoints needs `n + 1`
calls of `step`: the first `n` stop at the breakpoints, and the last runs
the tail of `work()` and `finalize()`. It then sets FINISHED
(`StepperProperties.StepsCountedExactly`, `StepperProperties.LastStepFinishes`).

## Model

| member | source | states |
|---|---|---|
| `Stepper.Initial` | coroutines/stepper.py:18-24 | A new stepper is PAUSED and has emitted PAUSED once. Its generator has not started, `finalize()` has not run, nothing is queued, and the invariant holds. |
| `Stepper.State.SetStatus` | coroutines/stepper.py:26-28 | `_set_status` stores the status and appends it to the emitted statuses even when it is unchanged. Every other field is unchanged. |
| `Stepper.State.Resume` | coroutines/stepper.py:60-64 | `next()` on the generator runs exactly the segment at the current position, or does nothing once exhausted. It suspends exactly when a `yield` is reached. Returning or raising runs `finalize()` exactly once. Status, emitted statuses and queue are untouched. |
| `Stepper.State.Close` | coroutines/stepper.py:46 | Closing leaves the generator exhausted. `finalize()` runs only when it was suspended at a breakpoint, so not for an unstarted or ended generator. Nothing else changes. |
| `Stepper.State.Step` | coroutines/stepper.py:30-37 | `Warning('Task finished')` comes back exactly when FINISHED, and then nothing changes. A status change by a step can only be to FINISHED. A step whose `work()` raised keeps the status and emits nothing. The queue is untouched. |
| `Stepper.State.TryStep` | coroutines/stepper.py:53-58 | Unless RUNNING, nothing happens. Otherwise it never meets the FINISHED warning. It queues exactly one more call when the step returned normally, and none when `work()` raised. |
| `Stepper.State.Run` | coroutines/stepper.py:39-42 | `run` emits RUNNING and then at most FINISHED. It never meets the FINISHED warning, because the status was just set to RUNNING. |
| `Stepper.State.Pause` | coroutines/stepper.py:49-51 | `pause` sets and emits PAUSED from any status, FINISHED included. |
| `Stepper.State.Cancel` | coroutines/stepper.py:44-47 | `cancel` always ends FINISHED with the generator exhausted, and emits FINISHED. |
| `Stepper.State.DeliverQueued` | coroutines/stepper.py:24 | With nothing queued the event loop does nothing. A delivered `try_step` never meets the FINISHED warning. |
| `Stepper.Stepper.constructor` | coroutines/stepper.py:18-24 | The object's fields equal `Initial(work)`. |
| `Stepper.Stepper.SetStatus` | coroutines/stepper.py:26-28 | The new fields are `State.SetStatus` of the old ones. |
| `Stepper.Stepper.ResumeCoroutine` | coroutines/stepper.py:60-64 | The new fields and the outcome are `State.Resume` of the old fields. |
| `Stepper.Stepper.CloseCoroutine` | coroutines/stepper.py:46 | The new fields are `State.Close` of the old ones. |
| `Stepper.Stepper.Step` | coroutines/stepper.py:30-37 | The new fields and the outcome are `State.Step` of the old fields. |
| `Stepper.Stepper.Run` | coroutines/stepper.py:39-42 | The new fields and the outcome are `State.Run` of the old fields. |
| `Stepper.Stepper.Cancel` | coroutines/stepper.py:44-47 | The new fields are `State.Cancel` of the old ones. |
| `Stepper.Stepper.Pause` | coroutines/stepper.py:49-51 | The new fields are `State.Pause` of the old ones. |
| `Stepper.Stepper.TryStep` | coroutines/stepper.py:53-58 | The new fields and the outcome are `State.TryStep` of the old fields. |
| `Stepper.Stepper.DeliverQueued` | coroutines/stepper.py:22-24 | The new fields and the outcome are `State.DeliverQueued` of the old fields. |
| `StepperProperties.ExecKeepsValid` | coroutines/stepper.py:18-64 | Every sequence of step, run, pause, cancel and delivered calls keeps the state invariant. |
| `StepperProperties.FinalizeAtMostOnce` | coroutines/stepper.py:21 | Over any command sequence from a new stepper, `finalize()` runs at most once. It has run exactly when `work()` was entered and the generator has ended. |
| `StepperProperties.ExecOnlyExtends` | coroutines/stepper.py:26-64 | Segments run and statuses emitted are only ever appended to, and `finalize()` is never un-run. |
| `StepperProperties.StepAdvancesOneBreakpoint` | coroutines/stepper.py:34-35 | A step that reaches a breakpoint advances the position by one, runs exactly that segment, and leaves the status alone. |
| `StepperProperties.StepWhenFinished` | coroutines/stepper.py:32-33 | `step` while FINISHED raises the warning and changes nothing. |
| `StepperProperties.StepsCountedExactly` | coroutines/stepper.py:30-37 | After `m <= n` steps on a fresh stepper, exactly segments `0..m-1` have run, the generator sits at breakpoint `m`, and the status is still PAUSED. |
| `StepperProperties.LastStepFinishes` | coroutines/stepper.py:34-37 | Step `n + 1` runs the tail of `work()`, runs `finalize()` once, and sets FINISHED; the emitted statuses are PAUSED then FINISHED. Every later step raises the warning. |
| `StepperProperties.CancelFinalizesOnlyASuspendedTask` | coroutines/stepper.py:44-47 | `cancel` keeps the invariant and ends FINISHED. It runs `finalize()` only when suspended at a breakpoint; an unstarted task never finalizes. No segment runs. |
| `StepperProperties.CancelIsIdempotent` | coroutines/stepper.py:44-47 | A second `cancel` only emits FINISHED again. |
| `StepperProperties.TryStepOnlyWhenRunning` | coroutines/stepper.py:55-56 | `try_step` outside RUNNING changes nothing. |
| `StepperProperties.TryStepWhenRunning` | coroutines/stepper.py:57-58 | While RUNNING, `try_step` is one `step` plus one queued call. When `work()` raised, nothing is queued. |
| `StepperProperties.PauseBeforeQueuedCallStopsRun` | coroutines/stepper.py:24 | A `pause` handled before the queued `try_step` stops the run: the delivered call runs no segment. |
| `StepperProperties.RunStepsOncePerDelivery` | coroutines/stepper.py:39-42 | On a fresh stepper, `run` plus `k` deliveries has run exactly segments `0..k`. It stays RUNNING with one call queued until the delivery that runs the tail; that one finalizes and sets FINISHED. |
| `StepperProperties.DeliverWhileRunning` | coroutines/stepper.py:53-58 | One delivered `try_step` while running runs the next segment, or finishes after the last one. |
| `StepperProperties.QueuedCallAfterFinishIsIgnored` | coroutines/stepper.py:55-56 | A call still queued when the task finished does nothing. |
| `StepperProperties.PauseThenRunResumes` | coroutines/stepper.py:39-51 | `pause` then `run` resumes at the breakpoint where the run stopped. |
| `StepperProperties.WorkExceptionEscapesAfterFinalize` | coroutines/stepper.py:34-37 | An exception from `work()` leaves `step` after `finalize()` ran, with the status unchanged. Under `try_step` nothing more is queued. A later step runs no work and sets FINISHED. |
| `StepperProperties.PauseAndRunAfterFinish` | coroutines/stepper.py:39-51 | `pause` has no FINISHED guard and sets PAUSED. A later `step` or `run` finds the generator exhausted, runs no work and no `finalize()`, and sets FINISHED again. |
| `StepperProperties.ThreeBreakpointScenario` | coroutines/stepper.py:24 | A concrete run of three breakpoints: run, deliver, pause, deliver. Exactly two segments ran, and two more steps finish the task. |
| `StepperButtons.Replay` | coroutines/stepperbuttons.py:32-37 | After a series of `statusChanged` signals the panel shows the mapping of the last status alone. |
| `StepperButtons.ConnectStepper` | coroutines/stepperbuttons.py:18-24 | Connecting wires the buttons and leaves the stepper untouched. |
| `StepperButtons.DisconnectStepper` | coroutines/stepperbuttons.py:26-30 | Disconnecting unwires the four buttons and changes neither the panel nor the stepper. |
| `StepperButtons.Handle` | coroutines/stepperbuttons.py:18-37 | A click on an enabled button of a wired panel runs that button's slot on the stepper. Any other click changes nothing. A delivery runs the queued `try_step`. The panel ends as the replay of every status the stepper emitted meanwhile. The task and the wiring never change. |
| `StepperButtons.PauseEnabledIffRunning` | coroutines/stepperbuttons.py:34 | Pause is enabled if and only if the status code is 1 (RUNNING). |
| `StepperButtons.RunStepCancelEnabling` | coroutines/stepperbuttons.py:35-37 | Run and Step are enabled if and only if the code is 0 (PAUSED). Cancel is enabled if and only if the code is not 2 (FINISHED). |
| `StepperButtons.RunAndPauseExclusive` | coroutines/stepperbuttons.py:34-37 | Run and Pause are never enabled together. All four buttons are disabled if and only if FINISHED. |
| `StepperButtons.ConnectAlwaysResyncs` | coroutines/stepperbuttons.py:9-12 | No status gives the enabling the panel was built with, so connecting always changes it. |
| `StepperButtons.SlotsAreDistinct` | coroutines/stepperbuttons.py:20-23 | Each button is wired to its own slot, and none to the event loop's delivery. |
| `StepperButtons.ButtonsFollowStatus` | coroutines/stepperbuttons.py:18-37 | Once connected, after any clicks and deliveries, the buttons show the stepper's current status and its invariant holds. |
| `StepperButtons.EnabledStepNeverWarns` | coroutines/stepperbuttons.py:36 | Through an in-sync panel, an enabled Step never meets `Warning('Task finished')`, and a click on a disabled button changes nothing. |
| `StepperButtons.DisconnectedClicksIgnored` | coroutines/stepperbuttons.py:26-30 | After disconnecting, no click reaches the stepper. Only the deliveries run, and the buttons keep following the status. |
| `Keithley705.KeysAreTheMatrix` | keithley705.py:9-10 | The channel keys are exactly the pairs with column 1..5 and row 1..4, twenty of them, with no repeats. |
| `Keithley705.ChannelCommandRoundTrip` | keithley705.py:22-25 | The channel command decodes back to its key and value, and it is the only command that decodes to them. |
| `Keithley705.ChannelCommandInjective` | keithley705.py:22-25 | Over the key domain, different keys or values never give the same command. |
| `Keithley705.SetChannel` | keithley705.py:9-10 | Setting succeeds exactly for a matrix key and then sends its channel command. Other keys give KeyError. |
| `Keithley705.Close` | keithley705.py:18-20 | `close` sends the one command that decodes to (key, closed), for matrix keys only. |
| `Keithley705.Open` | keithley705.py:14-16 | `open` sends the one command that decodes to (key, open), for matrix keys only. |
| `Keithley705.SessionOrder` | keithley705.py:44-51 | `initialize` sends `G3X` after the base initialise. `finalize` sends `RX` before the base finalise. |
| `Keithley705.Pairs` | keithley705.py:31 | Reply element `2i` is paired with element `2i + 1`, and an unpaired trailing element is dropped. |
| `Keithley705.Entries` | keithley705.py:32-33 | Each pair becomes a parsed `col:row` label and a flag that is true exactly when the status text is `1`. |
| `Keithley705.Channels` | keithley705.py:27-34 | The dictionary-filling loop queries `U1X` and yields exactly the parse of the reply. |
| `Keithley705.FillErrorStops` | keithley705.py:31-33 | The first malformed label ends the parse with its error, whatever follows. |
| `Keithley705.ChannelsFailure` | keithley705.py:32 | The parse succeeds if and only if every label parses. |
| `Keithley705.ChannelsKeys` | keithley705.py:33 | The parsed map's keys are exactly the labels of the reply. |
| `Keithley705.ChannelsLastWins` | keithley705.py:33 | A repeated label keeps the status of its last occurrence. |
| `Keithley705.TrailingPieceIgnored` | keithley705.py:31 | A trailing unpaired element does not change the parse. |
| `Keithley705.GetChannel` | keithley705.py:11-12 | Reading a non-matrix key gives KeyError, and a malformed reply gives its parse error. Otherwise the read succeeds exactly when the reply lists the key, with its parsed flag. |
| `Keithley705.ReplyRoundTrip` | keithley705.py:27-34 | A reply formatted from any list of (key, flag) parses as filling those entries in order. |
| `AutoIncrement.CounterMatch` | autoincrement_file.py:11 | A counter match is a `_ddd.` in a name without a newline, and it is the last such occurrence, as the greedy prefix demands. No match means there is none. |
| `AutoIncrement.ExtensionAt` | autoincrement_file.py:16 | The extension found is a `.` followed by one or more word characters up to the end. |
| `AutoIncrement.NextDefault` | autoincrement_file.py:9-16 | A default path is stored if and only if a name was chosen. |
| `AutoIncrement.GetSaveFilename` | autoincrement_file.py:5-17 | The dialog opens in the stored path, or `''` by default, and the chosen name is returned unchanged. An empty choice keeps the stored path; any other stores its next default. |
| `AutoIncrement.CounterIncremented` | autoincrement_file.py:11-14 | `<p>_<ddd>.<e>`, with no later counter in `e`, stores `<p>_<ddd+1>.<e>` zero-padded to three digits. |
| `AutoIncrement.CounterOverflowsToFourDigits` | autoincrement_file.py:13-14 | Counter 999 becomes `1000`, because the padding is a minimum width. |
| `AutoIncrement.CounterKeepsCounting` | autoincrement_file.py:11-14 | Saving under the stored default again increments the counter once more. |
| `AutoIncrement.CounterAddedBeforeExtension` | autoincrement_file.py:16 | Without a counter, `_001` is inserted before a trailing `.word` extension. |
| `AutoIncrement.CounterAppended` | autoincrement_file.py:16 | Without a counter or an extension, `_001` is appended. |
| `AutoIncrement.TwoDigitCounterIgnored` | autoincrement_file.py:11-16 | A two-digit counter is not recognised: `x_12.txt` stores `x_12_001.txt`. |
| `TestDriver.CommandMatch` | test.py:46 | A piece matches if and only if it has a leading run of capitals that is neither empty nor the whole piece. The command is that run, plus the space after it exactly when a non-capital follows that space. The value is the rest of the piece from the command up to the first newline after its first character, and starts with a non-capital. |
| `TestDriver.CommandMatchRoundTrip` | test.py:46 | A piece made of capitals, an optional space and a one-line value starting with a non-capital splits back into that command and value, unless a space at the head of the value would be taken into the command. |
| `TestDriver.Parts` | test.py:53 | The pieces hold no comma and number one less than the comma-split. Each followed by a comma, they spell the reply up to its last comma, and no comma follows. |
| `TestDriver.PostGet` | test.py:10-16 | Without a value table the raw text passes, unit-processed when the setting has limits. With one, it succeeds if and only if the text is a listed code, and returns that code's name. |
| `TestDriver.TestDriv.ReadSettings` | test.py:47-60 | The loop's new cache and error are `ReadFrom` of the pieces over the old cache, whose results `ReadFromSucceeds`, `ReadFromCaches` and `ReadFromKeeps` state. |
| `TestDriver.ReadFromSucceeds` | test.py:55-60 | `read_settings` completes if and only if every piece matches and every piece with a known command has a value its feature accepts. |
| `TestDriver.ReadFromCaches` | test.py:48-60 | After a complete reading, a feature's cache holds `post_get` of the value of the last piece whose command selects that feature. |
| `TestDriver.ReadFromKeeps` | test.py:56-58 | After a complete reading, a feature that no piece selects keeps its cache entry, present or absent. Pieces with unknown commands change no cache. |
| `TestDriver.OnlyNamedFeaturesChange` | test.py:56-60 | A name that no feature of the settings table carries keeps its cache entry, present or absent, whether or not the reading completes. |
| `TestDriver.UnmatchedPieceStops` | test.py:55 | A piece that does not match makes `read_settings` fail: with AttributeError, unless an earlier piece already failed its value check. |
| `TestDriver.SamplePieces` | test.py:46-52 | `PER 1.00 MS`, `M1` and `CT0` split as (`PER `, `1.00 MS`), (`M`, `1`) and (`CT`, `0`). The all-capitals `PER` does not match. |
| `TestDriver.RegisterFeats` | test.py:18-35 | One feature per settings entry, stored back into its attributes. The class exposes exactly the entries' names, and a repeated name keeps the last entry's feature. |
| `TestDriver.FeatFor` | test.py:25-33 | A feature carries its entry's name, command and values, and has a unit processor if and only if the entry has limits. |
| `TestDriver.SetterLog` | test.py:19-21 | The setter logs `Mando "<command><value>"`. |
| `TestDriver.GetterLog` | test.py:22-24 | The getter logs `Quiero "<command>"`. |
| `TestDriver.RegisterFeatsAsWritten` | test.py:18-34 | The loop as written: every feature's closures share one `command` cell, which the loop leaves holding the last key. So after the loop every feature resolves to the last entry's command, with its own name, values and unit processor. |
| `TestDriver.LateBindingLogsWrongCommand` | test.py:18-24 | For every entry other than the last, the setter as written logs a command other than its own. |
| `TestDriver.TestDriv.constructor` | test.py:38-41 | A new driver has the class's settings and an empty cache. |
| `HP8112A.CodesRoundTrip` | hp8112a.py:68-84 | The trigger-mode digits 1-5 and trigger-control digits 0-3 decode back to the setting they encode. |
| `HP8112A.EnableIsInverted` | hp8112a.py:86-100 | `enable` uses the inverse code of `complement`. |
| `HP8112A.TriggerModeGet` | hp8112a.py:70-71 | `trigger_mode` succeeds if and only if the settings start, after spaces, with `M<1-5>,`. It then returns the mode whose code is that digit. |
| `HP8112A.TriggerControlGet` | hp8112a.py:79-80 | `trigger_control` succeeds if and only if some `,T<0-3>,` field exists. |
| `HP8112A.ComplementGet` | hp8112a.py:87-88 | `complement` succeeds if and only if some `,C<0-1>,` field exists. It then reads a field with no such field after it on its line and no newline since any earlier one, which is the last field of the first line that has one. `1` means on. |
| `HP8112A.EnableGet` | hp8112a.py:95-96 | `enable` succeeds if and only if some `,D<0-1>,` field exists. It then reads the last such field of the first line that has one, fixed the same way, with the inverted map: `0` means on. |
| `HP8112A.GreedyField` | hp8112a.py:88 | The greedy `.*` selects the last field on the first line that has one. |
| `HP8112A.ModeReadBack` | hp8112a.py:68-75 | The mode the setter sends, at the head of the settings after any run of spaces, reads back as that mode. |
| `HP8112A.ControlReadBack` | hp8112a.py:77-84 | The control the setter sends, as the first `T` field, reads back as that control. |
| `HP8112A.ComplementReadBack` | hp8112a.py:86-92 | The complement flag the setter sends, as the last `C` field, reads back as that flag. |
| `HP8112A.EnableReadBack` | hp8112a.py:94-100 | The enable flag the setter sends, as the last `D` field, reads back as that flag. |
| `HP8112A.SampleSettings` | hp8112a.py:61-63 | On the sample settings: trigger mode normal, trigger control positive (`CT0` is not a `T` field), complement off and enable off. |
| `HP8112A.DictFeatGet` | hp8112a.py:13-14 | The dictionary feat queries `I<command>` and drops as many leading characters as the command has. |
| `HP8112A.DictFeatRoundTrip` | hp8112a.py:10-18 | Reading back what the setter sent gives the code that was set. |
| `HP8112A.UnitText` | hp8112a.py:44 | Character by character: `v` and `V` become `V`, any other capital becomes its lower case, and every other character is kept. |
| `HP8112A.UnitTextIdempotent` | hp8112a.py:44 | Rewriting the unit twice is the same as once. |
| `HP8112A.ProcessResponse` | hp8112a.py:40-44 | The reply parses if and only if it starts with ` *\w+ [+\-0-9.]+ \w+`, and otherwise raises AttributeError. The value is the number's text, and the unit is the rewrite of the whole word run after it. |
| `HP8112A.ProcessResponseRoundTrip` | hp8112a.py:40-44 | `<spaces><name> <value> <unit>`, with anything non-word after it, parses to that value and the rewritten unit. |
| `Keithley220.Status` | keithley220.py:18-20 | The status is `220` prepended, so status character `k` is reply character `k - 3`. |
| `Keithley220.OutputGet` | keithley220.py:22-24 | `output` reads status position 4, succeeding if and only if it is `0` or `1`, with `1` meaning on. A short reply gives IndexError. |
| `Keithley220.OutputReadBack` | keithley220.py:22-28 | The digit the setter sends (`F1X` or `F0X`) reads back as the same state. |
| `Keithley220.ProgramGet` | keithley220.py:30-32 | `program` reads status position 8, succeeding if and only if it is `0`-`2`, and decodes to the program with that code. |
| `Keithley220.ProgramReadBack` | keithley220.py:30-36 | The program the setter sends reads back as that program. |
| `Keithley220.RangeNamesDistinct` | keithley220.py:50-51 | The ten range names are distinct, so each code has one name. |
| `Keithley220.RangeGet` | keithley220.py:52-53 | `range` reads status position 9, succeeding if and only if it is a digit, and names it by the table. |
| `Keithley220.RangeSet` | keithley220.py:55-57 | The setter accepts exactly the ten names. |
| `Keithley220.RangeReadBack` | keithley220.py:50-57 | The range the setter sends reads back as that range. |
| `Keithley220.DataField` | keithley220.py:14-16 | Field `k` of a data line exists if and only if the line has at least `k` commas (field 0 always exists), and it contains no comma. |
| `Keithley220.DataFieldsRoundTrip` | keithley220.py:42-81 | In a line of four fields, current, voltage limit, dwell time and address are fields 0 to 3, and field 4 is an IndexError. |
| `Keithley220.AddressSet` | keithley220.py:79-85 | The setter accepts exactly 1..100 and sends `B<n>X`. |
| `Keithley220.DisplayAddressSet` | keithley220.py:94-96 | The setter accepts exactly 1..100 and sends `L<n>X`. |
| `Keithley220.AddressCommandRoundTrip` | keithley220.py:79-96 | The number in the `B` and `L` commands reads back as the address sent. |
| `Keithley220.DisplayAddressGet` | keithley220.py:87-92 | Reading sends `G1X`, receives, and returns field 3. It sends `G3X` only when field 3 exists. |
| `Keithley220.SessionOrder` | keithley220.py:8-12 | `initialize` sends `G3T2X` after the base initialise. `finalize` sends `F0X` before the base finalise. |
| `Keithley617.CodeAt` | keithley617.py:15-79 | A status digit decodes if and only if it is present, a digit, and below the table's size. |
| `Keithley617.FunctionGet` | keithley617.py:15-17 | `function` is status position 3 decoded by the volts/amps/ohms/coulombs table. |
| `Keithley617.ReadingModeGet` | keithley617.py:73-75 | `reading_mode` is status position 11 with codes 0..4. |
| `Keithley617.DisplayModeGet` | keithley617.py:65-67 | `display_mode` is status position 13 with codes 0 and 1. |
| `Keithley617.SwitchGet` | keithley617.py:49-59 | A switch reads `0` or `1` at its position, with `1` meaning on. |
| `Keithley617.RangeGet` | keithley617.py:41-43 | `range` succeeds if and only if status positions 4-5 read as the integer 0, which is auto. A status of four characters or fewer gives ValueError. |
| `Keithley617.RangeSet` | keithley617.py:45-47 | The setter accepts only `auto` and sends `R0X`. |
| `Keithley617.SettersMatchStatus` | keithley617.py:19-79 | Each setter sends `<letter><code>X` with the same digit that the status reports. |
| `Keithley617.StatusReadBack` | keithley617.py:15-83 | A status carrying the setters' digits at positions 3, 4-5, 6, 7, 11 and 13 reads back every setting. |
| `Keithley617.VoltageGet` | keithley617.py:23-39 | Reading the voltage sends `F0X`, then `X`, then receives. |
| `Keithley617.Initialize` | keithley617.py:8-13 | `initialize` opens the resource through the base class first, then sends `G1` (no reading prefix) and `T0` (continuous trigger on talk), in that order. |
| `GwinstekGDS2062.SampleBijection` | gwinstekgds2062.py:65 | Two bytes and a 16-bit sample correspond one to one, little-endian. |
| `GwinstekGDS2062.SamplesRoundTrip` | gwinstekgds2062.py:65 | Decoding the encoding of any 16-bit samples gives them back. |
| `GwinstekGDS2062.Acquire` | gwinstekgds2062.py:54-65 | A channel other than 1 or 2 is refused with KeyError before anything is sent. Otherwise it sends `:acquire<ch>:memory?` and reads a block. It succeeds exactly when the echo byte matches and the sample bytes are whole 16-bit words, and then decodes the samples from byte 8. |
| `GwinstekGDS2062.AcquireDecodes` | gwinstekgds2062.py:59-65 | A result holds one 16-bit sample per pair of bytes after the 8-byte header. |
| `GwinstekGDS2062.AcquireRoundTrip` | gwinstekgds2062.py:59-65 | A block of interval, echo, three reserved bytes and encoded samples decodes back to the samples. |
| `GwinstekGDS2062.WrongEchoRefused` | gwinstekgds2062.py:61-63 | An echo byte other than the channel raises `RuntimeError('Invalid channel reply: <byte>')`. |
| `GwinstekGDS2062.MyFeatGet` | gwinstekgds2062.py:17-18 | The getter queries `<command>?` and parses the stripped reply as an integer. |
| `GwinstekGDS2062.MyFeatRoundTrip` | gwinstekgds2062.py:14-18 | The value the setter sends after `<command> ` parses back to itself. |
| `DtLib.ErrorEntry` | modulos/keithleydataacq.py:84-242 | The table holds exactly the codes 0-50, 60-144 and 200-220. |
| `DtLib.EcodeCheck` | modulos/keithleydataacq.py:243-247 | `ecodeCheck` passes if and only if the code is 0. A code missing from the table, or an unregistered function, gives KeyError. Any other failure names the function, its arguments, and the code's symbol and message. |
| `DtLib.GapsRaiseKeyError` | modulos/keithleydataacq.py:84-247 | Codes 51-59, 145-199 and above 220 make the table lookup itself fail with KeyError. |
| `DtLib.ErrCheckFor` | modulos/keithleydataacq.py:79-82 | `errcheck` is `ecodeCheck` when the result type is ECODE, else the one supplied. |
| `DtLib.Library.constructor` | modulos/keithleydataacq.py:66-68 | A new library has no registered names or declarations. |
| `DtLib.Library.RegisterFunction` | modulos/keithleydataacq.py:70-82 | A missing symbol changes nothing. Otherwise the function's name is recorded under its handle, together with its argument types, result type and error check. |
| `DtLib.RegisteredFailureNamesFunction` | modulos/keithleydataacq.py:243-247 | After registration, a failing tabled code raises an exception naming the registered function. |
| `DtSubsystems.FlipTopIsHalfTurn` | modulos/keithleydataacq.py:1039-1040 | Flipping bit `res-1` and masking adds half the code range, modulo the range. |
| `DtSubsystems.FlipTopInvolution` | modulos/keithleydataacq.py:1039-1040 | Flipping the top bit twice gives the code back. |
| `DtSubsystems.RawCode` | modulos/keithleydataacq.py:1037-1038 | The scaled code of an in-range voltage lies in `[0, 2^res)`. |
| `DtSubsystems.VoltageToCodeAsWritten` | modulos/keithleydataacq.py:1030-1042 | As written: succeeds if and only if `low <= v < high` (and `res >= 1` when the top bit is flipped), with a code in `[0, 2^res)`: the straight-binary code plus half the range modulo the range when `offsetbinary_encoding` is set, and the straight-binary code otherwise. Out of range raises `Exception('Voltage out of range', low, high)`. |
| `DtSubsystems.VoltagesToCodesAsWritten` | modulos/keithleydataacq.py:1031-1042 | On an array: succeeds if and only if every element is in range and, when the top bit is flipped, `res >= 1`. The codes are then those of the scalar case, element by element. |
| `DtSubsystems.VoltageToCode` | modulos/keithleydataacq.py:1030-1042 | Corrected: the same range check; the code is the straight-binary one plus half the range modulo the range for a two's-complement converter, and the straight-binary one otherwise. |
| `DtSubsystems.CodeStep` | modulos/keithleydataacq.py:1010-1013 | Corrected: the unsigned code read back lies in `[0, 2^res)`. |
| `DtSubsystems.CodeStepIsHalfTurn` | modulos/keithleydataacq.py:1010-1011 | For two's complement the corrected read step adds half the range, modulo the range. |
| `DtSubsystems.VoltageCodeRoundTrip` | modulos/keithleydataacq.py:1003-1043 | With the corrected steps, any in-range voltage is accepted, and reading its code back gives the unsigned scaled code, for both encodings. |
| `DtSubsystems.CodeStepAsWritten` | modulos/keithleydataacq.py:1010-1013 | As written: a straight-binary code is kept. For two's complement, a zero resolution raises ValueError, and otherwise the step is `(code + 1) << (res - 1)` reduced to the `np.uint` word. |
| `DtSubsystems.CodeStepPrecedenceCounterexample` | modulos/keithleydataacq.py:1011 | As written, on any unsigned word of at least 17 bits, the 16-bit code 1 reads as 65536, outside the code range. The corrected step gives 32769. |
| `DtSubsystems.EncodingCounterexample` | modulos/keithleydataacq.py:1039-1040 | As written, a straight-binary converter over -10..10 V is sent 32768 for -10 V, which it reads as mid-range. The corrected function sends 0. |
| `DtSubsystems.Stride` | modulos/keithleydataacq.py:996 | `xs[i::n]`: element `k` is `xs[i + k*n]`, and it takes every such index inside the buffer. |
| `DtSubsystems.StrideCovers` | modulos/keithleydataacq.py:996 | Every sample `j` of the buffer lands in the slice for `j % n`, at index `j / n`. |
| `DtSubsystems.StridesDisjoint` | modulos/keithleydataacq.py:996 | Slices for different list positions never share a sample. |
| `DtSubsystems.DeinterleaveUpto` | modulos/keithleydataacq.py:996-997 | The channels read are exactly the configured channels. |
| `DtSubsystems.DeinterleaveLastWins` | modulos/keithleydataacq.py:996-997 | A channel gets the slice of the last list position that names it. |
| `DtSubsystems.DeinterleaveKeepsEverySample` | modulos/keithleydataacq.py:996-997 | With distinct channels, sample `k` of the channel at position `i` is raw sample `i + k*n`. |
| `DtSubsystems.DuplicateChannelLaterWins` | modulos/keithleydataacq.py:996-997 | A channel listed twice keeps only the second position's samples. |
| `DtSubsystems.ReadResult` | modulos/keithleydataacq.py:984-1001 | No filled buffer gives an empty reading, and only that does. With a filled buffer, a missing channel list raises AttributeError, an empty one ZeroDivisionError, and otherwise the reading is data: the de-interleave of the oldest filled buffer by the channel list. |
| `DtSubsystems.ReadKeepsBuffers` | modulos/keithleydataacq.py:984-998 | A read hands the buffer back to the driver, so no buffer is lost. The exception is a read before `configure`, which fails before the put-back. |
| `DtSubsystems.ADSubsystem.constructor` | modulos/keithleydataacq.py:916-925 | A new subsystem holds no buffers, queue or futures, with the counter at 0. |
| `DtSubsystems.ADSubsystem.Configure` | modulos/keithleydataacq.py:934-941 | Stores the channel list and changes nothing else. |
| `DtSubsystems.ADSubsystem.PrepareBuffers` | modulos/keithleydataacq.py:953-958 | Queues `number` fresh buffers with the driver and adds `number` to the buffer counter, keeping every buffer held once. |
| `DtSubsystems.ADSubsystem.BufferFilled` | modulos/keithleydataacq.py:984-986 | The driver fills its oldest queued buffer, which becomes the newest filled one. |
| `DtSubsystems.ADSubsystem.Read` | modulos/keithleydataacq.py:984-1001 | Returns `ReadResult` of the old state. The oldest filled buffer is taken and put back at the end of the driver's queue, unless the channel list was never configured. An empty channel list raises ZeroDivisionError only after the put-back. |
| `DtSubsystems.ADSubsystem.ReadAsync` | modulos/keithleydataacq.py:960-968 | A future is queued exactly when the read came back empty. Data is returned at once, and errors propagate. |
| `DtSubsystems.ADSubsystem.Callback` | modulos/keithleydataacq.py:973-982 | On BUFFER_DONE with a future waiting, the oldest future gets the result of a read. Any other message, or no waiting future, changes nothing. |
| `DtSubsystems.ADSubsystem.Close` | modulos/keithleydataacq.py:926-932 | Fetches and frees exactly `buffers` buffers: the oldest filled ones, then null handles once none is left. |

## Left out

- Input and output: VISA sessions, GPIB reads and writes, QSettings, the
  file dialog, Qt signals, and the DT-Open Layers and memory DLL calls.
  Replies and library answers are parameters. The HP 8112A `query`
  busy-wait on the status byte is not part of this model.
- lantz itself: caching and `read_once`, and value-table checks other than
  the ones each getter and setter states. Units, limits coercion and
  quantities are not modelled. A setter is modelled on the code it sends.
- Floating point: `process_response`'s `float()` and `Q_`, the HP 8112A
  float setters, the Keithley 220 current and dwell-time setters and its
  `float` data fields (kept as text), the Gwinstek waveform scaling and
  interval, `codeToVoltage`'s scaling, `readOne`, channel gains, and the
  `'time'` entry of `read`. Readings hold raw codes.
- DtSubsystems.ADSubsystem.Read: the reading holds raw codes, without the gain scaling, the voltage conversion or the `'time'` entry.
- DtSubsystems.RawCode: the scaling is real arithmetic with a floor. It does not model numpy's float rounding or the unsigned cast of negative values.
- DtSubsystems.ADSubsystem.Close: the library's answer to freeing a null buffer handle is not modelled. A null handle is recorded as `None`.
- DtSubsystems.ADSubsystem.Callback: it runs on the caller's thread. The `call_soon_threadsafe` hop to the event loop and Qt thread affinity are left out, and futures are numbered tickets.
- The `DtDevice` and `Subsystem` capability feats, the subsystem-building
  loops in `DtDevice.__init__`, the counter/timer and digital-output
  subsystems, and `read_blocking` are not part of this model.
- `stable_voltage` on the Keithley 617 loops on floats until readings agree.
  It is not part of this model.
- `gwinstekgds2062.py` cannot be imported as written, because `MyChanFeat`
  uses `format_strings`, which is local to `MyFeat`. `MyChanFeat` is left
  out, and `MyFeat` is modelled for integer formats only.
- AutoIncrement.NextDefault: `re.sub` is taken to make one replacement at
  the end. From Python 3.7 on, an extra empty match at the very end can add
  a second `_001`; that behaviour is not modelled.
- `\d` and `\w` are ASCII, and `Text.Lower` lowers ASCII letters only. Unicode digits and letters are not modelled.
- GwinstekGDS2062.MyFeatGet: the reply is parsed with stringparser's
  `Parser('{:d}')`, which the model replaces with Python's `int()` on the
  stripped reply. Where the two differ on what they accept is not modelled.
- `Text.PyInt` does not accept the `_` digit separators that Python's `int()`
  allows; instrument replies do not use them.
- The width of numpy's `np.uint` depends on the platform and the numpy
  version, so `DtSubsystems.CodeStepAsWritten` takes it as a parameter.
- `test.py` parses a hard-coded reply in place of a query. The model takes
  the reply as a parameter. The `'{:~e}'` unit setter and the `Q_` parsing
  in the unit processor are left out; the unit processor is the
  lower-case-then-`V` rewrite.
- The base `Stepper.work` returns None rather than a generator. Only tasks
  whose `work()` yields a fixed number of times, and optionally raises in
  one segment, are modelled.
- StepperButtons.ConnectStepper: connecting a second time without
  disconnecting would add duplicate Qt connections. The model has one
  connection per signal.

## Findings

| source | as written | input that shows it | evidently intended | confidence | as-written member | corrected member |
|---|---|---|---|---|---|---|
| test.py:18-24 | The setter and getter closures read the loop variable `command` when called, after the loop has ended. | Two settings entries, `M` and `PER `: setting `trigger_mode` logs `Mando "PER <value>"`. | Each feature logs its own command. | high, not executed | `TestDriver.RegisterFeatsAsWritten` (`TestDriver.LateBindingLogsWrongCommand`) | `TestDriver.FeatFor`, `TestDriver.RegisterFeats` |
| modulos/keithleydataacq.py:1011 | `code + 1 << (resolution - 1)` parses as `(code + 1) << (resolution - 1)`. | 16 bits, two's-complement code 1 gives 65536, outside the 16-bit range. | Add half the range, `code + (1 << (resolution - 1))`, modulo `2^res`; code 1 gives 32769. | high, not executed | `DtSubsystems.CodeStepAsWritten` (`DtSubsystems.CodeStepPrecedenceCounterexample`) | `DtSubsystems.CodeStep` (`DtSubsystems.CodeStepIsHalfTurn`, `DtSubsystems.VoltageCodeRoundTrip`) |
| modulos/keithleydataacq.py:1039-1040 | The top bit is flipped when `offsetbinary_encoding` is true, which is when the converter already reads straight binary. `codeToVoltage` applies the half-range shift in the opposite case. | A straight-binary converter over -10..10 V with 16 bits is sent 32768 for -10 V, and reads it back as the middle of the range. | Flip the top bit for two's complement, so that `codeToVoltage` inverts `voltageToCode`. | medium, not executed | `DtSubsystems.VoltageToCodeAsWritten` (`DtSubsystems.EncodingCounterexample`) | `DtSubsystems.VoltageToCode` (`DtSubsystems.VoltageCodeRoundTrip`) |

=== FILE: autoincrement.dfy ===
/**
 * The save-file dialog that proposes the next file name. After the user
 * picks a name, the stored default `path` becomes the same name with its
 * three-digit counter incremented (`run_007.dat` gives `run_008.dat`), or
 * with `_001` added before the extension when the name has no counter.
 *
 * The two regular expressions are modelled by hand with Python's rules:
 * `.` does not match a newline, `$` matches at the end of the text and
 * just before a final newline, `\d` and `\w` are taken over ASCII, and
 * `re.sub` follows the rule of Python before 3.7 that an empty match
 * right after the previous match is skipped.
 */
module AutoIncrement {
  import opened Wrappers
  import opened Text

  /** The text `$` sees as ending the line: without one final newline. */
  function Body(s: string): (b: string)
    ensures b == s || (b + "\n" == s)
  {
    if |s| > 0 && s[|s| - 1] == '\n' then s[..|s| - 1] else s
  }

  /** `_ddd.` starts at index i. */
  predicate CounterAt(b: string, i: nat)
  {
    i + 5 <= |b| && b[i] == '_' && IsDigit(b[i + 1]) && IsDigit(b[i + 2]) && IsDigit(b[i + 3])
    && b[i + 4] == '.'
  }

  /** The last `_ddd.` starting before j: the greedy `(.*)` backs off to it first. */
  function LastCounter(b: string, j: nat): (r: Option<nat>)
    requires j <= |b|
    ensures r.Some? ==> r.value < j && CounterAt(b, r.value)
    ensures r.Some? ==> forall k :: r.value < k < j ==> !CounterAt(b, k)
    ensures r.None? ==> forall k :: 0 <= k < j ==> !CounterAt(b, k)
  {
    if j == 0 then None
    else if CounterAt(b, j - 1) then Some(j - 1)
    else LastCounter(b, j - 1)
  }

  /**
   * Where `(.*)_(\d\d\d)\.(.*)$` matches the name, the index of the `_` of
   * the counter. `.` stops at a newline, so the whole name up to the final
   * newline must be free of newlines.
   */
  function CounterMatch(s: string): (r: Option<nat>)
    ensures r.Some? ==> '\n' !in Body(s) && CounterAt(Body(s), r.value)
    ensures r.Some? ==> forall k :: r.value < k < |Body(s)| ==> !CounterAt(Body(s), k)
    ensures r.None? && '\n' !in Body(s) ==> forall k :: 0 <= k < |Body(s)| ==> !CounterAt(Body(s), k)
  {
    var b := Body(s);
    if '\n' in b then None else LastCounter(b, |b|)
  }

  /** The three digits after the `_` at index i. */
  function CounterValue(b: string, i: nat): (v: nat)
    requires CounterAt(b, i)
    ensures v <= 999
  {
    var d := b[i + 1..i + 4];
    DigitsValueBound3(d);
    DigitsValue(d)
  }

  /** `'{}_{:03d}.{}'.format(group1, int(group2) + 1, group3)`. */
  function Incremented(b: string, i: nat): string
    requires CounterAt(b, i)
  {
    b[..i] + "_" + ZeroPad3(CounterValue(b, i) + 1) + "." + b[i + 5..]
  }

  /** The start of the run of word characters that ends at e. */
  function WordRunStart(s: string, e: nat): (w: nat)
    requires e <= |s|
    ensures w <= e
    ensures forall k :: w <= k < e ==> IsWordChar(s[k])
    ensures w == 0 || !IsWordChar(s[w - 1])
  {
    if e > 0 && IsWordChar(s[e - 1]) then WordRunStart(s, e - 1) else e
  }

  /**
   * Where `(\.\w+|)$` first matches: the `.` of a trailing extension, or
   * else the end of the line.
   */
  function ExtensionAt(s: string): (p: nat)
    ensures p <= |Body(s)|
    ensures p < |Body(s)| ==>
      (s[p] == '.' && p + 1 < |Body(s)| && forall k :: p < k < |Body(s)| ==> IsWordChar(s[k]))
  {
    var e := |Body(s)|;
    var w := WordRunStart(s, e);
    if 1 <= w < e && s[w - 1] == '.' then w - 1 else e
  }

  /**
   * `re.sub(r'(\.\w+|)$', r'_001\1', s)`: `_001` goes before the extension
   * or at the end of the line; a name ending in a newline gets a second
   * `_001` from the empty match at the very end.
   */
  function AddCounter(s: string): (r: string)
  {
    var p := ExtensionAt(s);
    var once := s[..p] + "_001" + s[p..];
    if |Body(s)| < |s| then once + "_001" else once
  }

  /** The new default `path`, or `None` when the dialog was cancelled and it is left alone. */
  function NextDefault(filename: string): (r: Option<string>)
    ensures r.None? <==> filename == ""
  {
    if filename == "" then None
    else match CounterMatch(filename)
      case Some(i) => Some(Incremented(Body(filename), i))
      case None => Some(AddCounter(filename))
  }

  /** What one call shows and stores: the dialog's start directory, the new stored path, the name returned. */
  datatype SaveDialog = SaveDialog(directory: string, stored: Option<string>, filename: string)

  /** `get_save_filename`, given the stored `path` (if any) and the name the user picked. */
  function GetSaveFilename(stored: Option<string>, chosen: string): (r: SaveDialog)
    ensures r.filename == chosen
    ensures r.directory == (if stored.Some? then stored.value else "")
    ensures chosen == "" ==> r.stored == stored
    ensures chosen != "" ==> r.stored == NextDefault(chosen)
  {
    var directory := match stored case Some(p) => p case None => "";
    var next := NextDefault(chosen);
    SaveDialog(directory, if next.Some? then next else stored, chosen)
  }

  /**
   * A name `<p>_<ddd>.<e>` whose tail holds no other counter stores
   * `<p>_<ddd+1>.<e>`, the counter zero-padded to at least three digits.
   */
  lemma CounterIncremented(p: string, d: string, e: string)
    requires |d| == 3 && AllDigits(d)
    requires '\n' !in p && '\n' !in e
    requires forall k :: 0 <= k < |e| ==> !CounterAt(e, k)
    ensures NextDefault(p + "_" + d + "." + e) == Some(p + "_" + ZeroPad3(DigitsValue(d) + 1) + "." + e)
  {
    var s := p + "_" + d + "." + e;
    CounterFacts(p, d, e);
    LastCounterIs(s, |p|);
  }

  /** Where the parts of `<p>_<ddd>.<e>` sit, and that its only counter is the one at |p|. */
  lemma CounterFacts(p: string, d: string, e: string)
    requires |d| == 3 && AllDigits(d)
    requires '\n' !in p && '\n' !in e
    requires forall k :: 0 <= k < |e| ==> !CounterAt(e, k)
    ensures var s := p + "_" + d + "." + e;
      && Body(s) == s && '\n' !in s && CounterAt(s, |p|)
      && (forall k :: |p| < k < |s| ==> !CounterAt(s, k))
      && s[..|p|] == p && s[|p| + 1..|p| + 4] == d && s[|p| + 5..] == e
  {
    var s := p + "_" + d + "." + e;
    assert Body(s) == s by {
      assert s[|s| - 1] in "." + e;
    }
    assert '\n' !in s by {
      forall k | 0 <= k < |s| ensures s[k] != '\n' {
        if k < |p| { assert s[k] == p[k]; }
        else if k > |p| + 4 { assert s[k] == e[k - |p| - 5]; }
      }
    }
    var i := |p|;
    assert CounterAt(s, i);
    assert s[..i] == p && s[i + 5..] == e;
    forall k | i < k < |s| ensures !CounterAt(s, k) {
      if k > i + 4 {
        CounterShift(s, e, k, i + 5);
      }
    }
    assert s[i + 1..i + 4] == d;
  }

  /** The greedy match backs off to the last counter of the line. */
  lemma LastCounterIs(b: string, i: nat)
    requires CounterAt(b, i) && forall k :: i < k < |b| ==> !CounterAt(b, k)
    ensures LastCounter(b, |b|) == Some(i)
  {
  }

  /** A counter in a suffix of a name is a counter of the name, at the shifted index. */
  lemma CounterShift(s: string, e: string, k: nat, off: nat)
    requires off <= k && off <= |s| && s[off..] == e
    ensures CounterAt(s, k) <==> CounterAt(e, k - off)
  {
    if k + 5 <= |s| {
      assert s[k] == e[k - off] && s[k + 1] == e[k - off + 1] && s[k + 2] == e[k - off + 2];
      assert s[k + 3] == e[k - off + 3] && s[k + 4] == e[k - off + 4];
    }
  }

  /** The counter 999 stores `1000`: `{:03d}` is a minimum width, not a maximum. */
  lemma CounterOverflowsToFourDigits(p: string, e: string)
    requires '\n' !in p && '\n' !in e
    requires forall k :: 0 <= k < |e| ==> !CounterAt(e, k)
    ensures NextDefault(p + "_999." + e) == Some(p + "_1000." + e)
  {
    var d, t := "999", "1000";
    assert p + "_999." + e == p + "_" + d + "." + e;
    assert p + "_1000." + e == p + "_" + t + "." + e by {
      assert "_1000." == "_" + t + ".";
    }
    Nines(d);
    CounterIncremented(p, d, e);
    PadThousand(t);
  }

  lemma Nines(d: string)
    requires d == "999"
    ensures AllDigits(d) && DigitsValue(d) == 999
  {
    var a, b := d[..1], d[..2];
    assert |a[..0]| == 0 && b[..1] == a && d[..2] == b;
    assert DigitsValue(a) == 9;
    assert DigitsValue(b) == 99;
  }

  lemma PadThousand(t: string)
    requires t == "1000"
    ensures ZeroPad3(1000) == t
  {
    assert NatToString(10) == "10";
    assert NatToString(100) == "100";
    assert NatToString(1000) == "1000";
  }

  /** Below 999, the stored name is itself counted: choosing it next time stores the following number. */
  lemma CounterKeepsCounting(p: string, d: string, e: string)
    requires |d| == 3 && AllDigits(d) && DigitsValue(d) < 999
    requires '\n' !in p && '\n' !in e
    requires forall k :: 0 <= k < |e| ==> !CounterAt(e, k)
    ensures var next := NextDefault(p + "_" + d + "." + e).value;
      NextDefault(next) == Some(p + "_" + ZeroPad3(DigitsValue(d) + 2) + "." + e)
  {
    CounterIncremented(p, d, e);
    var d2 := ZeroPad3(DigitsValue(d) + 1);
    ZeroPad3Shape(DigitsValue(d) + 1);
    CounterIncremented(p, d2, e);
  }

  /** A name without a counter gets `_001` before its extension. */
  lemma {:induction false} CounterAddedBeforeExtension(b: string, ext: string)
    requires |ext| >= 1 && forall k :: 0 <= k < |ext| ==> IsWordChar(ext[k])
    requires '\n' !in b
    requires CounterMatch(b + "." + ext).None?
    ensures NextDefault(b + "." + ext) == Some(b + "_001." + ext)
  {
    var s := b + "." + ext;
    assert Body(s) == s by { assert s[|s| - 1] == ext[|ext| - 1]; }
    var w := WordRunStart(s, |s|);
    assert !IsWordChar(s[|b|]);
    assert forall k :: |b| < k < |s| ==> IsWordChar(s[k]) by {
      forall k | |b| < k < |s| ensures IsWordChar(s[k]) { assert s[k] == ext[k - |b| - 1]; }
    }
    assert w == |b| + 1;
    assert ExtensionAt(s) == |b|;
    assert s[..|b|] == b && s[|b|..] == "." + ext;
    assert AddCounter(s) == b + "_001" + ("." + ext);
    assert b + "_001" + ("." + ext) == b + "_001." + ext;
    assert s != "";
    assert NextDefault(s) == Some(AddCounter(s));
  }

  /** A name without a counter and without an extension gets `_001` appended. */
  lemma CounterAppended(s: string)
    requires s != "" && '\n' !in s
    requires CounterMatch(s).None?
    requires ExtensionAt(s) == |s|
    ensures NextDefault(s) == Some(s + "_001")
  {
    assert s[|s| - 1] != '\n';
    assert Body(s) == s;
    assert s[..|s|] == s && s[|s|..] == [];
    assert AddCounter(s) == s + "_001" + [];
    assert s + "_001" + [] == s + "_001";
    assert NextDefault(s) == Some(AddCounter(s));
  }

  /** Counters of another width are not recognised: `x_12.txt` stores `x_12_001.txt`. */
  lemma TwoDigitCounterIgnored(s: string)
    requires s == "x_12.txt"
    ensures NextDefault(s) == Some("x_12_001.txt")
  {
    assert s == "x_12" + "." + "txt";
    assert Body(s) == s;
    assert forall k :: 0 <= k < |s| ==> !CounterAt(s, k);
    assert CounterMatch(s).None?;
    CounterAddedBeforeExtension("x_12", "txt");
    assert "x_12" + "_001." + "txt" == "x_12_001.txt";
  }
}

=== FILE: dt_subsystems.dfy ===
/**
 * The DT-Open Layers subsystems: the integer step of converting between a
 * voltage and a converter code, the de-interleaving of an acquisition
 * buffer into channels, and the A/D subsystem's bookkeeping of buffers
 * and of the futures waiting for data. The library calls are modelled by
 * their effect on the queues of buffers the driver holds.
 */
module DtSubsystems {
  import opened Wrappers

  function Pow2(n: nat): (p: nat)
    ensures p >= 1
  {
    if n == 0 then 1 else 2 * Pow2(n - 1)
  }

  /** `LibDacq.Encoding`: straight (offset) binary is 200, two's complement 201. */
  datatype Encoding = Binary | TwosComp
  {
    function Code(): nat { if this == Binary then 200 else 201 }

    /** The `offsetbinary_encoding` feat: True exactly for straight binary. */
    predicate OffsetBinary() { this == Binary }
  }

  /** `c ^ (1 << (res - 1))` on a res-bit code: its top bit flipped. */
  function FlipTop(c: nat, res: nat): (f: nat)
    requires res >= 1 && c < Pow2(res)
    ensures f < Pow2(res)
  {
    var t := Pow2(res - 1);
    if c < t then c + t else c - t
  }

  /** `c & ((1 << res) - 1)`. */
  function Mask(c: nat, res: nat): (m: nat)
    ensures m < Pow2(res)
  {
    c % Pow2(res)
  }

  /** The top-bit flip of a res-bit code is adding half the range, modulo the range. */
  lemma FlipTopIsHalfTurn(c: nat, res: nat)
    requires res >= 1 && c < Pow2(res)
    ensures Mask(FlipTop(c, res), res) == (c + Pow2(res - 1)) % Pow2(res)
  {
    var t := Pow2(res - 1);
    var m := Pow2(res);
    assert m == 2 * t;
    ModBelow(FlipTop(c, res), m);
    if c < t {
      ModBelow(c + t, m);
    } else {
      ModAbove(c + t, m);
    }
  }

  /** Flipping the top bit twice gives back the code. */
  lemma FlipTopInvolution(c: nat, res: nat)
    requires res >= 1 && c < Pow2(res)
    ensures Mask(FlipTop(Mask(FlipTop(c, res), res), res), res) == c
  {
    var m := Pow2(res);
    assert m == 2 * Pow2(res - 1);
    var d := FlipTop(c, res);
    ModBelow(d, m);
    ModBelow(FlipTop(d, res), m);
  }

  lemma ModBelow(x: int, m: int)
    requires 0 <= x < m
    ensures x % m == x
  {
  }

  lemma ModAbove(x: int, m: int)
    requires m <= x < 2 * m
    ensures x % m == x - m
  {
    ModBelow(x - m, m);
    assert x == (x - m) + m;
  }

  /**
   * The straight-binary code of a voltage in `[low, high)`:
   * `(voltage - low) / (high - low) * (1 << res)` truncated to an integer.
   */
  function RawCode(voltage: real, low: real, high: real, res: nat): (c: nat)
    requires low <= voltage < high
    ensures c < Pow2(res)
  {
    var x := (voltage - low) / (high - low);
    var p := Pow2(res) as real;
    FractionBelowOne(voltage - low, high - low);
    FractionScaled(x, p);
    (x * p).Floor
  }

  lemma FractionBelowOne(a: real, b: real)
    requires 0.0 <= a < b
    ensures 0.0 <= a / b < 1.0
  {
  }

  lemma FractionScaled(x: real, p: real)
    requires 0.0 <= x < 1.0 && p >= 1.0
    ensures 0.0 <= x * p < p
  {
  }

  /**
   * `voltageToCode` as written: out-of-range voltages raise; with
   * `offsetbinary_encoding` the straight-binary code has its top bit
   * flipped and is masked to res bits. A zero resolution makes the shift
   * count negative, a ValueError.
   */
  function VoltageToCodeAsWritten(voltage: real, low: real, high: real, res: nat, enc: Encoding): (r: Result<nat>)
    ensures r.Ok? <==> low <= voltage < high && (enc.OffsetBinary() ==> res >= 1)
    ensures r.Ok? ==> r.value < Pow2(res)
    ensures !(low <= voltage < high) ==> r == Err(RangeException("Voltage out of range", low, high))
    ensures r.Ok? ==> r.value == if enc.OffsetBinary()
      then (RawCode(voltage, low, high, res) + Pow2(res - 1)) % Pow2(res)
      else RawCode(voltage, low, high, res)
  {
    if voltage < low || voltage >= high then Err(RangeException("Voltage out of range", low, high))
    else
      var code := RawCode(voltage, low, high, res);
      if enc.OffsetBinary() then
        if res == 0 then Err(ValueError)
        else
          FlipTopIsHalfTurn(code, res);
          Ok(Mask(FlipTop(code, res), res))
      else Ok(code)
  }

  /**
   * `voltageToCode` as evidently intended: the straight-binary code is
   * what a straight-binary converter takes, and a two's complement
   * converter takes it with the top bit flipped.
   */
  function VoltageToCode(voltage: real, low: real, high: real, res: nat, enc: Encoding): (r: Result<nat>)
    ensures r.Ok? <==> low <= voltage < high && (!enc.OffsetBinary() ==> res >= 1)
    ensures r.Ok? ==> r.value < Pow2(res)
    ensures !(low <= voltage < high) ==> r == Err(RangeException("Voltage out of range", low, high))
    ensures r.Ok? ==> r.value == if !enc.OffsetBinary()
      then (RawCode(voltage, low, high, res) + Pow2(res - 1)) % Pow2(res)
      else RawCode(voltage, low, high, res)
  {
    if voltage < low || voltage >= high then Err(RangeException("Voltage out of range", low, high))
    else
      var code := RawCode(voltage, low, high, res);
      if !enc.OffsetBinary() then
        if res == 0 then Err(ValueError)
        else
          FlipTopIsHalfTurn(code, res);
          Ok(Mask(FlipTop(code, res), res))
      else Ok(code)
  }

  /**
   * The integer step of `codeToVoltage` as written, for a converter in
   * two's complement: `code.astype(np.uint) + 1 << (resolution - 1)`,
   * which Python groups as `(code + 1) << (resolution - 1)`, on numpy's
   * unsigned word `np.uint`, `word` bits wide (the width depends on the
   * platform and the numpy version). A zero resolution makes the shift
   * count negative, a ValueError; a straight-binary code is kept.
   */
  function CodeStepAsWritten(c: nat, res: nat, enc: Encoding, word: nat): (r: Result<nat>)
    ensures r.Err? <==> !enc.OffsetBinary() && res == 0
    ensures r.Err? ==> r.error == ValueError
    ensures enc.OffsetBinary() ==> r == Ok(c)
    ensures r.Ok? && !enc.OffsetBinary() ==>
      r.value < Pow2(word) && r.value == ((c + 1) * Pow2(res - 1)) % Pow2(word)
  {
    if enc.OffsetBinary() then Ok(c)
    else if res == 0 then Err(ValueError)
    else Ok(((c + 1) * Pow2(res - 1)) % Pow2(word))
  }

  /**
   * The integer step as evidently intended: a two's complement code read
   * as an unsigned word becomes straight binary by adding half the range
   * modulo the range, which is the top-bit flip `voltageToCode` uses.
   */
  function CodeStep(c: nat, res: nat, enc: Encoding): (s: nat)
    requires res >= 1 && c < Pow2(res)
    ensures s < Pow2(res)
  {
    if !enc.OffsetBinary() then Mask(FlipTop(c, res), res) else c
  }

  /** The intended step is the half-range shift written in `codeToVoltage`, reduced to the code range. */
  lemma CodeStepIsHalfTurn(c: nat, res: nat)
    requires res >= 1 && c < Pow2(res)
    ensures CodeStep(c, res, TwosComp) == (c + Pow2(res - 1)) % Pow2(res)
  {
    FlipTopIsHalfTurn(c, res);
  }

  /**
   * Written and read back through the intended conversions, a voltage's
   * code is its straight-binary code, for either encoding: the converter
   * receives the voltage that was asked for.
   */
  lemma VoltageCodeRoundTrip(voltage: real, low: real, high: real, res: nat, enc: Encoding)
    requires low <= voltage < high && res >= 1
    ensures VoltageToCode(voltage, low, high, res, enc).Ok?
    ensures CodeStep(VoltageToCode(voltage, low, high, res, enc).value, res, enc) == RawCode(voltage, low, high, res)
  {
    if !enc.OffsetBinary() {
      FlipTopInvolution(RawCode(voltage, low, high, res), res);
    }
  }

  /** With 16 bits, the precedence slip turns the two's complement code 1 into 65536, past the code range. */
  lemma CodeStepPrecedenceCounterexample(word: nat)
    requires word >= 17
    ensures CodeStepAsWritten(1, 16, TwosComp, word) == Ok(65536)
    ensures Pow2(16) == 65536
    ensures CodeStep(1, 16, TwosComp) == 32769
  {
    assert Pow2(15) == 32768 by { Pow2Values(); }
    assert Pow2(16) == 65536 by { Pow2Values(); }
    assert Pow2(word) > 65536 by { Pow2Grows(17, word); }
    assert (1 + 1) * Pow2(15) == 65536;
    ModBelow(65536, Pow2(word));
    assert FlipTop(1, 16) == 32769;
    ModBelow(32769, Pow2(16));
  }

  /**
   * On a straight-binary converter over -10 V to 10 V with 16 bits, the
   * written `voltageToCode` sends the bottom of the range as code 32768,
   * which that converter reads as mid-range; the intended one sends 0.
   */
  lemma EncodingCounterexample(low: real, high: real)
    requires low == -10.0 && high == 10.0
    ensures VoltageToCodeAsWritten(low, low, high, 16, Binary) == Ok(32768)
    ensures CodeStep(32768, 16, Binary) == 32768
    ensures VoltageToCode(low, low, high, 16, Binary) == Ok(0)
  {
    Pow2Values();
    assert RawCode(low, low, high, 16) == 0;
    FlipTopIsHalfTurn(0, 16);
  }

  lemma Pow2Values()
    ensures Pow2(15) == 32768 && Pow2(16) == 65536 && Pow2(17) == 131072
  {
    assert Pow2(4) == 16;
    assert Pow2(8) == 256;
    assert Pow2(12) == 4096;
  }

  lemma {:induction false} Pow2Grows(m: nat, n: nat)
    requires m <= n
    ensures Pow2(m) <= Pow2(n)
    decreases n - m
  {
    if m < n { Pow2Grows(m, n - 1); }
  }

  /**
   * `voltageToCode` on an array, as written: any element out of range
   * raises before anything is converted, and the shift by `res - 1` is
   * computed even for an empty array.
   */
  function VoltagesToCodesAsWritten(vs: seq<real>, low: real, high: real, res: nat, enc: Encoding): (r: Result<seq<nat>>)
    ensures r.Ok? <==> (forall k :: 0 <= k < |vs| ==> low <= vs[k] < high) && (enc.OffsetBinary() ==> res >= 1)
    ensures r.Ok? ==> |r.value| == |vs|
    ensures r.Ok? ==> forall k :: 0 <= k < |vs| ==> Ok(r.value[k]) == VoltageToCodeAsWritten(vs[k], low, high, res, enc)
  {
    if exists k :: 0 <= k < |vs| && !(low <= vs[k] < high) then Err(RangeException("Voltage out of range", low, high))
    else if enc.OffsetBinary() && res == 0 then Err(ValueError)
    else Ok(seq(|vs|, k requires 0 <= k < |vs| => VoltageToCodeAsWritten(vs[k], low, high, res, enc).value))
  }

  // ---------------------------------------------------------------------
  // De-interleaving an acquisition buffer

  /** `xs[i::n]`: the elements at i, i + n, i + 2n, ... */
  function Stride<T>(xs: seq<T>, i: nat, n: nat): (r: seq<T>)
    requires n >= 1
    ensures forall k :: 0 <= k < |r| ==> Pos(i, k, n) < |xs| && r[k] == xs[Pos(i, k, n)]
    ensures i + |r| * n >= |xs|
    decreases |xs| - i
  {
    if i >= |xs| then [] else
      var rest := Stride(xs, i + n, n);
      StrideStep(xs, i, n, rest);
      [xs[i]] + rest
  }

  /** The induction step of `Stride`: one more element in front shifts every index by n. */
  lemma StrideStep<T>(xs: seq<T>, i: nat, n: nat, rest: seq<T>)
    requires n >= 1 && i < |xs|
    requires forall k :: 0 <= k < |rest| ==> Pos(i + n, k, n) < |xs| && rest[k] == xs[Pos(i + n, k, n)]
    requires i + n + |rest| * n >= |xs|
    ensures forall k :: 0 <= k < 1 + |rest| ==> Pos(i, k, n) < |xs| && ([xs[i]] + rest)[k] == xs[Pos(i, k, n)]
    ensures i + (1 + |rest|) * n >= |xs|
  {
    forall k | 0 <= k < 1 + |rest|
      ensures Pos(i, k, n) < |xs| && ([xs[i]] + rest)[k] == xs[Pos(i, k, n)]
    {
      if k > 0 {
        assert ([xs[i]] + rest)[k] == rest[k - 1];
        MulShift(i, n, k);
        assert Pos(i + n, k - 1, n) == Pos(i, k, n);
      }
    }
    MulShift(i, n, 1 + |rest|);
  }

  /** The position of element k of the stride that starts at i. */
  function Pos(i: nat, k: nat, n: nat): nat
  {
    i + k * n
  }

  lemma MulShift(i: int, n: int, k: int)
    ensures i + n + (k - 1) * n == i + k * n
  {
  }

  /** Every sample at `i + k n` is element k of the stride starting at i. */
  lemma StrideAt<T>(xs: seq<T>, n: nat, i: nat, k: nat, j: nat)
    requires n >= 1 && j == i + k * n && j < |xs|
    ensures k < |Stride(xs, i, n)| && Stride(xs, i, n)[k] == xs[j]
  {
    var r := Stride(xs, i, n);
    assert Pos(i, k, n) == j;
    if |r| <= k {
      MulMonotone(|r|, k, n);
      assert false;
    }
  }

  /**
   * The strides of a buffer partition it: sample j of the buffer is
   * element j / n of the stride that starts at j % n.
   */
  lemma StrideCovers<T>(xs: seq<T>, n: nat, j: nat)
    requires n >= 1 && j < |xs|
    ensures j / n < |Stride(xs, j % n, n)| && Stride(xs, j % n, n)[j / n] == xs[j]
  {
    var i, k := j % n, j / n;
    DivMod(j, n);
    StrideAt(xs, n, i, k, j);
  }

  lemma DivMod(j: nat, n: nat)
    requires n >= 1
    ensures j % n + (j / n) * n == j && j / n >= 0
  {
  }

  lemma MulMonotone(a: nat, b: nat, n: nat)
    requires a <= b
    ensures a * n <= b * n
  {
  }

  /** Strides with different starts below n share no sample: `i + k n` names one sample. */
  lemma StridesDisjoint(n: nat, i1: nat, k1: nat, i2: nat, k2: nat)
    requires n >= 1 && i1 < n && i2 < n
    requires i1 + k1 * n == i2 + k2 * n
    ensures i1 == i2 && k1 == k2
  {
    if k1 < k2 {
      MulMonotone(k1 + 1, k2, n);
      MulShift(0, n, k1 + 1);
    } else if k2 < k1 {
      MulMonotone(k2 + 1, k1, n);
      MulShift(0, n, k2 + 1);
    }
  }

  /** A channel list entry, `(channel, gain)`. */
  type Entry = (int, real)

  /** The channel of some entry in `entries[..upto]`. */
  function ChannelsOf(entries: seq<Entry>, upto: nat): set<int>
    requires upto <= |entries|
  {
    if upto == 0 then {} else ChannelsOf(entries, upto - 1) + {entries[upto - 1].0}
  }

  /** The keys of the de-interleaved dict are exactly the channels listed. */
  lemma {:induction false} ChannelsOfListed(entries: seq<Entry>, upto: nat, c: int)
    requires upto <= |entries|
    ensures c in ChannelsOf(entries, upto) <==> exists ii :: 0 <= ii < upto && entries[ii].0 == c
  {
    if upto > 0 {
      ChannelsOfListed(entries, upto - 1, c);
      if entries[upto - 1].0 == c {
        assert exists ii :: 0 <= ii < upto && entries[ii].0 == c;
      }
    }
  }

  /**
   * The dict comprehension of `read` over the first `upto` entries: entry
   * `ii` maps its channel to the stride starting at ii, and a later entry
   * for the same channel overwrites an earlier one.
   */
  function DeinterleaveUpto(raw: seq<int>, entries: seq<Entry>, upto: nat): (m: map<int, seq<int>>)
    requires upto <= |entries|
    ensures m.Keys == ChannelsOf(entries, upto)
  {
    if upto == 0 then map[] else
      DeinterleaveUpto(raw, entries, upto - 1)[entries[upto - 1].0 := Stride(raw, upto - 1, |entries|)]
  }

  /** The channel of entry ii holds the stride starting at ii, unless a later entry has the same channel. */
  lemma {:induction false} DeinterleaveLastWins(raw: seq<int>, entries: seq<Entry>, upto: nat, ii: nat)
    requires ii < upto <= |entries| && LastFor(entries, upto, ii)
    ensures var m := DeinterleaveUpto(raw, entries, upto);
      entries[ii].0 in m && m[entries[ii].0] == Stride(raw, ii, |entries|)
  {
    if ii < upto - 1 {
      LastForShrinks(entries, upto);
      DeinterleaveLastWins(raw, entries, upto - 1, ii);
    }
  }

  /** Entry ii is the last one in `entries[..upto]` for its channel. */
  predicate LastFor(entries: seq<Entry>, upto: nat, ii: nat)
    requires ii < upto <= |entries|
  {
    forall jj :: ii < jj < upto ==> entries[jj].0 != entries[ii].0
  }

  /** An entry last for its channel among `upto` entries, other than the last entry, is last among `upto - 1` and has another channel than the last entry. */
  lemma LastForShrinks(entries: seq<Entry>, upto: nat)
    requires 1 <= upto <= |entries|
    ensures forall ii :: 0 <= ii < upto - 1 && LastFor(entries, upto, ii) ==>
      LastFor(entries, upto - 1, ii) && entries[ii].0 != entries[upto - 1].0
  {
  }

  function Deinterleave(raw: seq<int>, entries: seq<Entry>): map<int, seq<int>>
  {
    DeinterleaveUpto(raw, entries, |entries|)
  }

  /**
   * With distinct channels, every sample of the buffer reaches its
   * channel: sample i + k n lands at position k of the channel of entry
   * i, and by `StridesDisjoint` no other sample lands there.
   */
  lemma DeinterleaveKeepsEverySample(raw: seq<int>, entries: seq<Entry>, i: nat, k: nat)
    requires i < |entries| && Pos(i, k, |entries|) < |raw|
    requires forall a, b :: 0 <= a < b < |entries| ==> entries[a].0 != entries[b].0
    ensures var m := Deinterleave(raw, entries);
      && entries[i].0 in m
      && k < |m[entries[i].0]|
      && m[entries[i].0][k] == raw[Pos(i, k, |entries|)]
  {
    var n := |entries|;
    assert LastFor(entries, n, i);
    DeinterleaveLastWins(raw, entries, n, i);
    StrideAt(raw, n, i, k, Pos(i, k, n));
  }

  /** Two entries for the same channel: the later one's samples are kept. */
  lemma DuplicateChannelLaterWins(raw: seq<int>, c: int, g1: real, g2: real)
    requires |raw| >= 2
    ensures Deinterleave(raw, [(c, g1), (c, g2)]) == map[c := Stride(raw, 1, 2)]
  {
    var entries := [(c, g1), (c, g2)];
    var m := Deinterleave(raw, entries);
    assert ChannelsOf(entries, 1) == {c};
    DeinterleaveLastWins(raw, entries, 2, 1);
    assert m.Keys == {c} && m[c] == Stride(raw, 1, 2);
  }

  // ---------------------------------------------------------------------
  // The A/D subsystem

  /** `Subsystem.Messages.BUFFER_DONE`. */
  const BufferDone: int := 0x400 + 103

  /**
   * What `read` returns: the empty dict when the driver has no filled
   * buffer, otherwise the samples of each channel. The real dict also
   * holds a `'time'` entry, so it is never empty.
   */
  datatype Reading = Empty | Data(channels: map<int, seq<int>>)

  /** What `read_async` does: returns the data at once, or waits on a new future. */
  datatype AsyncRead = Immediate(channels: map<int, seq<int>>) | Pending(future: nat)

  /** The handles of a list of (handle, payload) pairs, in order. */
  function Ids<T>(xs: seq<(nat, T)>): (ids: seq<nat>)
    ensures |ids| == |xs| && forall k :: 0 <= k < |xs| ==> ids[k] == xs[k].0
  {
    seq(|xs|, k requires 0 <= k < |xs| => xs[k].0)
  }

  function Held(ready: seq<nat>, done: seq<(nat, seq<int>)>): multiset<nat>
  {
    multiset(ready) + multiset(Ids(done))
  }

  /** Each handle held once, and every one below the next to be allocated. */
  predicate Distinct(held: multiset<nat>, bound: nat)
  {
    forall b :: b in held ==> b < bound && held[b] == 1
  }

  lemma DistinctRemove(held: multiset<nat>, rest: multiset<nat>, x: nat, bound: nat)
    requires held == rest + multiset{x} && Distinct(held, bound)
    ensures Distinct(rest, bound)
  {
    forall b | b in rest
      ensures b < bound && rest[b] == 1
    {
      assert held[b] == rest[b] + (if b == x then 1 else 0);
    }
  }

  predicate Below(xs: seq<nat>, bound: nat)
  {
    forall k :: 0 <= k < |xs| ==> xs[k] < bound
  }

  lemma IncreasingAppend(xs: seq<nat>, f: nat)
    requires Increasing(xs) && Below(xs, f)
    ensures Increasing(xs + [f]) && Below(xs + [f], f + 1)
  {
  }

  predicate Increasing(xs: seq<nat>)
  {
    forall a, b :: 0 <= a < b < |xs| ==> xs[a] < xs[b]
  }

  /** The handles `from`, `from + 1`, ..., allocated in order. */
  function Handles(from: nat, count: nat): (hs: seq<nat>)
    ensures |hs| == count && forall k :: 0 <= k < count ==> hs[k] == from + k
  {
    seq(count, k requires 0 <= k < count => from + k)
  }

  function Nones(count: nat): (ns: seq<Option<nat>>)
    ensures |ns| == count && forall k :: 0 <= k < count ==> ns[k] == None
  {
    seq(count, k requires 0 <= k < count => None)
  }

  function Freed(done: seq<(nat, seq<int>)>): (fs: seq<Option<nat>>)
    ensures |fs| == |done| && forall k :: 0 <= k < |done| ==> fs[k] == Some(done[k].0)
  {
    seq(|done|, k requires 0 <= k < |done| => Some(done[k].0))
  }

  /**
   * What `read` returns, given the filled buffers and the channel list:
   * the empty dict with no filled buffer, an AttributeError when
   * `configure` never set the channel list, a ZeroDivisionError from the
   * `'time'` entry when the list is empty, and otherwise the oldest
   * buffer de-interleaved.
   */
  function ReadResult(done: seq<(nat, seq<int>)>, samples: Option<seq<Entry>>): (r: Result<Reading>)
    ensures r == Ok(Empty) <==> done == []
    ensures done != [] && samples.None? ==> r == Err(AttributeError)
    ensures done != [] && samples == Some([]) ==> r == Err(ZeroDivisionError)
    ensures done != [] && samples.Some? && |samples.value| >= 1 ==> r.Ok? && r.value.Data?
    ensures r.Ok? && r.value.Data? ==>
      samples.Some? && |samples.value| >= 1 && done != [] && r.value.channels == Deinterleave(done[0].1, samples.value)
  {
    if done == [] then Ok(Empty)
    else if samples.None? then Err(AttributeError)
    else if |samples.value| == 0 then Err(ZeroDivisionError)
    else Ok(Data(Deinterleave(done[0].1, samples.value)))
  }

  /** The filled buffers after `read`: the oldest one is taken. */
  function ReadDone(done: seq<(nat, seq<int>)>): seq<(nat, seq<int>)>
  {
    if done == [] then [] else done[1..]
  }

  /**
   * The buffers waiting to be filled after `read`: the one read is put
   * back, unless the missing channel list raised before that.
   */
  function ReadReady(ready: seq<nat>, done: seq<(nat, seq<int>)>, samples: Option<seq<Entry>>): seq<nat>
  {
    if done == [] || samples.None? then ready else ready + [done[0].0]
  }

  /**
   * `read` hands the buffer it read back to the driver, so the driver
   * holds the same buffers as before; only a missing channel list loses
   * the buffer, which is then never freed by `close`.
   */
  lemma ReadKeepsBuffers(ready: seq<nat>, done: seq<(nat, seq<int>)>, samples: Option<seq<Entry>>)
    ensures done == [] || samples.Some? ==>
      Held(ReadReady(ready, done, samples), ReadDone(done)) == Held(ready, done)
    ensures done != [] && samples.None? ==>
      Held(ReadReady(ready, done, samples), ReadDone(done)) + multiset{done[0].0} == Held(ready, done)
  {
    if done != [] {
      HeldTail(ready, done);
    }
  }

  /** Taking the oldest filled buffer takes its handle out of the driver's hold. */
  lemma HeldTail(ready: seq<nat>, done: seq<(nat, seq<int>)>)
    requires done != []
    ensures Held(ready, done) == Held(ready, done[1..]) + multiset{done[0].0}
  {
    assert Ids(done) == [done[0].0] + Ids(done[1..]);
  }

  /** Filling a buffer moves its handle from one queue to the other. */
  lemma HeldFill(ready: seq<nat>, done: seq<(nat, seq<int>)>, data: seq<int>)
    requires ready != []
    ensures Held(ready[1..], done + [(ready[0], data)]) == Held(ready, done)
  {
    assert Ids(done + [(ready[0], data)]) == Ids(done) + [ready[0]];
    assert ready == [ready[0]] + ready[1..];
  }

  /** Dropping one element of an increasing sequence leaves it increasing. */
  lemma IncreasingDrop(xs: seq<nat>, f: nat, ys: seq<nat>, bound: nat)
    requires Increasing(xs + [f] + ys) && Below(xs + [f] + ys, bound)
    ensures Increasing(xs + ys) && Below(xs + ys, bound)
  {
    var all := xs + [f] + ys;
    forall k | 0 <= k < |xs + ys|
      ensures (xs + ys)[k] < bound
    {
      assert (xs + ys)[k] == all[if k < |xs| then k else k + 1];
    }
    forall a, b | 0 <= a < b < |xs + ys|
      ensures (xs + ys)[a] < (xs + ys)[b]
    {
      var a' := if a < |xs| then a else a + 1;
      var b' := if b < |xs| then b else b + 1;
      assert (xs + ys)[a] == all[a'] && (xs + ys)[b] == all[b'];
    }
  }

  /**
   * `ADSubsystem`, with the driver's two buffer queues made visible:
   * `ready` holds the buffers handed to the driver and not yet filled,
   * `done` the filled ones, which `olDaGetBuffer` returns oldest first
   * (and a null handle when there is none). `futures` is the queue of
   * futures waiting for data, and `resolved` the results scheduled on
   * the event loop, in order.
   */
  class ADSubsystem {
    var samples: Option<seq<Entry>>
    var buffers: nat
    var ready: seq<nat>
    var done: seq<(nat, seq<int>)>
    var freed: seq<Option<nat>>
    var nextBuffer: nat
    var futures: seq<nat>
    var nextFuture: nat
    var resolved: seq<(nat, Reading)>


    /**
     * No buffer is held twice by the driver and every one was allocated;
     * the futures, those resolved and those still waiting, were created
     * in that order, so each is resolved at most once, oldest first.
     */
    predicate Valid()
      reads this
    {
      && Distinct(Held(ready, done), nextBuffer)
      && Increasing(Ids(resolved) + futures)
      && Below(Ids(resolved) + futures, nextFuture)
    }

    constructor ()
      ensures Valid()
      ensures samples == None && buffers == 0 && ready == [] && done == [] && freed == []
      ensures futures == [] && resolved == [] && nextBuffer == 0 && nextFuture == 0
    {
      samples := None;
      buffers := 0;
      ready := [];
      done := [];
      freed := [];
      nextBuffer := 0;
      futures := [];
      nextFuture := 0;
      resolved := [];
      new;
      assert Ids(done) == [];
    }

    /** `configure(samples)`: keeps the channel list; the driver calls are not modelled. */
    method Configure(entries: seq<Entry>)
      modifies this
      requires Valid()
      ensures Valid()
      ensures samples == Some(entries)
      ensures buffers == old(buffers) && ready == old(ready) && done == old(done) && freed == old(freed)
      ensures nextBuffer == old(nextBuffer) && futures == old(futures) && nextFuture == old(nextFuture)
      ensures resolved == old(resolved)
    {
      samples := Some(entries);
    }

    /**
     * `prepareBuffers(number, size)`: allocates `number` buffers and hands
     * each to the driver in turn, then counts them.
     */
    method PrepareBuffers(number: nat, size: nat)
      modifies this
      requires Valid()
      ensures Valid()
      ensures ready == old(ready) + Handles(old(nextBuffer), number)
      ensures buffers == old(buffers) + number && nextBuffer == old(nextBuffer) + number
      ensures samples == old(samples) && done == old(done) && freed == old(freed)
      ensures futures == old(futures) && nextFuture == old(nextFuture) && resolved == old(resolved)
    {
      var ii := 0;
      while ii < number
        invariant 0 <= ii <= number
        invariant Valid()
        invariant ready == old(ready) + Handles(old(nextBuffer), ii)
        invariant nextBuffer == old(nextBuffer) + ii
        invariant buffers == old(buffers)
        invariant samples == old(samples) && done == old(done) && freed == old(freed)
        invariant futures == old(futures) && nextFuture == old(nextFuture) && resolved == old(resolved)
      {
        var buf := nextBuffer;
        nextBuffer := nextBuffer + 1;
        PutFresh(buf);
        ii := ii + 1;
        assert ready == old(ready) + Handles(old(nextBuffer), ii);
      }
      buffers := buffers + number;
    }

    /** `olDaPutBuffer` of a newly allocated buffer. */
    method PutFresh(buf: nat)
      modifies this
      requires Valid() && buf == nextBuffer - 1
      requires buf !in Held(ready, done)
      ensures Valid()
      ensures ready == old(ready) + [buf]
      ensures buffers == old(buffers) && nextBuffer == old(nextBuffer)
      ensures samples == old(samples) && done == old(done) && freed == old(freed)
      ensures futures == old(futures) && nextFuture == old(nextFuture) && resolved == old(resolved)
    {
      ready := ready + [buf];
      assert Held(ready, done) == Held(old(ready), done) + multiset{buf};
    }
  
    /**
     * The driver fills the oldest buffer handed to it (and then posts
     * BUFFER_DONE, which is `Callback`). This is the driver's side, not
     * the subsystem's code.
     */
    method BufferFilled(data: seq<int>)
      modifies this
      requires Valid()
      ensures Valid()
      ensures old(ready) == [] ==> ready == old(ready) && done == old(done)
      ensures old(ready) != [] ==> ready == old(ready)[1..] && done == old(done) + [(old(ready)[0], data)]
      ensures buffers == old(buffers) && nextBuffer == old(nextBuffer)
      ensures samples == old(samples) && freed == old(freed)
      ensures futures == old(futures) && nextFuture == old(nextFuture) && resolved == old(resolved)
    {
      if ready != [] {
        HeldFill(ready, done, data);
        done := done + [(ready[0], data)];
        ready := ready[1..];
      }
    }

    /**
     * `read()`: takes the oldest filled buffer, de-interleaves it by the
     * channel list and hands the buffer back to the driver.
     */
    method Read() returns (r: Result<Reading>)
      modifies this
      requires Valid()
      ensures Valid()
      ensures r == ReadResult(old(done), old(samples))
      ensures done == ReadDone(old(done)) && ready == ReadReady(old(ready), old(done), old(samples))
      ensures buffers == old(buffers) && nextBuffer == old(nextBuffer)
      ensures samples == old(samples) && freed == old(freed)
      ensures futures == old(futures) && nextFuture == old(nextFuture) && resolved == old(resolved)
    {
      if done == [] {
        return Ok(Empty);
      }
      var buf, raw := TakeOldest();
      if samples.None? {
        return Err(AttributeError);
      }
      var entries := samples.value;
      var channels := Deinterleave(raw, entries);
      PutBack(buf);
      if |entries| == 0 {
        return Err(ZeroDivisionError);
      }
      r := Ok(Data(channels));
    }

    /** `olDaGetBuffer` with a filled buffer at hand: the oldest one. */
    method TakeOldest() returns (buf: nat, raw: seq<int>)
      modifies this
      requires Valid() && done != []
      ensures Valid() && buf < nextBuffer && buf !in Held(ready, done)
      ensures (buf, raw) == old(done)[0] && done == old(done)[1..] && ready == old(ready)
      ensures buffers == old(buffers) && nextBuffer == old(nextBuffer)
      ensures samples == old(samples) && freed == old(freed)
      ensures futures == old(futures) && nextFuture == old(nextFuture) && resolved == old(resolved)
    {
      buf, raw := done[0].0, done[0].1;
      HeldTail(ready, done);
      DistinctRemove(Held(ready, done), Held(ready, done[1..]), buf, nextBuffer);
      assert buf in Held(ready, done) && Held(ready, done)[buf] == Held(ready, done[1..])[buf] + 1;
      done := done[1..];
    }

    /** `olDaPutBuffer` of a buffer taken from the driver. */
    method PutBack(buf: nat)
      modifies this
      requires Valid() && buf < nextBuffer && buf !in Held(ready, done)
      ensures Valid()
      ensures ready == old(ready) + [buf] && done == old(done)
      ensures buffers == old(buffers) && nextBuffer == old(nextBuffer)
      ensures samples == old(samples) && freed == old(freed)
      ensures futures == old(futures) && nextFuture == old(nextFuture) && resolved == old(resolved)
    {
      ready := ready + [buf];
      assert Held(ready, done) == Held(old(ready), done) + multiset{buf};
    }

    /**
     * `read_async()`: with data at hand, returns it; with none, queues a
     * new future and waits on it. An exception of `read` escapes.
     */
    method ReadAsync() returns (r: Result<AsyncRead>)
      modifies this
      requires Valid()
      ensures Valid()
      ensures var x := ReadResult(old(done), old(samples));
        && (x.Err? ==> r == Err(x.error) && futures == old(futures) && nextFuture == old(nextFuture))
        && (x == Ok(Empty) ==>
              r == Ok(Pending(old(nextFuture))) && futures == old(futures) + [old(nextFuture)] && nextFuture == old(nextFuture) + 1)
        && (x.Ok? && x.value.Data? ==>
              r == Ok(Immediate(x.value.channels)) && futures == old(futures) && nextFuture == old(nextFuture))
      ensures done == ReadDone(old(done)) && ready == ReadReady(old(ready), old(done), old(samples))
      ensures buffers == old(buffers) && nextBuffer == old(nextBuffer)
      ensures samples == old(samples) && freed == old(freed) && resolved == old(resolved)
    {
      var x := Read();
      if x.Err? {
        return Err(x.error);
      }
      if x.value.Empty? {
        var future := nextFuture;
        IncreasingAppend(Ids(resolved) + futures, future);
        futures := futures + [future];
        nextFuture := nextFuture + 1;
        assert Ids(resolved) + futures == Ids(resolved) + old(futures) + [future];
        return Ok(Pending(future));
      }
      r := Ok(Immediate(x.value.channels));
    }

    /**
     * `callback(message, ...)`: on BUFFER_DONE, the oldest waiting future
     * gets the result of `read()`. If no future waits, or the message is
     * another one, nothing happens. An exception of `read` leaves the
     * callback after the future was taken, which is then never resolved.
     */
    method Callback(message: int)
      modifies this
      requires Valid()
      ensures Valid()
      ensures message != BufferDone || old(futures) == [] ==>
        && done == old(done) && ready == old(ready)
        && futures == old(futures) && resolved == old(resolved)
      ensures message == BufferDone && old(futures) != [] ==>
        var x := ReadResult(old(done), old(samples));
        && done == ReadDone(old(done)) && ready == ReadReady(old(ready), old(done), old(samples))
        && futures == old(futures)[1..]
        && resolved == old(resolved) + (if x.Ok? then [(old(futures)[0], x.value)] else [])
      ensures buffers == old(buffers) && nextBuffer == old(nextBuffer) && nextFuture == old(nextFuture)
      ensures samples == old(samples) && freed == old(freed)
    {
      if message != BufferDone || futures == [] {
        return;
      }
      var future := futures[0];
      var rest := futures[1..];
      assert Ids(resolved) + futures == Ids(resolved) + [future] + rest;
      IncreasingDrop(Ids(resolved), future, rest, nextFuture);
      futures := rest;
      var x := Read();
      if x.Ok? {
        var before := resolved;
        resolved := resolved + [(future, x.value)];
        assert Ids(resolved) + futures == Ids(before) + [future] + rest;
      }
    }

    /**
     * `close()`: stops the subsystem (ignoring any error), then fetches a
     * buffer from the driver and frees it, `buffers` times. A fetch with
     * no filled buffer gives a null handle, which is freed all the same.
     * The count `buffers` is not reset.
     */
    method Close()
      modifies this
      requires Valid()
      ensures Valid()
      ensures var t := if buffers < |old(done)| then buffers else |old(done)|;
        && freed == old(freed) + Freed(old(done)[..t]) + Nones(buffers - t)
        && done == old(done)[t..]
      ensures |freed| == |old(freed)| + buffers
      ensures buffers == old(buffers) && ready == old(ready) && nextBuffer == old(nextBuffer)
      ensures samples == old(samples)
      ensures futures == old(futures) && nextFuture == old(nextFuture) && resolved == old(resolved)
    {
      var ii := 0;
      while ii < buffers
        invariant 0 <= ii <= buffers
        invariant Valid()
        invariant var t := if ii < |old(done)| then ii else |old(done)|;
          && freed == old(freed) + Freed(old(done)[..t]) + Nones(ii - t)
          && done == old(done)[t..]
        invariant buffers == old(buffers) && ready == old(ready) && nextBuffer == old(nextBuffer)
        invariant samples == old(samples)
        invariant futures == old(futures) && nextFuture == old(nextFuture) && resolved == old(resolved)
      {
        ghost var t := if ii < |old(done)| then ii else |old(done)|;
        FetchAndFree();
        if ii < |old(done)| {
          assert Freed(old(done)[..ii + 1]) == Freed(old(done)[..ii]) + [Some(old(done)[ii].0)];
          assert old(done)[ii..][1..] == old(done)[ii + 1..];
        } else {
          assert Nones(ii + 1 - t) == Nones(ii - t) + [None];
        }
        ii := ii + 1;
      }
    }

    /**
     * One round of `close`'s loop: `olDaGetBuffer` hands out the oldest
     * filled buffer, or a null handle, and `olDmFreeBuffer` frees it.
     */
    method FetchAndFree()
      modifies this
      requires Valid()
      ensures Valid()
      ensures old(done) != [] ==> freed == old(freed) + [Some(old(done)[0].0)] && done == old(done)[1..]
      ensures old(done) == [] ==> freed == old(freed) + [None] && done == old(done)
      ensures buffers == old(buffers) && ready == old(ready) && nextBuffer == old(nextBuffer)
      ensures samples == old(samples)
      ensures futures == old(futures) && nextFuture == old(nextFuture) && resolved == old(resolved)
    {
      if done != [] {
        HeldTail(ready, done);
        DistinctRemove(Held(ready, done), Held(ready, done[1..]), done[0].0, nextBuffer);
        freed := freed + [Some(done[0].0)];
        done := done[1..];
      } else {
        freed := freed + [None];
      }
    }
  }
}

=== FILE: dtlib.dfy ===
/**
 * The DT-Open Layers library wrapper: the table of error codes, the
 * `ecodeCheck` hook that turns a non-zero code into an exception, and the
 * registration of the library's functions. The library itself (loading,
 * calling through ctypes) is outside the model: its exported symbols are
 * a map from name to function address.
 */
module DtLib {
  import opened Wrappers
  import opened Text

  /**
   * The error table, in its three contiguous blocks of codes: 0 to 50,
   * 60 to 144 and 200 to 220. Each entry is the code's symbol and message.
   */
  const FirstBlock: seq<(string, string)> := [
    ("OLSUCCESS", "No Error"),
    ("OLBADCAP", "Invalid capability specified"),
    ("OLBADELEMENT", "Invalid element specified"),
    ("OLBADSUBSYSTEM", "Invalid subsystem specified"),
    ("OLNOTENOUGHDMACHANS", "Not Enough DMA Channels"),
    ("OLBADLISTSIZE", "Invalid List Size"),
    ("OLBADLISTENTRY", "Invalid List Entry"),
    ("OLBADCHANNEL", "Invalid Channel"),
    ("OLBADCHANNELTYPE", "Invalid Channel Type"),
    ("OLBADENCODING", "Invalid Encoding"),
    ("OLBADTRIGGER", "Invalid Trigger"),
    ("OLBADRESOLUTION", "Invalid Resolution"),
    ("OLBADCLOCKSOURCE", "Invalid Clock source"),
    ("OLBADFREQUENCY", "Invalid Frequency"),
    ("OLBADPULSETYPE", "Invalid Pulse Type"),
    ("OLBADPULSEWIDTH", "Invalid Pulse Width"),
    ("OLBADCOUNTERMODE", "Invalid Counter Mode"),
    ("OLBADCASCADEMODE", "Invalid Cascade Mode"),
    ("OLBADDATAFLOW", "Invalid Data Flow"),
    ("OLBADWINDOWHANDLE", "Invalid Window Handle"),
    ("OLSUBSYSINUSE", "Subsystem in use"),
    ("OLSUBSYSNOTINUSE", "Subsystem not in use"),
    ("OLALREADYRUNNING", "Subsystem already running"),
    ("OLNOCHANNELLIST", "No channel list"),
    ("OLNOGAINLIST", "No gain list"),
    ("OLNOFILTERLIST", "No filter list"),
    ("OLNOTCONFIGURED", "Subsystem Not configured"),
    ("OLDATAFLOWMISMATCH", "Data flow mismatch"),
    ("OLNOTRUNNING", "Subsystem not running"),
    ("OLBADRANGE", "Invalid Range"),
    ("OLBADSSCAP", "Invalid Subsystem Capability"),
    ("OLBADDEVCAP", "Invalid DtDevice Capability"),
    ("OLBADRANGEINDEX", "Invalid Range Index"),
    ("OLBADFILTERINDEX", "Invalid Filter Index"),
    ("OLBADGAININDEX", "Invalid Gain Index"),
    ("OLBADWRAPMODE", "Invalid Wrap Mode"),
    ("OLNOTSUPPORTED", "Not Supported"),
    ("OLBADDIVIDER", "Invalid Divider Value"),
    ("OLBADGATE", "Invalid Gate"),
    ("OLBADDEVHANDLE", "Invalid DtDevice Handle"),
    ("OLBADSSHANDLE", "Invalid Subsystem Handle"),
    ("OLCANNOTALLOCDASS", "Cannot allocate DASS"),
    ("OLCANNOTDEALLOCDASS", "Cannot Deallocate DASS"),
    ("OLBUFFERSLEFT", "Transfer list not empty"),
    ("OLBOARDRUNNING", "Another Subsystem on board is already running"),
    ("OLINVALIDCHANNELLIST", "Channel list has been filled incorrectly"),
    ("OLINVALIDCLKTRIGCOMBO", "Selected clock & trigger source may not be used together"),
    ("OLCANNOTALLOCLUSERDATA", "Driver could not allocate needed memory"),
    ("OLCANTSVTRIGSCAN", "Triggered Scan not available in single value mode"),
    ("OLCANTSVEXTCLOCK", "External Clock is not available in single value mode"),
    ("OLBADRESOLUTIONINDEX", "Bad Resolution Selected")
  ]

  const SecondBlock: seq<(string, string)> := [
    ("OLADTRIGERR", "A/D Trigger Error"),
    ("OLADOVRRN", "A/D Overrun Error"),
    ("OLDATRIGERR", "D/A Trigger Error"),
    ("OLDAUNDRRN", "D/A Underrun Error"),
    ("OLNOREADYBUFFERS", "No Ready Buffers"),
    ("OLBADCPU", "Library Requires i386 or i486"),
    ("OLBADWINMODE", "Library Requires Windows 3.x Enhanced mode"),
    ("OLCANNOTOPENDRIVER", "Driver cannot be initialized"),
    ("OLBADENUMCAP", "Cannot enumerate this capability"),
    ("OLBADDASSPROC", "Dass Proc CallBack NUL"),
    ("OLBADENUMPROC", "Enum Proc CallBack NULL"),
    ("OLNOWINDOWHANDLE", "No Window Handle"),
    ("OLCANTCASCADE", "Subsystem cannot be cascaded"),
    ("OLINVALIDCONFIGURATION", "Invalid configuration in SYSTEM.INI"),
    ("OLCANNOTALLOCJUMPERS", "Cannot allocate memory for jumpers"),
    ("OLCANNOTALLOCCHANNELLIST", "Cannot allocate channel list"),
    ("OLCANNOTALLOCGAINLIST", "Cannot allocate gain list"),
    ("OLCANNOTALLOCFILTERLIST", "Cannot allocate filter list"),
    ("OLNOBOARDSINSTALLED", "No DT-Open Layers boards installed"),
    ("OLINVALIDDMASCANCOMBO", "Invalid DMA / Scan combination"),
    ("OLINVALIDPULSETYPE", "Invalid pulse type"),
    ("OLINVALIDGAINLIST", "Invalid gain list"),
    ("OLWRONGCOUNTERMODE", "Wrong counter mode"),
    ("OLLPSTRNULL", "LPSTR passed as a parameter was NULL"),
    ("OLINVALIDPIODFCOMBO", "Invalid Polled I/O combination"),
    ("OLINVALIDSCANTRIGCOMBO", "Invalid Scan / Trigger combo"),
    ("OLBADGAIN", "Invalid Gain"),
    ("OLNOMEASURENOTIFY", "No window handle specified for frequency measurement"),
    ("OLBADCOUNTDURATION", "Invalid count duration for frequency measurement"),
    ("OLBADQUEUE", "Invalid queue type specified"),
    ("OLBADRETRIGGERRATE", "Invalid Retrigger Rate for channel list size"),
    ("OLCOMMANDTIMEOUT", "No Command Response from Hardware"),
    ("OLCOMMANDOVERRUN", "Hardware Command Sequence Error"),
    ("OLDATAOVERRUN", "Hardware Data Sequence Error"),
    ("OLCANNOTALLOCTIMERDATA", "Cannot allocate timer data for driver"),
    ("OLBADHTIMER", "Invalid Timer handle"),
    ("OLBADTIMERMODE", "Invalid Timer mode"),
    ("OLBADTIMERFREQUENCY", "Invalid Timer frequency"),
    ("OLBADTIMERPROC", "Invalid Timer callback procedure"),
    ("OLBADDMABUFFERSIZE", "Invalid Timer DMA buffer size"),
    ("OLBADDIGITALIOLISTVALUE", "Illegal synchronous digital I/O value requested."),
    ("OLCANNOTALLOCSSLIST", "Cannot allocate simultaneous start list"),
    ("OLBADSSLISTHANDLE", "Illegal simultaneous start list handle specified."),
    ("OLBADSSHANDLEONLIST", "Invalid subsystem handle on simultaneous start list."),
    ("OLNOSSHANDLEONLIST", "No subsystem handles on simultaneous start list."),
    ("OLNOCHANNELINHIBITLIST", "The subsystem has no channel inhibit list."),
    ("OLNODIGITALIOLIST", "The subsystem has no digital I/O list."),
    ("OLNOTPRESTARTED", "The subsystem has not been prestarted."),
    ("OLBADNOTIFYPROC", "Invalid notification procedure"),
    ("OLBADTRANSFERCOUNT", "Invalid DT-Connect transfer count"),
    ("OLBADTRANSFERSIZE", "Invalid DT-Connect transfer size"),
    ("OLCANNOTALLOCINHIBITLIST", "Cannot allocate channel inhibit list"),
    ("OLCANNOTALLOCDIGITALIOLIST", "Cannot allocate digital I/O list"),
    ("OLINVALIDINHIBITLIST", "Channel inhibit list has been filled incorrectly"),
    ("OLSSHANDLEALREADYONLIST", "Dass handle is already on simultaneous start list"),
    ("OLCANNOTALLOCRANGELIST", "Cannot allocate range list"),
    ("OLNORANGELIST", "No range list"),
    ("OLNOBUFFERINPROCESS", "No buffers in process"),
    ("OLREQUIREDSUBSYSINUSE", "Additional required sub system in use"),
    ("OLWRAPMODEMISMATCH", "Wrap mode mismatch"),
    ("OLVXDNOTINSTALLED", "VDTDAD virtual device driver not loaded"),
    ("OLBADRETRIGGERMODE", "Invalid Retrigger Mode"),
    ("OLBADCOUNT", "Invalid count.  Count exceeds maximum # of scans of the CGL."),
    ("OLBADRETRIGGER", "Invalid Retrigger"),
    ("OLBADPRETRIGGER", "Invalid Pretrigger"),
    ("OLGENERALFAILURE", "General Failure"),
    ("OLREQUESTPENDING", "Defer Completion of Open Layers call"),
    ("OLUNSUPPORTEDSYSTEM", "Operating System not supported"),
    ("OLBADEDGE", "Invalid counter edge specified"),
    ("OLHALFCTR", "Only half of 32 bit count value read via CGL"),
    ("OLBADINDEX", "Invalid Index"),
    ("OLINVALIDX4INDEXCOMBO", "Invalid combination of Index and X4Scaling"),
    ("OLBADCOUPLINGTYPE", "Invalid coupling type"),
    ("OLBADEXCITATIONCURRENTSRC", "Invalid current source"),
    ("OLBADVALUE", "Invalid value set"),
    ("OLINVALIDWHENADRUNNING", "Operation is prohibited while A/D is running"),
    ("OLBADTHERMOCOUPLETYPE", "Invalid thermocouple type was specified"),
    ("OLNOMEMORY", "Internal memory allocation failed"),
    ("OLBADRETURNPOINTER", "The return value pointer is not valid"),
    ("OLBADRTDTYPE", "Invalid RTD type was specified"),
    ("OLBADSYNCMODE", "Invalid synchronization mode specified"),
    ("OLBADDATAFILTERTYPE", "Invalid data filter type was specified"),
    ("OLINVALIDWHENDARUNNING", "Operation is prohibited while D/A is running"),
    ("OLCANNOTALLOCSTRAINLIST", "Cannot allocate strain config list"),
    ("OLTEDSERROR", "an error encountered while parsing TEDS")
  ]

  const ThirdBlock: seq<(string, string)> := [
    ("OLCANNOTALLOCBCB", "Cannot allocate a buffer control block for the requested data buffer."),
    ("OLCANNOTALLOCBUFFER", "Cannot allocate the requested data buffer."),
    ("OLBADBUFFERHANDLE", "Invalid buffer handle (HBUF) passed to a library from an application."),
    ("OLBUFFERLOCKFAILED", "The data buffer cannot be put to a section because it cannot be properly locked."),
    ("OLBUFFERLOCKED", "Buffer Locked"),
    ("OLBUFFERONLIST", "Buffer on List"),
    ("OLCANNOTREALLOCBCB", "Reallocation of a buffer control block was unsuccessful."),
    ("OLCANNOTREALLOCBUFFER", "Reallocation of the data buffer was unsuccessful."),
    ("OLBADSAMPLESIZE", "Bad Sample Size"),
    ("OLCANNOTALLOCLIST", "Cannot Allocate List"),
    ("OLBADLISTHANDLE", "Bad List Handle"),
    ("OLLISTNOTEMPTY", "List Not Empty"),
    ("OLBUFFERNOTLOCKED", "Bufffer Not Locked"),
    ("OLBADDMACHANNEL", "Invalid DMA Channel specified"),
    ("OLDMACHANNELINUSE", "Specified DMA Channel in use"),
    ("OLBADIRQ", "Invalid IRQ specified"),
    ("OLIRQINUSE", "Specififed IRQ in use"),
    ("OLNOSAMPLES", "Buffer has no valid samples"),
    ("OLTOOMANYSAMPLES", "Valid Samples cannot be larger than buffer"),
    ("OLBUFFERTOOSMALL", "Specified buffer too small for requested copy operation"),
    ("OLODDSIZEDBUFFER", "Num buffer points must be multiple 2 for this operation")
  ]

  /** `errorcodes[code]`: the symbol and message, or None for a code the table lacks. */
  function ErrorEntry(code: nat): (r: Option<(string, string)>)
    ensures r.Some? <==> code <= 50 || 60 <= code <= 144 || 200 <= code <= 220
  {
    if code <= 50 then Some(FirstBlock[code])
    else if 60 <= code <= 144 then Some(SecondBlock[code - 60])
    else if 200 <= code <= 220 then Some(ThirdBlock[code - 200])
    else None
  }

  /** The text of the exception `ecodeCheck` raises. */
  function CallFailure(name: string, args: string, entry: (string, string)): string
  {
    "Calling " + name + " with arguments " + args + ": " + entry.0 + " " + entry.1
  }

  /**
   * `ecodeCheck(ecode, fn, args)`. A zero code returns normally.
   * Otherwise the format arguments are evaluated in order: the function's
   * registered name (KeyError when it was never registered), then the
   * table entry (KeyError for a code the table lacks); with both, the
   * call raises an Exception naming the function, its arguments and the
   * code's symbol and message.
   */
  function EcodeCheck(names: map<int, string>, ecode: nat, fn: int, args: string): (r: Result<()>)
    ensures r.Ok? <==> ecode == 0
    ensures ecode != 0 && ErrorEntry(ecode).None? ==> r == Err(KeyError)
    ensures ecode != 0 && fn !in names ==> r == Err(KeyError)
    ensures r.Err? && r.error.Exception? ==>
      fn in names && ErrorEntry(ecode).Some?
      && r.error.message == CallFailure(names[fn], args, ErrorEntry(ecode).value)
  {
    if ecode == 0 then Ok(())
    else if fn !in names then Err(KeyError)
    else
      match ErrorEntry(ecode)
      case None => Err(KeyError)
      case Some(entry) => Err(Exception(CallFailure(names[fn], args, entry)))
  }

  /** Codes between the blocks, and past the last, are not in the table: the lookup itself fails. */
  lemma GapsRaiseKeyError(names: map<int, string>, ecode: nat, fn: int, args: string)
    requires 51 <= ecode <= 59 || 145 <= ecode <= 199 || ecode > 220
    ensures EcodeCheck(names, ecode, fn, args) == Err(KeyError)
  {
  }

  /** The C types a function is declared with; only ECODE matters to the wrapper. */
  datatype CType = ECode | OtherType(name: string)

  /** A function's `errcheck`: none, the library's own `ecodeCheck`, or one the caller supplied. */
  datatype ErrCheck = NoCheck | EcodeCheckHook | Supplied(name: string)

  /** What `_register_function` sets on the function object. */
  datatype Declaration = Declaration(argtypes: seq<CType>, restype: CType, errcheck: ErrCheck)

  /** A function returning ECODE is checked by `ecodeCheck`; any other keeps the supplied check. */
  function ErrCheckFor(restype: CType, errcheck: ErrCheck): (e: ErrCheck)
    ensures restype == ECode ==> e == EcodeCheckHook
    ensures restype != ECode ==> e == errcheck
  {
    if restype == ECode then EcodeCheckHook else errcheck
  }

  class Library {
    /** The loaded library's exported functions, by name, as addresses. */
    const symbols: map<string, int>
    /** `function_names`: the name each registered function was registered under. */
    var functionNames: map<int, string>
    /** The declarations set on the function objects. */
    var declarations: map<int, Declaration>

    constructor(symbols: map<string, int>)
      ensures this.symbols == symbols
      ensures functionNames == map[] && declarations == map[]
    {
      this.symbols := symbols;
      functionNames := map[];
      declarations := map[];
    }

    /**
     * `_register_function`: a name the library does not export is skipped
     * silently; otherwise the function is recorded under its address and
     * declared, with `ecodeCheck` as its check when it returns ECODE.
     */
    method RegisterFunction(name: string, argtypes: seq<CType>, restype: CType, errcheck: ErrCheck)
      modifies this
      ensures name !in symbols ==>
        functionNames == old(functionNames) && declarations == old(declarations)
      ensures name in symbols ==>
        functionNames == old(functionNames)[symbols[name] := name]
        && declarations == old(declarations)[symbols[name] :=
             Declaration(argtypes, restype, ErrCheckFor(restype, errcheck))]
    {
      if name !in symbols {
        return;
      }
      var fn := symbols[name];
      functionNames := functionNames[fn := name];
      declarations := declarations[fn := Declaration(argtypes, restype, ErrCheckFor(restype, errcheck))];
    }
  }

  /**
   * Once a function is registered, a failing call of it raises an
   * Exception that names it, for every code in the table.
   */
  lemma RegisteredFailureNamesFunction(names: map<int, string>, fn: int, name: string, ecode: nat, args: string)
    requires ecode != 0 && ErrorEntry(ecode).Some?
    ensures EcodeCheck(names[fn := name], ecode, fn, args)
      == Err(Exception(CallFailure(name, args, ErrorEntry(ecode).value)))
  {
  }
}

=== FILE: gwinstek.dfy ===
/**
 * The GW Instek GDS-2062 oscilloscope: `acquire` reads one channel's
 * memory as a block whose first four bytes are the sampling interval,
 * the fifth echoes the channel, three are reserved and the rest are
 * 16-bit samples; `MyFeat` features write `<command> <value>` and read
 * `<command>?`.
 */
module GwinstekGDS2062 {
  import opened Wrappers
  import opened Text
  import opened Instrument

  type Byte = x: int | 0 <= x < 256

  /** The header before the samples: interval (4), channel echo (1), reserved (3). */
  const HeaderLength: nat := 8

  predicate IsInt16(x: int) { -0x8000 <= x < 0x8000 }

  /** One `int16` sample in the byte order of the host (little-endian), as `np.frombuffer` reads it. */
  function Sample(lo: Byte, hi: Byte): (x: int)
    ensures IsInt16(x)
  {
    var u := lo + 256 * hi;
    if u >= 0x8000 then u - 0x1_0000 else u
  }

  function EncodeSample(x: int): (b: seq<Byte>)
    requires IsInt16(x)
    ensures |b| == 2
  {
    var u := if x < 0 then x + 0x1_0000 else x;
    [u % 256, u / 256]
  }

  /** Two bytes and one sample determine each other. */
  lemma SampleBijection(x: int, lo: Byte, hi: Byte)
    requires IsInt16(x)
    ensures Sample(EncodeSample(x)[0], EncodeSample(x)[1]) == x
    ensures EncodeSample(Sample(lo, hi)) == [lo, hi]
  {
  }

  /** `np.frombuffer(body, dtype=np.int16)`: one sample per byte pair. */
  function Samples(body: seq<Byte>): (xs: seq<int>)
    requires |body| % 2 == 0
    ensures |xs| == |body| / 2
    ensures forall i :: 0 <= i < |xs| ==> xs[i] == Sample(body[2 * i], body[2 * i + 1])
  {
    if body == [] then [] else [Sample(body[0], body[1])] + Samples(body[2..])
  }

  function EncodeSamples(xs: seq<int>): (body: seq<Byte>)
    requires forall i :: 0 <= i < |xs| ==> IsInt16(xs[i])
    ensures |body| == 2 * |xs| && |body| % 2 == 0
  {
    if xs == [] then [] else EncodeSample(xs[0]) + EncodeSamples(xs[1..])
  }

  /** Reading back encoded samples gives the same samples. */
  lemma {:induction false} SamplesRoundTrip(xs: seq<int>)
    requires forall i :: 0 <= i < |xs| ==> IsInt16(xs[i])
    ensures Samples(EncodeSamples(xs)) == xs
  {
    if xs != [] {
      var body := EncodeSamples(xs);
      SampleBijection(xs[0], 0, 0);
      assert body[2..] == EncodeSamples(xs[1..]);
      SamplesRoundTrip(xs[1..]);
    }
  }

  function AcquireCommand(channel: int): string
  {
    ":acquire" + IntToString(channel) + ":memory?"
  }

  /**
   * `acquire(channel)` with `data` the block the instrument answers. The
   * result is the raw samples; the driver then scales them by the
   * channel's `scale` (queried), ten divisions and 65535.
   */
  function Acquire(channel: int, data: seq<Byte>): (r: (seq<Io>, Result<seq<int>>))
    ensures channel != 1 && channel != 2 ==> r == ([], Err(KeyError))
    ensures channel == 1 || channel == 2 ==> |r.0| >= 2 && r.0[..2] == [Send(AcquireCommand(channel)), Receive]
    ensures r.1.Ok? <==> (channel == 1 || channel == 2) && |data| > 4 && data[4] == channel
                         && (|data| <= HeaderLength || |data| % 2 == 0)
    ensures r.1.Ok? ==> r.1.value == Samples(if |data| <= HeaderLength then [] else data[HeaderLength..])
  {
    if channel != 1 && channel != 2 then ([], Err(KeyError))
    else
      var io := [Send(AcquireCommand(channel)), Receive];
      if |data| < 4 then (io, Err(StructError))
      else if |data| < 5 then (io, Err(IndexError))
      else if data[4] != channel then (io, Err(RuntimeError("Invalid channel reply: " + NatToString(data[4]))))
      else
        var body := if |data| <= HeaderLength then [] else data[HeaderLength..];
        if |body| % 2 != 0 then (io, Err(ValueError))
        else (io + [Query(":channel" + IntToString(channel) + ":scale?")], Ok(Samples(body)))
  }

  /**
   * The samples `acquire` returns are the 16-bit little-endian words
   * after the header, one per byte pair, in order.
   */
  lemma AcquireDecodes(channel: int, data: seq<Byte>)
    requires Acquire(channel, data).1.Ok?
    ensures var xs := Acquire(channel, data).1.value;
      && |xs| == (if |data| <= HeaderLength then 0 else (|data| - HeaderLength) / 2)
      && (forall i :: 0 <= i < |xs| ==> IsInt16(xs[i]))
      && (forall i :: 0 <= i < |xs| ==> xs[i] == Sample(data[HeaderLength + 2 * i], data[HeaderLength + 2 * i + 1]))
  {
  }

  /** A block written with the layout above reads back as its samples, whatever the interval and reserved bytes. */
  lemma AcquireRoundTrip(channel: Byte, interval: seq<Byte>, reserved: seq<Byte>, xs: seq<int>)
    requires channel == 1 || channel == 2
    requires |interval| == 4 && |reserved| == 3
    requires forall i :: 0 <= i < |xs| ==> IsInt16(xs[i])
    ensures Acquire(channel, interval + [channel] + reserved + EncodeSamples(xs)).1 == Ok(xs)
  {
    var body := EncodeSamples(xs);
    var data := interval + [channel] + reserved + body;
    BlockLayout(channel, interval, reserved, body, data);
    AcquireWellFormed(channel, data);
    SamplesRoundTrip(xs);
  }

  /** Where the echo and the samples sit in a block. */
  lemma BlockLayout(channel: Byte, interval: seq<Byte>, reserved: seq<Byte>, body: seq<Byte>, data: seq<Byte>)
    requires |interval| == 4 && |reserved| == 3 && |body| % 2 == 0
    requires data == interval + [channel] + reserved + body
    ensures |data| >= HeaderLength && data[4] == channel && |data| % 2 == 0 && data[HeaderLength..] == body
  {
  }

  /** A block with the right echo and whole samples after the header reads as those samples. */
  lemma AcquireWellFormed(channel: int, data: seq<Byte>)
    requires channel == 1 || channel == 2
    requires |data| >= HeaderLength && data[4] == channel && |data| % 2 == 0
    ensures Acquire(channel, data).1 == Ok(Samples(data[HeaderLength..]))
  {
    if |data| == HeaderLength {
      assert data[HeaderLength..] == [];
    }
  }

  /** A reply whose echo names another channel is refused, naming the echoed channel. */
  lemma WrongEchoRefused(channel: int, data: seq<Byte>)
    requires channel == 1 || channel == 2
    requires |data| > 4 && data[4] != channel
    ensures Acquire(channel, data).1 == Err(RuntimeError("Invalid channel reply: " + NatToString(data[4])))
  {
  }

  /** The integer formats of `MyFeat` (`boolean` and `nr1`) write the value with `{:d}`. */
  function MyFeatSet(command: string, value: int): (io: seq<Io>)
  {
    [Send(command + " " + IntToString(value))]
  }

  /** The getter queries `<command>?` and strips the reply before parsing it as an integer. */
  function MyFeatGet(command: string, reply: string): (r: (seq<Io>, Result<int>))
    ensures r.0 == [Query(command + "?")]
    ensures r.1 == PyInt(Strip(reply))
  {
    ([Query(command + "?")], PyInt(Strip(reply)))
  }

  /** The value text written by the setter is parsed back by the getter. */
  lemma MyFeatRoundTrip(command: string, value: int)
    ensures var sent := MyFeatSet(command, value)[0].text;
      MyFeatGet(command, sent[|command| + 1..]).1 == Ok(value)
  {
    var sent := MyFeatSet(command, value)[0].text;
    assert sent[|command| + 1..] == IntToString(value);
    PyIntOfIntToString(value);
  }
}

=== FILE: hp8112a.dfy ===
/**
 * The HP 8112A pulse generator. Its settings reply (`CST`) is a line of
 * comma-terminated fields such as `M1,CT0,T1,W2,...,C0,D1,...`; the
 * trigger mode, trigger control, complement and enable features are read
 * from it with regular expressions and set with one-letter commands.
 *
 * The patterns are modelled by hand with Python's rules: `.` does not
 * match a newline, and `re.search` reports the match that starts first.
 */
module HP8112A {
  import opened Wrappers
  import opened Text
  import opened Instrument

  datatype TriggerMode = Normal | Trigger | Gate | ExternalWidth | ExternalBurst
  {
    /** The digit the instrument uses for the mode. */
    function Code(): (c: char)
      ensures '1' <= c <= '5'
    {
      match this
      case Normal => '1'
      case Trigger => '2'
      case Gate => '3'
      case ExternalWidth => '4'
      case ExternalBurst => '5'
    }
  }

  function TriggerModeOf(c: char): (r: Option<TriggerMode>)
    ensures r.Some? <==> '1' <= c <= '5'
    ensures r.Some? ==> r.value.Code() == c
  {
    match c
    case '1' => Some(Normal)
    case '2' => Some(Trigger)
    case '3' => Some(Gate)
    case '4' => Some(ExternalWidth)
    case '5' => Some(ExternalBurst)
    case _ => None
  }

  datatype TriggerControl = Off | Positive | Negative | Both
  {
    function Code(): (c: char)
      ensures '0' <= c <= '3'
    {
      match this
      case Off => '0'
      case Positive => '1'
      case Negative => '2'
      case Both => '3'
    }
  }

  function TriggerControlOf(c: char): (r: Option<TriggerControl>)
    ensures r.Some? <==> '0' <= c <= '3'
    ensures r.Some? ==> r.value.Code() == c
  {
    match c
    case '0' => Some(Off)
    case '1' => Some(Positive)
    case '2' => Some(Negative)
    case '3' => Some(Both)
    case _ => None
  }

  /** The mode codes name the modes one to one. */
  lemma CodesRoundTrip(m: TriggerMode, t: TriggerControl)
    ensures TriggerModeOf(m.Code()) == Some(m)
    ensures TriggerControlOf(t.Code()) == Some(t)
  {
  }

  /** `complement` is `1` when on; `enable` uses the inverted code, `0` when on. */
  function ComplementCode(on: bool): char { if on then '1' else '0' }

  function EnableCode(on: bool): char { if on then '0' else '1' }

  /** The two boolean features use opposite codes for the same value. */
  lemma EnableIsInverted(on: bool)
    ensures EnableCode(on) == ComplementCode(!on)
    ensures EnableCode(on) != ComplementCode(on)
  {
  }

  /** `,<letter><digit>,` starts at index p, with the digit in `'0'..hi`. */
  predicate FieldAt(s: string, p: nat, letter: char, hi: char)
  {
    p + 4 <= |s| && s[p] == ',' && s[p + 1] == letter && '0' <= s[p + 2] <= hi && s[p + 3] == ','
  }

  /** `re.search(',<letter>([0-hi]),', s)`: the first field. */
  function FirstField(s: string, letter: char, hi: char, from: nat): (r: Option<nat>)
    requires from <= |s|
    ensures r.Some? ==> from <= r.value && FieldAt(s, r.value, letter, hi)
    ensures r.Some? ==> forall k :: from <= k < r.value ==> !FieldAt(s, k, letter, hi)
    ensures r.None? ==> forall k :: from <= k ==> !FieldAt(s, k, letter, hi)
    decreases |s| - from
  {
    if from == |s| then None
    else if FieldAt(s, from, letter, hi) then Some(from)
    else FirstField(s, letter, hi, from + 1)
  }

  /** The last field starting in `[from, limit)`. */
  function LastFieldIn(s: string, letter: char, from: nat, limit: nat): (r: Option<nat>)
    requires from <= limit <= |s|
    ensures r.Some? ==> from <= r.value < limit && FieldAt(s, r.value, letter, '1')
    ensures r.Some? ==> forall k :: r.value < k < limit ==> !FieldAt(s, k, letter, '1')
    ensures r.None? ==> forall k :: from <= k < limit ==> !FieldAt(s, k, letter, '1')
    decreases limit - from
  {
    if limit == from then None
    else if FieldAt(s, limit - 1, letter, '1') then Some(limit - 1)
    else LastFieldIn(s, letter, from, limit - 1)
  }

  /**
   * `re.search('.*,<letter>([01]),', s)` from the line starting at `from`:
   * the search starts in the first line that holds a field, and the greedy
   * `.*` takes that line's last field.
   */
  function GreedyField(s: string, letter: char, from: nat): (r: Option<nat>)
    requires from <= |s|
    ensures r.Some? ==> from <= r.value && FieldAt(s, r.value, letter, '1')
    ensures r.Some? ==> forall k :: r.value < k < LineEnd(s, r.value) ==> !FieldAt(s, k, letter, '1')
    ensures r.Some? ==> forall k :: from <= k < r.value && FieldAt(s, k, letter, '1') ==> '\n' !in s[k..r.value]
    ensures r.None? ==> forall k :: from <= k ==> !FieldAt(s, k, letter, '1')
    decreases |s| - from
  {
    var e := LineEnd(s, from);
    var last := LastFieldIn(s, letter, from, e);
    if last.Some? then
      LineEndOfField(s, from, last.value, e);
      last
    else if e == |s| then None
    else
      assert forall k :: from <= k < e + 1 ==> !FieldAt(s, k, letter, '1') by {
        assert s[e] == '\n';
      }
      GreedyField(s, letter, e + 1)
  }

  /** A field starting on a line ends on the same line. */
  lemma LineEndOfField(s: string, from: nat, p: nat, e: nat)
    requires from <= p < e <= |s| && e == LineEnd(s, from)
    ensures LineEnd(s, p) == e
    ensures forall k :: from <= k < p ==> '\n' !in s[k..p]
  {
    LineEndSame(s, from, p);
    forall k | from <= k < p ensures '\n' !in s[k..p] {
      forall j | 0 <= j < p - k ensures s[k..p][j] != '\n' { assert s[k..p][j] == s[k + j]; }
    }
  }

  lemma {:induction false} LineEndSame(s: string, from: nat, p: nat)
    requires from <= p <= |s| && p <= LineEnd(s, from)
    ensures LineEnd(s, p) == LineEnd(s, from)
    decreases p - from
  {
    if from < p { LineEndSame(s, from + 1, p); }
  }

  /** Reading a feature whose pattern does not match raises AttributeError (`None.group`). */
  function TriggerModeGet(settings: string): (r: Result<TriggerMode>)
    ensures r.Ok? <==> (exists n :: 0 <= n < |settings| - 2 && LeadingModeAt(settings, n))
    ensures r.Ok? ==> var n := LeadingSpaces(settings, 0);
      LeadingModeAt(settings, n) && TriggerModeOf(settings[n + 1]) == Some(r.value)
  {
    var n := LeadingSpaces(settings, 0);
    if n + 3 <= |settings| && LeadingModeAt(settings, n) then
      Ok(TriggerModeOf(settings[n + 1]).value)
    else
      assert forall k :: 0 <= k < |settings| - 2 && LeadingModeAt(settings, k) ==> k == n;
      Err(AttributeError)
  }

  /** The text starts with spaces up to n, then `M<1-5>,`. */
  predicate LeadingModeAt(s: string, n: nat)
  {
    n + 3 <= |s| && (forall k :: 0 <= k < n ==> s[k] == ' ')
    && s[n] == 'M' && '1' <= s[n + 1] <= '5' && s[n + 2] == ','
  }

  function LeadingSpaces(s: string, i: nat): (n: nat)
    requires i <= |s|
    ensures i <= n <= |s| && (n == |s| || s[n] != ' ')
    ensures forall k :: i <= k < n ==> s[k] == ' '
    decreases |s| - i
  {
    if i < |s| && s[i] == ' ' then LeadingSpaces(s, i + 1) else i
  }

  function TriggerControlGet(settings: string): (r: Result<TriggerControl>)
    ensures r.Ok? <==> exists k :: FieldAt(settings, k, 'T', '3')
  {
    match FirstField(settings, 'T', '3', 0)
    case Some(p) => Ok(TriggerControlOf(settings[p + 2]).value)
    case None => Err(AttributeError)
  }

  /**
   * The field at p is the last one on its line, and no newline separates it
   * from any earlier field: the last field of the first line holding one.
   */
  predicate LastOfFirstLine(s: string, p: nat, letter: char)
  {
    && FieldAt(s, p, letter, '1')
    && (forall k :: p < k < LineEnd(s, p) ==> !FieldAt(s, k, letter, '1'))
    && (forall k :: 0 <= k < p && FieldAt(s, k, letter, '1') ==> '\n' !in s[k..p])
  }

  /** `complement` reads the last `C` field of the first line holding one, with `1` meaning on. */
  function ComplementGet(settings: string): (r: Result<bool>)
    ensures r.Ok? <==> exists k :: FieldAt(settings, k, 'C', '1')
    ensures r.Ok? ==> exists p: nat :: LastOfFirstLine(settings, p, 'C') && (r.value <==> settings[p + 2] == '1')
  {
    match GreedyField(settings, 'C', 0)
    case Some(p) =>
      assert LastOfFirstLine(settings, p, 'C');
      Ok(settings[p + 2] == '1')
    case None => Err(AttributeError)
  }

  /** `enable` reads the last `D` field the same way, with the inverted map: `0` means on. */
  function EnableGet(settings: string): (r: Result<bool>)
    ensures r.Ok? <==> exists k :: FieldAt(settings, k, 'D', '1')
    ensures r.Ok? ==> exists p: nat :: LastOfFirstLine(settings, p, 'D') && (r.value <==> settings[p + 2] == '0')
  {
    match GreedyField(settings, 'D', 0)
    case Some(p) =>
      assert LastOfFirstLine(settings, p, 'D');
      Ok(settings[p + 2] == '0')
    case None => Err(AttributeError)
  }

  function TriggerModeSet(m: TriggerMode): seq<Io> { [Send(['M', m.Code()])] }

  function TriggerControlSet(t: TriggerControl): seq<Io> { [Send(['T', t.Code()])] }

  function ComplementSet(on: bool): seq<Io> { [Send(['C', ComplementCode(on)])] }

  function EnableSet(on: bool): seq<Io> { [Send(['D', EnableCode(on)])] }

  /**
   * A settings reply that starts, after any run of spaces, with the field
   * `mode` sets reads back as that mode.
   */
  lemma ModeReadBack(spaces: string, m: TriggerMode, rest: string)
    requires forall k :: 0 <= k < |spaces| ==> spaces[k] == ' '
    ensures TriggerModeGet(spaces + TriggerModeSet(m)[0].text + "," + rest) == Ok(m)
  {
    var s := spaces + TriggerModeSet(m)[0].text + "," + rest;
    var n := |spaces|;
    assert s[n] == 'M' && s[n + 1] == m.Code() && s[n + 2] == ',';
    LeadingSpacesIs(s, 0, n);
    assert LeadingModeAt(s, n);
  }

  lemma {:induction false} LeadingSpacesIs(s: string, i: nat, n: nat)
    requires i <= n < |s| && s[n] != ' ' && forall k :: i <= k < n ==> s[k] == ' '
    ensures LeadingSpaces(s, i) == n
    decreases n - i
  {
    if i < n { LeadingSpacesIs(s, i + 1, n); }
  }

  /** The trigger control field written by the setter is read back when it is the first `T` field. */
  lemma ControlReadBack(pre: string, t: TriggerControl, rest: string)
    requires var s := pre + "," + TriggerControlSet(t)[0].text + "," + rest;
      forall k: nat :: k < |pre| ==> !FieldAt(s, k, 'T', '3')
    ensures TriggerControlGet(pre + "," + TriggerControlSet(t)[0].text + "," + rest) == Ok(t)
  {
    var s := pre + "," + TriggerControlSet(t)[0].text + "," + rest;
    var p := |pre|;
    assert s[p] == ',' && s[p + 1] == 'T' && s[p + 2] == t.Code() && s[p + 3] == ',';
    assert FieldAt(s, p, 'T', '3');
  }

  /** The complement field written by the setter is read back when it is the line's last `C` field. */
  lemma ComplementReadBack(pre: string, on: bool, rest: string)
    requires '\n' !in pre
    requires var s := pre + "," + ComplementSet(on)[0].text + "," + rest;
      forall k :: |pre| < k ==> !FieldAt(s, k, 'C', '1')
    ensures ComplementGet(pre + "," + ComplementSet(on)[0].text + "," + rest) == Ok(on)
  {
    var s := pre + "," + ComplementSet(on)[0].text + "," + rest;
    var p := |pre|;
    assert s[p] == ',' && s[p + 1] == 'C' && s[p + 2] == ComplementCode(on) && s[p + 3] == ',';
    assert s[..p + 4] == pre + [',', 'C', ComplementCode(on), ','];
    GreedyIsLast(s, 'C', p);
  }

  /** The same for the enable field, whose code is inverted. */
  lemma EnableReadBack(pre: string, on: bool, rest: string)
    requires '\n' !in pre
    requires var s := pre + "," + EnableSet(on)[0].text + "," + rest;
      forall k :: |pre| < k ==> !FieldAt(s, k, 'D', '1')
    ensures EnableGet(pre + "," + EnableSet(on)[0].text + "," + rest) == Ok(on)
  {
    var s := pre + "," + EnableSet(on)[0].text + "," + rest;
    var p := |pre|;
    assert s[p] == ',' && s[p + 1] == 'D' && s[p + 2] == EnableCode(on) && s[p + 3] == ',';
    assert s[..p + 4] == pre + [',', 'D', EnableCode(on), ','];
    GreedyIsLast(s, 'D', p);
  }

  /** When no field follows the one at p, the greedy search takes p. */
  lemma GreedyIsLast(s: string, letter: char, p: nat)
    requires FieldAt(s, p, letter, '1') && forall k :: p < k ==> !FieldAt(s, k, letter, '1')
    requires '\n' !in s[..p + 4]
    ensures GreedyField(s, letter, 0) == Some(p)
  {
    var e := LineEnd(s, 0);
  }

  /**
   * The settings in the driver's own comment, `M1,CT0,T1,W2,SM0,L0,C0,D1,...`:
   * normal mode, positive trigger, complement off, output disabled. The
   * `CT0` field is not a trigger control field.
   */
  lemma SampleSettings(head: string, rest: string)
    requires head == "M1,CT0,T1,W2,SM0,L0,C0,D1"
    requires forall k :: !FieldAt("," + rest, k, 'C', '1') && !FieldAt("," + rest, k, 'D', '1')
    ensures var s := head + "," + rest;
      && TriggerModeGet(s) == Ok(Normal) && TriggerControlGet(s) == Ok(Positive)
      && ComplementGet(s) == Ok(false) && EnableGet(s) == Ok(false)
  {
    var s := head + "," + rest;
    ModeReadBack("", Normal, s[3..]);
    assert s == "" + TriggerModeSet(Normal)[0].text + "," + s[3..];
    SampleControl(head, rest);
    SampleComplement(head, rest);
    SampleEnable(head, rest);
  }

  lemma SampleControl(head: string, rest: string)
    requires head == "M1,CT0,T1,W2,SM0,L0,C0,D1"
    ensures TriggerControlGet(head + "," + rest) == Ok(Positive)
  {
    var s := head + "," + rest;
    assert s == "M1,CT0" + "," + TriggerControlSet(Positive)[0].text + "," + s[10..];
    forall k: nat | k < 6 ensures !FieldAt(s, k, 'T', '3') {
      assert s[..10] == "M1,CT0,T1,";
      assert s[k] == s[..10][k] && s[k + 1] == s[..10][k + 1];
    }
    ControlReadBack("M1,CT0", Positive, s[10..]);
  }

  lemma SampleComplement(head: string, rest: string)
    requires head == "M1,CT0,T1,W2,SM0,L0,C0,D1"
    requires forall k :: !FieldAt("," + rest, k, 'C', '1')
    ensures ComplementGet(head + "," + rest) == Ok(false)
  {
    var s := head + "," + rest;
    var pre := "M1,CT0,T1,W2,SM0,L0";
    assert s == pre + "," + ComplementSet(false)[0].text + "," + s[23..];
    assert s[23..] == "D1," + rest;
    forall k | 19 < k ensures !FieldAt(s, k, 'C', '1') {
      if k >= 25 {
        assert s[25..] == "," + rest;
        if FieldAt(s, k, 'C', '1') { assert FieldAt("," + rest, k - 25, 'C', '1'); }
      } else {
        assert s[20..26] == "C0,D1,";
        assert s[k + 1] == s[20..26][k + 1 - 20];
      }
    }
    ComplementReadBack(pre, false, s[23..]);
  }

  lemma SampleEnable(head: string, rest: string)
    requires head == "M1,CT0,T1,W2,SM0,L0,C0,D1"
    requires forall k :: !FieldAt("," + rest, k, 'D', '1')
    ensures EnableGet(head + "," + rest) == Ok(false)
  {
    var s := head + "," + rest;
    var pre := "M1,CT0,T1,W2,SM0,L0,C0";
    assert s == pre + "," + EnableSet(false)[0].text + "," + rest;
    forall k | 22 < k ensures !FieldAt(s, k, 'D', '1') {
      if k >= 25 {
        assert s[25..] == "," + rest;
        if FieldAt(s, k, 'D', '1') { assert FieldAt("," + rest, k - 25, 'D', '1'); }
      } else {
        assert s[23..26] == "D1,";
        assert s[k + 1] == s[23..26][k + 1 - 23];
      }
    }
    EnableReadBack(pre, false, rest);
  }

  /** `HP8112ADictFeat`: the setter sends the command and the value's code. */
  function DictFeatSet(command: string, code: string): seq<Io>
  {
    [Send(command + code)]
  }

  /** The getter queries `I<command>` and drops as many characters as the command has. */
  function DictFeatGet(command: string, reply: string): (r: (seq<Io>, string))
    ensures r.0 == [Query("I" + command)]
    ensures |command| <= |reply| ==> r.1 == reply[|command|..]
    ensures |command| > |reply| ==> r.1 == ""
  {
    ([Query("I" + command)], Slice(reply, |command|, |reply|))
  }

  /** An instrument that echoes the command before the value gives back exactly the value sent. */
  lemma DictFeatRoundTrip(command: string, code: string)
    ensures DictFeatGet(command, DictFeatSet(command, code)[0].text).1 == code
  {
    var sent := command + code;
    assert sent[|command|..|sent|] == code;
  }

  predicate IsValueChar(c: char) { IsDigit(c) || c == '+' || c == '-' || c == '.' }

  function RunOf(s: string, i: nat, word: bool): (e: nat)
    requires i <= |s|
    ensures i <= e <= |s|
    ensures forall k :: i <= k < e ==> (if word then IsWordChar(s[k]) else IsValueChar(s[k]))
    ensures e == |s| || !(if word then IsWordChar(s[e]) else IsValueChar(s[e]))
    decreases |s| - i
  {
    if i < |s| && (if word then IsWordChar(s[i]) else IsValueChar(s[i])) then RunOf(s, i + 1, word) else i
  }

  /**
   * The unit text as `process_response` rewrites it: lowercase, then every
   * `v` back to `V`. Each character is rewritten on its own.
   */
  function UnitText(u: string): (r: string)
    ensures |r| == |u|
    ensures forall k :: 0 <= k < |u| ==>
      r[k] == if u[k] == 'v' || u[k] == 'V' then 'V'
              else if IsUpper(u[k]) then (u[k] as int + 32) as char
              else u[k]
  {
    ReplaceChar(Lower(u), 'v', 'V')
  }

  /** Rewriting the unit text twice changes nothing more. */
  lemma UnitTextIdempotent(u: string)
    ensures UnitText(UnitText(u)) == UnitText(u)
  {
  }

  /**
   * The reply matches ` *\w+ ([+\-0-9.]+) (\w+)` with the spaces up to a,
   * the name up to b, the value from b + 1 to c and the unit from c + 1 to
   * d; the greedy last group takes the whole run of word characters.
   */
  predicate ResponseFields(s: string, a: nat, b: nat, c: nat, d: nat)
  {
    && a < b && b + 1 < c && c + 1 < d <= |s|
    && (forall k :: 0 <= k < a ==> s[k] == ' ')
    && (forall k :: a <= k < b ==> IsWordChar(s[k]))
    && s[b] == ' '
    && (forall k :: b + 1 <= k < c ==> IsValueChar(s[k]))
    && s[c] == ' '
    && (forall k :: c + 1 <= k < d ==> IsWordChar(s[k]))
    && (d == |s| || !IsWordChar(s[d]))
  }

  /**
   * `process_response`: the value text and the rewritten unit of the match
   * at the start of the reply; AttributeError when there is none. The
   * number itself is parsed as a float, which the model leaves as text.
   */
  function ProcessResponse(response: string): (r: Result<(string, string)>)
    ensures r.Ok? <==> exists a: nat, b: nat, c: nat, d: nat :: ResponseFields(response, a, b, c, d)
    ensures r.Ok? ==>
      exists a: nat, b: nat, c: nat, d: nat :: ResponseFields(response, a, b, c, d)
        && r.value == (response[b + 1..c], UnitText(response[c + 1..d]))
    ensures r.Err? ==> r.error == AttributeError
  {
    match ResponseMatch(response)
    case Some((a, b, c, d)) => Ok((response[b + 1..c], UnitText(response[c + 1..d])))
    case None => Err(AttributeError)
  }

  /** The positions of the match, found run by run. */
  function ResponseMatch(s: string): (m: Option<(nat, nat, nat, nat)>)
    ensures m.Some? ==> ResponseFields(s, m.value.0, m.value.1, m.value.2, m.value.3)
    ensures m.None? ==> forall a: nat, b: nat, c: nat, d: nat :: !ResponseFields(s, a, b, c, d)
  {
    var a := LeadingSpaces(s, 0);
    var b := RunOf(s, a, true);
    var c := if b < |s| then RunOf(s, b + 1, false) else b;
    var d := if c < |s| then RunOf(s, c + 1, true) else c;
    if b == a || b == |s| || s[b] != ' ' || c == b + 1 || c == |s| || s[c] != ' ' || d == c + 1 then
      NoResponseFields(s);
      None
    else
      Some((a, b, c, d))
  }

  /** The match is unique: its positions are where the runs end. */
  lemma ResponseFieldsUnique(s: string, a: nat, b: nat, c: nat, d: nat)
    requires ResponseFields(s, a, b, c, d)
    ensures LeadingSpaces(s, 0) == a && RunOf(s, a, true) == b
    ensures RunOf(s, b + 1, false) == c && RunOf(s, c + 1, true) == d
  {
    assert IsWordChar(s[a]);
    LeadingSpacesIs(s, 0, a);
    RunIs(s, a, s[a..b], true);
    RunIs(s, b + 1, s[b + 1..c], false);
    RunIs(s, c + 1, s[c + 1..d], true);
  }

  /** When the runs found do not have the pattern's shape, no match exists. */
  lemma NoResponseFields(s: string)
    requires var a := LeadingSpaces(s, 0); var b := RunOf(s, a, true);
      b == a || b == |s| || s[b] != ' '
      || (var c := RunOf(s, b + 1, false);
          c == b + 1 || c == |s| || s[c] != ' ' || RunOf(s, c + 1, true) == c + 1)
    ensures forall a: nat, b: nat, c: nat, d: nat :: !ResponseFields(s, a, b, c, d)
  {
    forall a: nat, b: nat, c: nat, d: nat | ResponseFields(s, a, b, c, d)
      ensures false
    {
      ResponseFieldsUnique(s, a, b, c, d);
    }
  }

  /**
   * A reply `<spaces><name> <value> <unit>` followed by anything that does
   * not continue the unit reads back as the value and the unit's rewrite.
   */
  lemma ProcessResponseRoundTrip(spaces: string, name: string, value: string, unit: string, rest: string)
    requires forall k :: 0 <= k < |spaces| ==> spaces[k] == ' '
    requires |name| >= 1 && forall k :: 0 <= k < |name| ==> IsWordChar(name[k])
    requires |value| >= 1 && forall k :: 0 <= k < |value| ==> IsValueChar(value[k])
    requires |unit| >= 1 && forall k :: 0 <= k < |unit| ==> IsWordChar(unit[k])
    requires rest == [] || !IsWordChar(rest[0])
    ensures ProcessResponse(spaces + name + " " + value + " " + unit + rest) == Ok((value, UnitText(unit)))
  {
    var s := spaces + name + " " + value + " " + unit + rest;
    var a := |spaces|;
    var b := a + |name|;
    var c := b + 1 + |value|;
    var d := c + 1 + |unit|;
    ReplyHasFields(spaces, name, value, unit, rest);
    assert s[b + 1..c] == value && s[c + 1..d] == unit;
    ResponseAt(s, a, b, c, d);
  }

  /** A match found at a, b, c, d is the one `process_response` reads. */
  lemma ResponseAt(s: string, a: nat, b: nat, c: nat, d: nat)
    requires ResponseFields(s, a, b, c, d)
    ensures ProcessResponse(s) == Ok((s[b + 1..c], UnitText(s[c + 1..d])))
  {
    ResponseFieldsUnique(s, a, b, c, d);
  }

  lemma ReplyHasFields(spaces: string, name: string, value: string, unit: string, rest: string)
    requires forall k :: 0 <= k < |spaces| ==> spaces[k] == ' '
    requires |name| >= 1 && forall k :: 0 <= k < |name| ==> IsWordChar(name[k])
    requires |value| >= 1 && forall k :: 0 <= k < |value| ==> IsValueChar(value[k])
    requires |unit| >= 1 && forall k :: 0 <= k < |unit| ==> IsWordChar(unit[k])
    requires rest == [] || !IsWordChar(rest[0])
    ensures var a := |spaces|; var b := a + |name|; var c := b + 1 + |value|; var d := c + 1 + |unit|;
      ResponseFields(spaces + name + " " + value + " " + unit + rest, a, b, c, d)
  {
    var s := spaces + name + " " + value + " " + unit + rest;
    var a := |spaces|;
    var b := a + |name|;
    var c := b + 1 + |value|;
    var d := c + 1 + |unit|;
    forall k | 0 <= k < a ensures s[k] == ' ' { assert s[k] == spaces[k]; }
    forall k | a <= k < b ensures IsWordChar(s[k]) { assert s[k] == name[k - a]; }
    assert s[b] == ' ';
    forall k | b + 1 <= k < c ensures IsValueChar(s[k]) { assert s[k] == value[k - b - 1]; }
    assert s[c] == ' ';
    forall k | c + 1 <= k < d ensures IsWordChar(s[k]) { assert s[k] == unit[k - c - 1]; }
    assert d == |s| || s[d] == rest[0];
  }

  /** A maximal run of the class found at i. */
  lemma {:induction false} RunIs(s: string, i: nat, w: string, word: bool)
    requires i + |w| <= |s| && s[i..i + |w|] == w
    requires forall k :: 0 <= k < |w| ==> (if word then IsWordChar(w[k]) else IsValueChar(w[k]))
    requires i + |w| == |s| || !(if word then IsWordChar(s[i + |w|]) else IsValueChar(s[i + |w|]))
    ensures RunOf(s, i, word) == i + |w|
    decreases |w|
  {
    if w != [] {
      assert s[i] == w[0];
      assert s[i + 1..i + 1 + |w[1..]|] == w[1..];
      RunIs(s, i + 1, w[1..], word);
    }
  }
}

=== FILE: instrument.dfy ===
/**
 * What a GPIB/VISA driver does on the bus, as a log. The drivers' actions
 * are modelled by the list of messages they produce; what an instrument
 * answers is an input of the getter that reads it.
 */
module Instrument {
  import opened Wrappers
  import opened Text

  datatype Io =
    | Send(text: string)    // `self.send(text)`
    | Query(text: string)   // `self.query(text)`: send, then read the reply
    | Receive               // `self.recv()`
    | BaseInitialize        // the base driver's `initialize()`, which opens the resource
    | BaseFinalize          // the base driver's `finalize()`, which closes it

  /** `int(status[k])`: IndexError past the end, ValueError unless the character is a digit. */
  function DigitAt(status: string, k: nat): (r: Result<int>)
    ensures k >= |status| ==> r == Err(IndexError)
    ensures r.Ok? <==> k < |status| && IsDigit(status[k])
    ensures r.Ok? ==> 0 <= r.value < 10 && DigitChar(r.value) == status[k]
    ensures r.Ok? ==> r.value == DigitValue(status[k])
  {
    if k < |status| then
      PyIntOfChar(status[k]);
      PyInt([status[k]])
    else Err(IndexError)
  }

  /** A command of the form `<letter><n>X`, as `'<letter>{}X'.format(n)` writes it for a natural n. */
  function LetterCommand(letter: char, n: nat): (c: string)
    ensures |c| >= 3 && c[0] == letter && c[|c| - 1] == 'X'
    ensures AllDigits(c[1..|c| - 1])
  {
    [letter] + NatToString(n) + "X"
  }

  /** A one-digit command is three characters. */
  lemma LetterCommandDigit(letter: char, d: nat)
    requires d < 10
    ensures LetterCommand(letter, d) == [letter, DigitChar(d), 'X']
  {
  }

  /** The number in a `<letter><n>X` command reads back as n. */
  lemma LetterCommandRoundTrip(letter: char, n: nat)
    ensures var c := LetterCommand(letter, n); PyInt(c[1..|c| - 1]) == Ok(n)
  {
    var c := LetterCommand(letter, n);
    assert c[1..|c| - 1] == NatToString(n);
    PyIntOfNatToString(n);
  }
}

=== FILE: keithley220.dfy ===
/**
 * The Keithley 220 current source. Its status (`U0X`) is read at fixed
 * positions after the driver prepends `"220"` to the reply; its data line
 * is a comma-separated list of current, voltage limit, dwell time and
 * buffer address. Settings are written as `<letter><value>X` commands.
 */
module Keithley220 {
  import opened Wrappers
  import opened Text
  import opened Instrument

  /** The `status` feat: the `U0X` reply with the model number in front. */
  function Status(reply: string): (s: string)
    ensures |s| == |reply| + 3
    ensures forall k :: 3 <= k < |s| ==> s[k] == reply[k - 3]
  {
    "220" + reply
  }

  function StatusQuery(): seq<Io> { [Query("U0X")] }

  /** `output`: `int(status[4])`, with 1 meaning on and 0 off; other digits are not values of the feat. */
  function OutputGet(reply: string): (r: Result<bool>)
    ensures r.Ok? <==> |reply| >= 2 && (reply[1] == '0' || reply[1] == '1')
    ensures r.Ok? ==> r.value == (reply[1] == '1')
    ensures |reply| < 2 ==> r == Err(IndexError)
  {
    var code :- DigitAt(Status(reply), 4);
    if code == 1 then Ok(true) else if code == 0 then Ok(false) else Err(ValueError)
  }

  function OutputCode(on: bool): nat { if on then 1 else 0 }

  function OutputSet(on: bool): seq<Io> { [Send(LetterCommand('F', OutputCode(on)))] }

  /** What the setter writes is what the status then reports. */
  lemma OutputReadBack(on: bool, reply: string)
    requires |reply| >= 2 && reply[1] == OutputSet(on)[0].text[1]
    ensures OutputGet(reply) == Ok(on)
    ensures OutputSet(on) == [Send(if on then "F1X" else "F0X")]
  {
    LetterCommandDigit('F', OutputCode(on));
  }

  datatype Program = Single | Continuous | Step
  {
    function Code(): (c: char)
      ensures '0' <= c <= '2'
    {
      match this
      case Single => '0'
      case Continuous => '1'
      case Step => '2'
    }
  }

  /** `program`: the character status[8], which must be one of the three codes. */
  function ProgramGet(reply: string): (r: Result<Program>)
    ensures |reply| < 6 ==> r == Err(IndexError)
    ensures r.Ok? <==> |reply| >= 6 && '0' <= reply[5] <= '2'
    ensures r.Ok? ==> r.value.Code() == reply[5]
  {
    var status := Status(reply);
    if |status| <= 8 then Err(IndexError)
    else
      match status[8]
      case '0' => Ok(Single)
      case '1' => Ok(Continuous)
      case '2' => Ok(Step)
      case _ => Err(ValueError)
  }

  function ProgramSet(p: Program): seq<Io> { [Send(['P', p.Code(), 'X'])] }

  lemma ProgramReadBack(p: Program, reply: string)
    requires |reply| >= 6 && reply[5] == ProgramSet(p)[0].text[1]
    ensures ProgramGet(reply) == Ok(p)
  {
  }

  /** The ten current ranges, in the order of their codes 0 to 9. */
  function RangeNames(): (names: seq<string>)
    ensures |names| == 10
  {
    ["auto", "nA", "10nA", "100nA", "1uA", "10uA", "100uA", "1mA", "10mA", "100mA"]
  }

  /** Each range name has one code. */
  lemma RangeNamesDistinct()
    ensures forall i, j :: 0 <= i < j < 10 ==> RangeNames()[i] != RangeNames()[j]
  {
  }

  /** `range`: the digit status[9], every digit naming a range. */
  function RangeGet(reply: string): (r: Result<string>)
    ensures |reply| < 7 ==> r == Err(IndexError)
    ensures r.Ok? <==> |reply| >= 7 && IsDigit(reply[6])
    ensures r.Ok? ==> r.value == RangeNames()[DigitValue(reply[6])]
  {
    var code :- DigitAt(Status(reply), 9);
    Ok(RangeNames()[code])
  }

  /** The code of a range name, or None when the name is not in the table. */
  function RangeCode(name: string): (r: Option<nat>)
    ensures r.Some? ==> r.value < 10 && RangeNames()[r.value] == name
    ensures r.None? ==> name !in RangeNames()
  {
    RangeCodeFrom(name, 0)
  }

  function RangeCodeFrom(name: string, i: nat): (r: Option<nat>)
    requires i <= 10
    ensures r.Some? ==> i <= r.value < 10 && RangeNames()[r.value] == name
    ensures r.None? ==> forall k :: i <= k < 10 ==> RangeNames()[k] != name
    decreases 10 - i
  {
    if i == 10 then None
    else if RangeNames()[i] == name then Some(i)
    else RangeCodeFrom(name, i + 1)
  }

  /** Setting a range that is not in the table is refused with ValueError before anything is sent. */
  function RangeSet(name: string): (r: Result<seq<Io>>)
    ensures r.Ok? <==> name in RangeNames()
  {
    match RangeCode(name)
    case Some(code) => Ok([Send(LetterCommand('R', code))])
    case None => Err(ValueError)
  }

  /** A range set and then read from the status is the same range. */
  lemma RangeReadBack(name: string, reply: string)
    requires name in RangeNames()
    requires |reply| >= 7 && reply[6] == RangeSet(name).value[0].text[1]
    ensures RangeGet(reply) == Ok(name)
  {
    var code := RangeCode(name).value;
    LetterCommandDigit('R', code);
    DigitRoundTrip(code);
  }

  /** `data`: the received line split at commas; the numbers themselves are parsed as floats. */
  function Data(line: string): (fields: seq<string>)
    ensures |fields| >= 1
  {
    Split(line, ',')
  }

  /** One field of `data`: IndexError when the line has fewer fields. */
  function DataField(line: string, k: nat): (r: Result<string>)
    ensures r.Ok? <==> k < |Data(line)|
    ensures r.Ok? ==> r.value == Data(line)[k] && ',' !in r.value
  {
    JoinSplit(line, ',');
    if k < |Data(line)| then Ok(Data(line)[k]) else Err(IndexError)
  }

  const CurrentField: nat := 0
  const VoltageLimitField: nat := 1
  const DwellTimeField: nat := 2
  const AddressField: nat := 3

  /** A data line written as four comma-joined fields gives each feat its own field back. */
  lemma DataFieldsRoundTrip(current: string, limit: string, dwell: string, address: string)
    requires ',' !in current && ',' !in limit && ',' !in dwell && ',' !in address
    ensures var line := Join([current, limit, dwell, address], ',');
      && DataField(line, CurrentField) == Ok(current)
      && DataField(line, VoltageLimitField) == Ok(limit)
      && DataField(line, DwellTimeField) == Ok(dwell)
      && DataField(line, AddressField) == Ok(address)
      && DataField(line, 4) == Err(IndexError)
  {
    SplitJoin([current, limit, dwell, address], ',');
  }

  /** `voltage_limit`'s setter writes the integer part of the limit in volts. */
  function VoltageLimitSet(volts: int): seq<Io> { [Send("V" + IntToString(volts) + "X")] }

  /** `address` and `display_address` accept 1 to 100; anything else is refused with ValueError. */
  function LimitedCommand(letter: char, n: int): (r: Result<seq<Io>>)
    ensures r.Ok? <==> 1 <= n <= 100
    ensures r.Ok? ==> |r.value| == 1 && r.value[0].Send? && r.value[0].text == LetterCommand(letter, n)
  {
    if 1 <= n <= 100 then Ok([Send(LetterCommand(letter, n))]) else Err(ValueError)
  }

  function AddressSet(n: int): (r: Result<seq<Io>>)
    ensures r.Ok? <==> 1 <= n <= 100
    ensures r.Ok? ==> r.value == [Send(LetterCommand('B', n))]
  {
    LimitedCommand('B', n)
  }

  function DisplayAddressSet(n: int): (r: Result<seq<Io>>)
    ensures r.Ok? <==> 1 <= n <= 100
    ensures r.Ok? ==> r.value == [Send(LetterCommand('L', n))]
  {
    LimitedCommand('L', n)
  }

  /** The address written by either setter is the number the command carries. */
  lemma AddressCommandRoundTrip(n: int)
    requires 1 <= n <= 100
    ensures var c := AddressSet(n).value[0].text; c[0] == 'B' && PyInt(c[1..|c| - 1]) == Ok(n)
    ensures var c := DisplayAddressSet(n).value[0].text; c[0] == 'L' && PyInt(c[1..|c| - 1]) == Ok(n)
  {
    LetterCommandRoundTrip('B', n);
    LetterCommandRoundTrip('L', n);
  }

  /**
   * `display_address` switches the data format with `G1X`, reads the data
   * line and switches back with `G3X`; a missing field raises before the
   * switch back is sent.
   */
  function DisplayAddressGet(line: string): (r: (seq<Io>, Result<string>))
    ensures r.1 == DataField(line, AddressField)
    ensures r.1.Ok? ==> r.0 == [Send("G1X"), Receive, Send("G3X")]
    ensures r.1.Err? ==> r.0 == [Send("G1X"), Receive]
  {
    var field := DataField(line, AddressField);
    ([Send("G1X"), Receive] + (if field.Ok? then [Send("G3X")] else []), field)
  }

  function Clear(): seq<Io> { [Send("DCL")] }

  function Execute(): seq<Io> { [Send("X")] }

  function Initialize(): seq<Io> { [BaseInitialize, Send("G3T2X")] }

  function Finalize(): seq<Io> { OutputSet(false) + [BaseFinalize] }

  /** The session opens the resource before configuring it and switches the output off before closing it. */
  lemma SessionOrder()
    ensures Initialize() == [BaseInitialize, Send("G3T2X")]
    ensures Finalize() == [Send("F0X"), BaseFinalize]
  {
    LetterCommandDigit('F', 0);
  }
}

=== FILE: keithley617.dfy ===
/**
 * The Keithley 617 electrometer. Its status (`U0X`) is read at fixed
 * positions: the function at 3, the range at 4-5, zero check at 6, zero
 * correct at 7, the reading mode at 11 and the display mode at 13. Each
 * setting is written as `<letter><code>X`.
 */
module Keithley617 {
  import opened Wrappers
  import opened Text
  import opened Instrument

  function StatusQuery(): seq<Io> { [Query("U0X")] }

  /** `int(status[k])` where the feat's values are the codes `0..count-1`; another digit is refused. */
  function CodeAt(status: string, k: nat, count: nat): (r: Result<nat>)
    requires count <= 10
    ensures k >= |status| ==> r == Err(IndexError)
    ensures r.Ok? <==> k < |status| && IsDigit(status[k]) && DigitValue(status[k]) < count
    ensures r.Ok? ==> r.value < count && DigitChar(r.value) == status[k]
  {
    var code :- DigitAt(status, k);
    if code < count then Ok(code) else Err(ValueError)
  }

  datatype Function = Volts | Amps | Ohms | Coulombs
  {
    function Code(): (c: nat)
      ensures c < 4
    {
      match this
      case Volts => 0
      case Amps => 1
      case Ohms => 2
      case Coulombs => 3
    }
  }

  function FunctionOf(code: nat): (f: Function)
    requires code < 4
    ensures f.Code() == code
  {
    if code == 0 then Volts else if code == 1 then Amps else if code == 2 then Ohms else Coulombs
  }

  /** `function`: status[3]. */
  function FunctionGet(status: string): (r: Result<Function>)
    ensures r.Ok? <==> 3 < |status| && IsDigit(status[3]) && DigitValue(status[3]) < 4
    ensures r.Ok? ==> DigitChar(r.value.Code()) == status[3]
  {
    var code :- CodeAt(status, 3, 4);
    Ok(FunctionOf(code))
  }

  function FunctionSet(f: Function): seq<Io> { [Send(LetterCommand('F', f.Code()))] }

  datatype ReadingMode = ElectrometerReading | Buffer | Max | Min | VSourceReading
  {
    function Code(): (c: nat)
      ensures c < 5
    {
      match this
      case ElectrometerReading => 0
      case Buffer => 1
      case Max => 2
      case Min => 3
      case VSourceReading => 4
    }
  }

  function ReadingModeOf(code: nat): (m: ReadingMode)
    requires code < 5
    ensures m.Code() == code
  {
    match code
    case 0 => ElectrometerReading
    case 1 => Buffer
    case 2 => Max
    case 3 => Min
    case _ => VSourceReading
  }

  /** `reading_mode`: status[11]. */
  function ReadingModeGet(status: string): (r: Result<ReadingMode>)
    ensures r.Ok? <==> 11 < |status| && IsDigit(status[11]) && DigitValue(status[11]) < 5
    ensures r.Ok? ==> DigitChar(r.value.Code()) == status[11]
  {
    var code :- CodeAt(status, 11, 5);
    Ok(ReadingModeOf(code))
  }

  function ReadingModeSet(m: ReadingMode): seq<Io> { [Send(LetterCommand('B', m.Code()))] }

  datatype DisplayMode = ElectrometerDisplay | VSourceDisplay
  {
    function Code(): (c: nat)
      ensures c < 2
    {
      if this == ElectrometerDisplay then 0 else 1
    }
  }

  /** `display_mode`: status[13]. */
  function DisplayModeGet(status: string): (r: Result<DisplayMode>)
    ensures r.Ok? <==> 13 < |status| && (status[13] == '0' || status[13] == '1')
    ensures r.Ok? ==> DigitChar(r.value.Code()) == status[13]
  {
    var code :- CodeAt(status, 13, 2);
    Ok(if code == 0 then ElectrometerDisplay else VSourceDisplay)
  }

  function DisplayModeSet(m: DisplayMode): seq<Io> { [Send(LetterCommand('D', m.Code()))] }

  /** `zero_check` (status[6]) and `zero_correct` (status[7]): 1 is on, 0 is off. */
  function SwitchGet(status: string, k: nat): (r: Result<bool>)
    ensures r.Ok? <==> k < |status| && (status[k] == '0' || status[k] == '1')
    ensures r.Ok? ==> r.value == (status[k] == '1')
  {
    var code :- CodeAt(status, k, 2);
    Ok(code == 1)
  }

  function ZeroCheckGet(status: string): Result<bool> { SwitchGet(status, 6) }

  function ZeroCorrectGet(status: string): Result<bool> { SwitchGet(status, 7) }

  /** The setters index `[0, 1]` with the truth of the mapped code, so on is 1 and off is 0. */
  function SwitchCode(on: bool): nat { [0, 1][if on then 1 else 0] }

  function ZeroCheckSet(on: bool): seq<Io> { [Send(LetterCommand('Z', SwitchCode(on)))] }

  function ZeroCorrectSet(on: bool): seq<Io> { [Send(LetterCommand('C', SwitchCode(on)))] }

  /**
   * `range`: `int(status[4:6])`. The only value of the feat is `auto`, code
   * 0, so any other number is refused; a short status slices to fewer
   * characters and `int` refuses the text.
   */
  function RangeGet(status: string): (r: Result<string>)
    ensures r.Ok? <==> PyInt(Slice(status, 4, 6)) == Ok(0)
    ensures r.Ok? ==> r.value == "auto"
    ensures |status| <= 4 ==> r == Err(ValueError)
  {
    var code :- PyInt(Slice(status, 4, 6));
    if code == 0 then Ok("auto") else Err(ValueError)
  }

  function RangeSet(name: string): (r: Result<seq<Io>>)
    ensures r.Ok? <==> name == "auto"
    ensures r.Ok? ==> r.value == [Send("R0X")]
  {
    LetterCommandDigit('R', 0);
    if name == "auto" then Ok([Send(LetterCommand('R', 0))]) else Err(ValueError)
  }

  /** The switch setters write `1` for on and `0` for off. */
  lemma SwitchCommand(letter: char, on: bool)
    ensures LetterCommand(letter, SwitchCode(on)) == [letter, if on then '1' else '0', 'X']
  {
    LetterCommandDigit(letter, SwitchCode(on));
  }

  /** Every setter's command carries the character the status shows for that setting. */
  lemma SettersMatchStatus(f: Function, z: bool, c: bool, m: ReadingMode, d: DisplayMode)
    ensures FunctionSet(f)[0].text == ['F', DigitChar(f.Code()), 'X']
    ensures ZeroCheckSet(z)[0].text == ['Z', if z then '1' else '0', 'X']
    ensures ZeroCorrectSet(c)[0].text == ['C', if c then '1' else '0', 'X']
    ensures ReadingModeSet(m)[0].text == ['B', DigitChar(m.Code()), 'X']
    ensures DisplayModeSet(d)[0].text == ['D', DigitChar(d.Code()), 'X']
  {
    LetterCommandDigit('F', f.Code());
    SwitchCommand('Z', z);
    SwitchCommand('C', c);
    LetterCommandDigit('B', m.Code());
    LetterCommandDigit('D', d.Code());
  }

  lemma FunctionReadBack(status: string, f: Function)
    requires |status| > 3 && status[3] == DigitChar(f.Code())
    ensures FunctionGet(status) == Ok(f)
  {
    DigitRoundTrip(f.Code());
  }

  lemma ReadingModeReadBack(status: string, m: ReadingMode)
    requires |status| > 11 && status[11] == DigitChar(m.Code())
    ensures ReadingModeGet(status) == Ok(m)
  {
    DigitRoundTrip(m.Code());
    assert CodeAt(status, 11, 5) == Ok(m.Code());
    ReadingModeOfCode(m);
  }

  lemma ReadingModeOfCode(m: ReadingMode)
    ensures ReadingModeOf(m.Code()) == m
  {
    match m
    case ElectrometerReading =>
    case Buffer =>
    case Max =>
    case Min =>
    case VSourceReading =>
  }

  lemma DisplayModeReadBack(status: string, d: DisplayMode)
    requires |status| > 13 && status[13] == DigitChar(d.Code())
    ensures DisplayModeGet(status) == Ok(d)
  {
    DigitRoundTrip(d.Code());
  }

  /** A range field of `00` reads as `auto`. */
  lemma RangeAutoReadBack(status: string)
    requires |status| >= 6 && status[4..6] == "00"
    ensures RangeGet(status) == Ok("auto")
  {
    var t := Slice(status, 4, 6);
    assert t == "00";
    DoubleZero(t);
  }

  lemma DoubleZero(t: string)
    requires t == "00"
    ensures PyInt(t) == Ok(0)
  {
    assert StripLeft(t) == t;
    assert StripRight(t) == t;
    ZerosValue(t);
  }

  /**
   * A status whose fields hold the characters the setters wrote reads
   * back as those settings, with the range at `00`.
   */
  lemma StatusReadBack(status: string, f: Function, z: bool, c: bool, m: ReadingMode, d: DisplayMode)
    requires |status| >= 14
    requires status[3] == FunctionSet(f)[0].text[1]
    requires status[4..6] == "00"
    requires status[6] == ZeroCheckSet(z)[0].text[1]
    requires status[7] == ZeroCorrectSet(c)[0].text[1]
    requires status[11] == ReadingModeSet(m)[0].text[1]
    requires status[13] == DisplayModeSet(d)[0].text[1]
    ensures FunctionGet(status) == Ok(f) && RangeGet(status) == Ok("auto")
    ensures ZeroCheckGet(status) == Ok(z) && ZeroCorrectGet(status) == Ok(c)
    ensures ReadingModeGet(status) == Ok(m) && DisplayModeGet(status) == Ok(d)
  {
    SettersMatchStatus(f, z, c, m, d);
    FunctionReadBack(status, f);
    RangeAutoReadBack(status);
    ReadingModeReadBack(status, m);
    DisplayModeReadBack(status, d);
  }

  function Execute(): seq<Io> { [Send("X")] }

  /** `voltage`: select the volts function, trigger a reading, and read it. */
  function VoltageGet(): (io: seq<Io>)
    ensures io == FunctionSet(Volts) + Execute() + [Receive]
    ensures io == [Send("F0X"), Send("X"), Receive]
  {
    LetterCommandDigit('F', 0);
    FunctionSet(Volts) + Execute() + [Receive]
  }

  /**
   * `initialize`: the base class opens the resource first; then readings
   * come without a prefix (`G1`) and the trigger is continuous on talk (`T0`).
   */
  function Initialize(): (io: seq<Io>)
    ensures |io| == 3 && io[0] == BaseInitialize
    ensures io[1] == Send("G1") && io[2] == Send("T0")
  {
    [BaseInitialize, Send("G1"), Send("T0")]
  }
}

=== FILE: keithley705.dfy ===
/**
 * The Keithley 705 scanner as a switching matrix of 5 columns by 4 rows.
 * A channel is closed with `C0<col><row>X` and opened with
 * `N0<col><row>X`; the `U1X` reply lists `col:row,status` pairs.
 */
module Keithley705 {
  import opened Wrappers
  import opened Text
  import opened Instrument

  /** A channel key `(col, row)`, as the driver's dictionary feature receives it. */
  type Key = (int, int)

  predicate IsKey(k: Key) { 1 <= k.0 <= 5 && 1 <= k.1 <= 4 }

  /** The declared keys, column-major: `(1, 1), (1, 2), ..., (5, 4)`. */
  function Keys(): (ks: seq<Key>)
    ensures |ks| == 20
  {
    seq(20, i requires 0 <= i < 20 => (i / 4 + 1, i % 4 + 1))
  }

  /** The keys are exactly the twenty pairs with col in 1..5 and row in 1..4, each listed once. */
  lemma KeysAreTheMatrix()
    ensures forall k: Key :: k in Keys() <==> IsKey(k)
    ensures forall i, j :: 0 <= i < j < |Keys()| ==> Keys()[i] != Keys()[j]
  {
    forall k: Key | IsKey(k) ensures k in Keys() {
      var i := (k.0 - 1) * 4 + (k.1 - 1);
      assert Keys()[i] == k;
    }
  }

  /** The command the `channel` setter sends: `C` to close, `N` to open. */
  function ChannelCommand(key: Key, value: bool): (cmd: string)
    requires IsKey(key)
    ensures |cmd| == 5
  {
    [if value then 'C' else 'N', '0', DigitChar(key.0), DigitChar(key.1), 'X']
  }

  /** Reads a channel command back; `None` for any text the setter never sends. */
  function DecodeChannelCommand(cmd: string): (r: Option<(Key, bool)>)
    ensures r.Some? ==> IsKey(r.value.0)
  {
    if |cmd| == 5 && (cmd[0] == 'C' || cmd[0] == 'N') && cmd[1] == '0'
       && IsDigit(cmd[2]) && IsDigit(cmd[3]) && cmd[4] == 'X'
    then
      var key: Key := (DigitValue(cmd[2]), DigitValue(cmd[3]));
      if IsKey(key) then Some((key, cmd[0] == 'C')) else None
    else None
  }

  /** The channel command names its key and value: decoding gives them back, and nothing else decodes. */
  lemma ChannelCommandRoundTrip(key: Key, value: bool, cmd: string)
    requires IsKey(key)
    ensures DecodeChannelCommand(ChannelCommand(key, value)) == Some((key, value))
    ensures DecodeChannelCommand(cmd) == Some((key, value)) ==> cmd == ChannelCommand(key, value)
  {
    if DecodeChannelCommand(cmd) == Some((key, value)) {
      assert cmd == [cmd[0], cmd[1], cmd[2], cmd[3], cmd[4]];
    }
  }

  /** Two settings send the same command only if they are the same setting. */
  lemma ChannelCommandInjective(k1: Key, v1: bool, k2: Key, v2: bool)
    requires IsKey(k1) && IsKey(k2)
    ensures ChannelCommand(k1, v1) == ChannelCommand(k2, v2) ==> k1 == k2 && v1 == v2
  {
    ChannelCommandRoundTrip(k1, v1, "");
    ChannelCommandRoundTrip(k2, v2, "");
  }

  /** Setting `channel[key]`: a key outside the declared ones is refused before anything is sent. */
  function SetChannel(key: Key, value: bool): (r: Result<seq<Io>>)
    ensures r.Ok? <==> IsKey(key)
    ensures r.Ok? ==> r.value == [Send(ChannelCommand(key, value))]
  {
    if IsKey(key) then Ok([Send(ChannelCommand(key, value))]) else Err(KeyError)
  }

  /** `close(channel)`: set the channel to True. */
  function Close(key: Key): (r: Result<seq<Io>>)
    ensures r.Ok? <==> IsKey(key)
    ensures r.Ok? ==> |r.value| == 1 && r.value[0].Send?
                      && DecodeChannelCommand(r.value[0].text) == Some((key, true))
  {
    if IsKey(key) then
      ChannelCommandRoundTrip(key, true, "");
      SetChannel(key, true)
    else SetChannel(key, true)
  }

  /** `open(channel)`: set the channel to False. */
  function Open(key: Key): (r: Result<seq<Io>>)
    ensures r.Ok? <==> IsKey(key)
    ensures r.Ok? ==> |r.value| == 1 && r.value[0].Send?
                      && DecodeChannelCommand(r.value[0].text) == Some((key, false))
  {
    if IsKey(key) then
      ChannelCommandRoundTrip(key, false, "");
      SetChannel(key, false)
    else SetChannel(key, false)
  }

  function MatrixMode(): seq<Io> { [Send("A0")] }

  function Execute(): seq<Io> { [Send("X")] }

  function Reset(): seq<Io> { [Send("RX")] }

  /** `initialize`: the base initialisation, then `G3X` (channel list without prefix). */
  function Initialize(): seq<Io> { [BaseInitialize, Send("G3X")] }

  /** `finalize`: reset the matrix, then the base finalisation. */
  function Finalize(): seq<Io> { Reset() + [BaseFinalize] }

  /** `G3X` is sent once the resource is open, and the reset goes out before it is closed. */
  lemma SessionOrder()
    ensures Initialize()[0] == BaseInitialize && Send("G3X") in Initialize()[1..]
    ensures Finalize()[|Finalize()| - 1] == BaseFinalize && Reset() <= Finalize()
  {
  }

  /** `zip(data[::2], data[1::2])`: a trailing unpaired piece is dropped. */
  function Pairs(data: seq<string>): (ps: seq<(string, string)>)
    ensures |ps| == |data| / 2
    ensures forall i :: 0 <= i < |ps| ==> ps[i] == (data[2 * i], data[2 * i + 1])
  {
    seq(|data| / 2, i requires 0 <= i < |data| / 2 => (data[2 * i], data[2 * i + 1]))
  }

  /** `col, row = tag.split(':')` then `(int(col), int(row))`. */
  function ParseLabel(tag: string): (r: Result<Key>)
  {
    var parts := Split(tag, ':');
    if |parts| != 2 then Err(ValueError)
    else
      var col :- PyInt(parts[0]);
      var row :- PyInt(parts[1]);
      Ok((col, row))
  }

  /** Each pair read: its tag parsed, and whether its status text is exactly `1`. */
  function Entries(pairs: seq<(string, string)>): (es: seq<(Result<Key>, bool)>)
    ensures |es| == |pairs|
    ensures forall i :: 0 <= i < |pairs| ==> es[i] == (ParseLabel(pairs[i].0), pairs[i].1 == "1")
  {
    seq(|pairs|, i requires 0 <= i < |pairs| => (ParseLabel(pairs[i].0), pairs[i].1 == "1"))
  }

  /** The dictionary the `channels` loop builds from the first entries, or the first error raised. */
  function Fill(entries: seq<(Result<Key>, bool)>): Result<map<Key, bool>>
  {
    if entries == [] then Ok(map[])
    else
      var prev := Fill(entries[..|entries| - 1]);
      var last := entries[|entries| - 1];
      if prev.Err? then prev
      else if last.0.Err? then Err(last.0.error)
      else Ok(prev.value[last.0.value := last.1])
  }

  /** The reply `channels` reads, parsed. */
  function ChannelsReply(reply: string): Result<map<Key, bool>>
  {
    Fill(Entries(Pairs(Split(reply, ','))))
  }

  /** The `channels` feature: query `U1X` and fill a dictionary in a loop. */
  method Channels(reply: string) returns (io: seq<Io>, r: Result<map<Key, bool>>)
    ensures io == [Query("U1X")]
    ensures r == ChannelsReply(reply)
  {
    io := [Query("U1X")];
    var data := Split(reply, ',');
    ghost var entries := Entries(Pairs(data));
    var ret: map<Key, bool> := map[];
    var i := 0;
    while i < |data| / 2
      invariant 0 <= i <= |data| / 2
      invariant Fill(entries[..i]) == Ok(ret)
    {
      var key := ParseLabel(data[2 * i]);
      FillNext(entries, i);
      if key.Err? {
        FillErrorStops(entries, i + 1);
        return io, Err(key.error);
      }
      ret := ret[key.value := data[2 * i + 1] == "1"];
      i := i + 1;
    }
    assert entries[..i] == entries;
    r := Ok(ret);
  }

  /** One more turn of the loop. */
  lemma FillNext(entries: seq<(Result<Key>, bool)>, i: nat)
    requires i < |entries| && Fill(entries[..i]).Ok?
    ensures entries[i].0.Err? ==> Fill(entries[..i + 1]) == Err(entries[i].0.error)
    ensures entries[i].0.Ok? ==>
      Fill(entries[..i + 1]) == Ok(Fill(entries[..i]).value[entries[i].0.value := entries[i].1])
  {
    assert entries[..i + 1][..i] == entries[..i];
  }

  /** An error raised on one entry is what the whole loop raises. */
  lemma {:induction false} FillErrorStops(entries: seq<(Result<Key>, bool)>, n: nat)
    requires n <= |entries| && Fill(entries[..n]).Err?
    ensures Fill(entries) == Fill(entries[..n])
    decreases |entries|
  {
    if n < |entries| {
      assert entries[..|entries| - 1][..n] == entries[..n];
      FillErrorStops(entries[..|entries| - 1], n);
    } else {
      assert entries[..n] == entries;
    }
  }

  /** `channels` fails exactly when some tag is not two integers around a colon. */
  lemma {:induction false} ChannelsFailure(entries: seq<(Result<Key>, bool)>)
    ensures Fill(entries).Ok? <==> forall i :: 0 <= i < |entries| ==> entries[i].0.Ok?
    decreases |entries|
  {
    if entries != [] {
      var init := entries[..|entries| - 1];
      ChannelsFailure(init);
      assert forall i :: 0 <= i < |init| ==> init[i] == entries[i];
    }
  }

  /** The keys `channels` returns are exactly the tags read. */
  lemma {:induction false} ChannelsKeys(entries: seq<(Result<Key>, bool)>, k: Key)
    requires Fill(entries).Ok?
    ensures k in Fill(entries).value <==> exists i :: 0 <= i < |entries| && entries[i].0 == Ok(k)
    decreases |entries|
  {
    if entries != [] {
      var init := entries[..|entries| - 1];
      ChannelsKeys(init, k);
      assert forall i :: 0 <= i < |init| ==> init[i] == entries[i];
      if k in Fill(entries).value && k !in Fill(init).value {
        assert entries[|entries| - 1].0 == Ok(k);
      }
    }
  }

  /** No entry after the i-th carries the same key. */
  predicate LastWithTag(entries: seq<(Result<Key>, bool)>, i: nat)
    requires i < |entries|
  {
    forall j :: i < j < |entries| ==> entries[j].0 != entries[i].0
  }

  /** A repeated tag keeps the status of its last pair. */
  lemma {:induction false} ChannelsLastWins(entries: seq<(Result<Key>, bool)>, i: nat)
    requires Fill(entries).Ok? && i < |entries| && LastWithTag(entries, i)
    ensures entries[i].0.Ok?
    ensures entries[i].0.value in Fill(entries).value
    ensures Fill(entries).value[entries[i].0.value] == entries[i].1
    decreases |entries|
  {
    ChannelsFailure(entries);
    var init := entries[..|entries| - 1];
    if i < |entries| - 1 {
      assert forall j :: 0 <= j < |init| ==> init[j] == entries[j];
      assert LastWithTag(init, i);
      ChannelsLastWins(init, i);
      assert entries[|entries| - 1].0 != entries[i].0;
    }
  }

  /** A trailing piece without a partner changes nothing. */
  lemma TrailingPieceIgnored(reply: string, piece: string)
    requires |Split(reply, ',')| % 2 == 0 && ',' !in piece
    ensures ChannelsReply(reply + [','] + piece) == ChannelsReply(reply)
  {
    SplitConcat(reply, piece, ',');
    SplitFree(piece, ',');
    var data := Split(reply, ',');
    assert Pairs(data + [piece]) == Pairs(data);
  }

  /**
   * Reading `channel[key]`: a key outside the declared ones is refused
   * before the query; otherwise the parsed reply's entry, and KeyError when
   * the reply does not list the key.
   */
  function GetChannel(key: Key, reply: string): (r: Result<bool>)
    ensures !IsKey(key) ==> r == Err(KeyError)
    ensures IsKey(key) && ChannelsReply(reply).Err? ==> r == Err(ChannelsReply(reply).error)
    ensures IsKey(key) && ChannelsReply(reply).Ok? ==>
      (r.Ok? <==> key in ChannelsReply(reply).value)
    ensures r.Ok? ==> r.value == ChannelsReply(reply).value[key]
  {
    if !IsKey(key) then Err(KeyError)
    else
      var m :- ChannelsReply(reply);
      if key in m then Ok(m[key]) else Err(KeyError)
  }

  /** The tag the instrument lists a channel under, `col:row`. */
  function Tag(key: Key): (t: string)
    requires IsKey(key)
    ensures ',' !in t
  {
    [DigitChar(key.0), ':', DigitChar(key.1)]
  }

  function StatusText(closed: bool): (t: string)
    ensures ',' !in t && (t == "1" <==> closed)
  {
    if closed then "1" else "0"
  }

  /** The pieces of a `U1X` reply listing the given channels in order. */
  function ReplyPieces(listed: seq<(Key, bool)>): (ps: seq<string>)
    requires forall i :: 0 <= i < |listed| ==> IsKey(listed[i].0)
    ensures |ps| == 2 * |listed|
    ensures forall i :: 0 <= i < |listed| ==>
      ps[2 * i] == Tag(listed[i].0) && ps[2 * i + 1] == StatusText(listed[i].1)
  {
    if listed == [] then []
    else
      var n := |listed| - 1;
      ReplyPieces(listed[..n]) + [Tag(listed[n].0), StatusText(listed[n].1)]
  }

  /** A `U1X` reply as the instrument formats it. */
  function FormatReply(listed: seq<(Key, bool)>): string
    requires forall i :: 0 <= i < |listed| ==> IsKey(listed[i].0)
  {
    if listed == [] then "" else Join(ReplyPieces(listed), ',')
  }

  /**
   * `channels` reads back what the instrument lists: every listed key, in
   * order, with its state, so that the contents follow from
   * `ChannelsKeys` and `ChannelsLastWins`.
   */
  lemma ReplyRoundTrip(listed: seq<(Key, bool)>)
    requires forall i :: 0 <= i < |listed| ==> IsKey(listed[i].0)
    ensures ChannelsReply(FormatReply(listed))
      == Fill(seq(|listed|, i requires 0 <= i < |listed| => (Ok(listed[i].0), listed[i].1)))
  {
    var expected := seq(|listed|, i requires 0 <= i < |listed| => (Ok(listed[i].0), listed[i].1));
    if listed == [] {
      assert Split("", ',') == [""];
    } else {
      var pieces := ReplyPieces(listed);
      forall i | 0 <= i < |pieces| ensures ',' !in pieces[i] {
        var j := i / 2;
        if i % 2 == 0 {
          assert pieces[2 * j] == Tag(listed[j].0);
        } else {
          assert pieces[2 * j + 1] == StatusText(listed[j].1);
        }
      }
      SplitJoin(pieces, ',');
      var entries := Entries(Pairs(pieces));
      forall i | 0 <= i < |listed| ensures entries[i] == expected[i] {
        LabelOf(listed[i].0.0, listed[i].0.1);
      }
      assert entries == expected;
    }
  }

  /** The tag `c:r` of one-digit numbers reads as the key `(c, r)`. */
  lemma LabelOf(c: nat, r: nat)
    requires c < 10 && r < 10
    ensures ParseLabel([DigitChar(c), ':', DigitChar(r)]) == Ok((c, r))
  {
    var a, b := [DigitChar(c)], [DigitChar(r)];
    assert [DigitChar(c), ':', DigitChar(r)] == a + [':'] + b;
    SplitPrefix(a, b, ':');
    SplitFree(b, ':');
    assert Split(a + [':'] + b, ':') == [a, b];
    PyIntOfChar(DigitChar(c));
    PyIntOfChar(DigitChar(r));
  }
}

=== FILE: stepper.dfy ===
/**
 * The breakpoint stepper: an object that drives a generator-based task one
 * `yield` at a time under operator control (step, run, pause, cancel).
 *
 * The generator wraps the task's `work()` in a `try`/`finally` that calls
 * `finalize()`. It is abstracted here as a position over a fixed number of
 * breakpoints: `work()` is `breakpoints + 1` segments of code separated by
 * `breakpoints` yields, and optionally one segment raises an exception.
 *
 * `State` and its member functions are the specification; the class
 * `Stepper` updates its fields in place, as the Python object does, and
 * each of its methods is proved to follow the matching function.
 */
module Stepper {
  import opened Wrappers

  /** PAUSED, RUNNING and FINISHED are 0, 1 and 2. */
  datatype Status = Paused | Running | Finished
  {
    /** The integer carried by the `statusChanged` signal. */
    function Code(): (c: nat)
      ensures c < 3
      ensures c == 0 <==> this == Paused
      ensures c == 1 <==> this == Running
    {
      match this
      case Paused => 0
      case Running => 1
      case Finished => 2
    }
  }

  /** A `work()` with `breakpoints` yields; the segment `raisesIn`, if any, raises instead of finishing. */
  datatype Work = Work(breakpoints: nat, raisesIn: Option<nat>)
  {
    predicate RaisesAt(i: nat) { raisesIn == Some(i) }

    /** Segment i ends the generator, by returning or by raising. */
    predicate EndsAt(i: nat) { RaisesAt(i) || i == breakpoints }
  }

  /** The life cycle of a Python generator. */
  datatype Phase = NotStarted | Suspended | Exhausted

  /** What `next(generator)` did: reached a `yield`, raised StopIteration, or let an exception out. */
  datatype Resumption = Yielded | Stopped | Raised

  /** How a slot call ends: normally, with `Warning('Task finished')`, or with the exception `work()` raised. */
  datatype Outcome = Returned | TaskFinished | WorkRaised

  /** Operator and event-loop actions on a stepper. */
  datatype Command = StepCmd | RunCmd | PauseCmd | CancelCmd | DeliverCmd

  /** `[0, 1, ..., n - 1]`. */
  function Range(n: nat): (r: seq<nat>)
    ensures |r| == n && forall i :: 0 <= i < n ==> r[i] == i
  {
    if n == 0 then [] else Range(n - 1) + [n - 1]
  }

  /**
   * Everything observable about a stepper: its status, where its generator
   * stands, which segments of `work()` have run (in order), how often
   * `finalize()` ran, every value `statusChanged` carried, and how many
   * queued `try_step` calls the `stepped` signal has posted and the event
   * loop has not delivered yet.
   */
  datatype State = State(
    work: Work,
    status: Status,
    phase: Phase,
    position: nat,
    segments: seq<nat>,
    finalized: nat,
    emitted: seq<Status>,
    queued: nat)
  {
    /**
     * The invariant every reachable state keeps. Segments run in order
     * without gaps or repeats, each segment before the current position
     * reached its `yield`, and only the segment that ended the generator
     * runs past its position; `finalize()` has run exactly when the
     * generator was started and has ended, so at most once; FINISHED means
     * the generator is exhausted; the last status emitted is the current one.
     */
    ghost predicate Valid()
    {
      && position <= work.breakpoints
      && (forall i :: 0 <= i < |segments| ==> segments[i] == i)
      && (forall i :: 0 <= i < position ==> !work.EndsAt(i))
      && (|segments| == position || |segments| == position + 1)
      && (|segments| == position + 1 ==> phase == Exhausted && work.EndsAt(position))
      && (phase == NotStarted ==> segments == [])
      && (phase == Suspended ==> 1 <= position == |segments|)
      && finalized == (if phase == Exhausted && segments != [] then 1 else 0)
      && (status == Finished ==> phase == Exhausted)
      && |emitted| >= 1 && emitted[|emitted| - 1] == status
    }

    /** `_set_status`: store the status and emit `statusChanged` with it, changed or not. */
    function SetStatus(s: Status): (r: State)
      ensures r.status == s && r.emitted == emitted + [s]
      ensures r.(status := status, emitted := emitted) == this
    {
      this.(status := s, emitted := emitted + [s])
    }

    /**
     * `next(self.coroutine)`: run the next segment of `work()`. Reaching a
     * `yield` suspends there; returning or raising leaves the `try` and runs
     * `finalize()`; an exhausted generator only raises StopIteration.
     */
    function Resume(): (r: (State, Resumption))
      ensures r.0.status == status && r.0.emitted == emitted && r.0.queued == queued
      ensures phase == Exhausted <==> r.0 == this
      ensures phase != Exhausted ==> r.0.segments == segments + [position]
      ensures r.0.finalized == finalized + (if r.1 != Yielded && phase != Exhausted then 1 else 0)
      ensures r.1 == Yielded <==> r.0.phase == Suspended
    {
      if phase == Exhausted then (this, Stopped)
      else
        var i := position;
        var ran := this.(segments := segments + [i]);
        if work.RaisesAt(i) then (ran.(phase := Exhausted, finalized := finalized + 1), Raised)
        else if i < work.breakpoints then (ran.(phase := Suspended, position := i + 1), Yielded)
        else (ran.(phase := Exhausted, finalized := finalized + 1), Stopped)
    }

    /**
     * `self.coroutine.close()`: a suspended generator gets GeneratorExit at
     * its `yield` and runs `finalize()`; one that never started is closed
     * without entering the `try`, so `finalize()` does not run.
     */
    function Close(): (r: State)
      ensures r.phase == Exhausted
      ensures r.finalized == finalized + (if phase == Suspended then 1 else 0)
      ensures r.(phase := phase, finalized := finalized) == this
    {
      match phase
      case NotStarted => this.(phase := Exhausted)
      case Suspended => this.(phase := Exhausted, finalized := finalized + 1)
      case Exhausted => this
    }

    /** The `step` slot. */
    function Step(): (r: (State, Outcome))
      ensures r.1 == TaskFinished <==> status == Finished
      ensures status == Finished ==> r.0 == this
      ensures r.0.queued == queued
      ensures r.1 == Returned && r.0.status != status ==> r.0.status == Finished
      ensures r.1 == WorkRaised ==> r.0.status == status && r.0.emitted == emitted
    {
      if status == Finished then (this, TaskFinished)
      else
        var (st, res) := Resume();
        match res
        case Yielded => (st, Returned)
        case Stopped => (st.SetStatus(Finished), Returned)
        case Raised => (st, WorkRaised)
    }

    /**
     * The `try_step` slot: nothing unless RUNNING; otherwise one step, and
     * if that step returned, `stepped` posts another `try_step`.
     */
    function TryStep(): (r: (State, Outcome))
      ensures status != Running ==> r == (this, Returned)
      ensures r.1 != TaskFinished
      ensures r.0.queued == queued + (if status == Running && r.1 == Returned then 1 else 0)
    {
      if status != Running then (this, Returned)
      else
        var (st, o) := Step();
        if o == Returned then (st.(queued := st.queued + 1), Returned) else (st, o)
    }

    /** The `run` slot: set RUNNING, whatever the status was, and try a step. */
    function Run(): (r: (State, Outcome))
      ensures r.1 != TaskFinished
      ensures r.0.emitted == emitted + [Running] || r.0.emitted == emitted + [Running, Finished]
    {
      SetStatus(Running).TryStep()
    }

    /** The `pause` slot: set PAUSED, whatever the status was. */
    function Pause(): (r: State)
      ensures r.status == Paused && r.emitted == emitted + [Paused]
    {
      SetStatus(Paused)
    }

    /** The `cancel` slot: close the generator, then set FINISHED. */
    function Cancel(): (r: State)
      ensures r.status == Finished && r.phase == Exhausted
      ensures r.emitted == emitted + [Finished]
    {
      Close().SetStatus(Finished)
    }

    /** The event loop delivers the oldest queued `try_step` call, if one is queued. */
    function DeliverQueued(): (r: (State, Outcome))
      ensures queued == 0 ==> r == (this, Returned)
      ensures r.1 != TaskFinished
    {
      if queued == 0 then (this, Returned) else this.(queued := queued - 1).TryStep()
    }

    function Apply(c: Command): (State, Outcome)
    {
      match c
      case StepCmd => Step()
      case RunCmd => Run()
      case PauseCmd => (Pause(), Returned)
      case CancelCmd => (Cancel(), Returned)
      case DeliverCmd => DeliverQueued()
    }

    /** The state after a sequence of commands, whatever each call returned or raised. */
    function Exec(cmds: seq<Command>): State
      decreases |cmds|
    {
      if cmds == [] then this else Apply(cmds[0]).0.Exec(cmds[1..])
    }

    /** The state after `m` calls of `step`. */
    function StepN(m: nat): State
    {
      if m == 0 then this else StepN(m - 1).Step().0
    }
  }

  /** A new stepper: PAUSED (emitted once by `__init__`), generator created but not started. */
  function Initial(work: Work): (st: State)
    ensures st.Valid() && st.status == Paused && st.emitted == [Paused]
    ensures st.phase == NotStarted && st.finalized == 0 && st.queued == 0
  {
    State(work, Paused, NotStarted, 0, [], 0, [Paused], 0)
  }

  /**
   * The stepper object. Its fields are those of `State`; every method
   * changes them as the corresponding function of `State` says.
   */
  class Stepper {
    const work: Work
    var status: Status
    var phase: Phase
    var position: nat
    var segments: seq<nat>
    var finalized: nat
    var emitted: seq<Status>
    var queued: nat

    function Snapshot(): State
      reads this
    {
      State(work, status, phase, position, segments, finalized, emitted, queued)
    }

    constructor (work: Work)
      ensures Snapshot() == Initial(work)
    {
      this.work := work;
      phase, position, segments, finalized := NotStarted, 0, [], 0;
      emitted, queued := [], 0;
      new;
      SetStatus(Paused);
    }

    method SetStatus(s: Status)
      modifies this
      ensures Snapshot() == old(Snapshot()).SetStatus(s)
    {
      status := s;
      emitted := emitted + [s];
    }

    /** The subclass hook run by the generator's `finally`; the model counts its runs. */
    method Finalize()
      modifies this
      ensures Snapshot() == old(Snapshot()).(finalized := old(finalized) + 1)
    {
      finalized := finalized + 1;
    }

    /** `next(self.coroutine)`. */
    method ResumeCoroutine() returns (r: Resumption)
      modifies this
      ensures (Snapshot(), r) == old(Snapshot()).Resume()
    {
      if phase == Exhausted {
        return Stopped;
      }
      var i := position;
      segments := segments + [i];
      if work.raisesIn == Some(i) {
        phase := Exhausted;
        Finalize();
        return Raised;
      }
      if i < work.breakpoints {
        phase, position := Suspended, i + 1;
        return Yielded;
      }
      phase := Exhausted;
      Finalize();
      return Stopped;
    }

    /** `self.coroutine.close()`. */
    method CloseCoroutine()
      modifies this
      ensures Snapshot() == old(Snapshot()).Close()
    {
      if phase == Suspended {
        phase := Exhausted;
        Finalize();
      } else {
        phase := Exhausted;
      }
    }

    method Step() returns (o: Outcome)
      modifies this
      ensures (Snapshot(), o) == old(Snapshot()).Step()
    {
      if status == Finished {
        return TaskFinished;
      }
      var r := ResumeCoroutine();
      if r == Stopped {
        SetStatus(Finished);
      }
      o := if r == Raised then WorkRaised else Returned;
    }

    method Run() returns (o: Outcome)
      modifies this
      ensures (Snapshot(), o) == old(Snapshot()).Run()
    {
      SetStatus(Running);
      o := TryStep();
    }

    method Cancel()
      modifies this
      ensures Snapshot() == old(Snapshot()).Cancel()
    {
      CloseCoroutine();
      SetStatus(Finished);
    }

    method Pause()
      modifies this
      ensures Snapshot() == old(Snapshot()).Pause()
    {
      SetStatus(Paused);
    }

    method TryStep() returns (o: Outcome)
      modifies this
      ensures (Snapshot(), o) == old(Snapshot()).TryStep()
    {
      if status != Running {
        return Returned;
      }
      o := Step();
      if o == Returned {
        queued := queued + 1;
      }
    }

    /** The event loop delivering one queued `try_step` call. */
    method DeliverQueued() returns (o: Outcome)
      modifies this
      ensures (Snapshot(), o) == old(Snapshot()).DeliverQueued()
    {
      if queued == 0 {
        return Returned;
      }
      queued := queued - 1;
      o := TryStep();
    }
  }
}

=== FILE: stepper_buttons.dfy ===
/**
 * The four-button control panel of a stepper. Each button is connected to
 * the stepper slot of the same name, and every `statusChanged` signal
 * re-enables the buttons from the new status alone.
 */
module StepperButtons {
  import opened Wrappers
  import opened Stepper
  import StepperProperties

  /** The enabled flag of each push button. */
  datatype Buttons = Buttons(run: bool, pause: bool, step: bool, cancel: bool)

  datatype Button = RunButton | PauseButton | StepButton | CancelButton

  /** What the operator or the event loop does once the panel is connected. */
  datatype Event = Click(button: Button) | Deliver

  /** The panel as built: Run disabled, the other three enabled. */
  function NewButtons(): Buttons
  {
    Buttons(run := false, pause := true, step := true, cancel := true)
  }

  /** `on_stepper_statusChanged`: each button's flag is a test of the status alone. */
  function OnStatusChanged(status: Status): (b: Buttons)
  {
    Buttons(run := status == Paused, pause := status == Running,
            step := status == Paused, cancel := status != Finished)
  }

  predicate IsEnabled(b: Buttons, button: Button)
  {
    match button
    case RunButton => b.run
    case PauseButton => b.pause
    case StepButton => b.step
    case CancelButton => b.cancel
  }

  /** The stepper slot each button's `clicked` signal is connected to. */
  function Slot(button: Button): (c: Command)
  {
    match button
    case RunButton => RunCmd
    case PauseButton => PauseCmd
    case StepButton => StepCmd
    case CancelButton => CancelCmd
  }

  /** The slot receiving each of the statuses in turn; the last one decides. */
  function Replay(b: Buttons, statuses: seq<Status>): (r: Buttons)
    ensures statuses == [] ==> r == b
    ensures statuses != [] ==> r == OnStatusChanged(statuses[|statuses| - 1])
    decreases |statuses|
  {
    if statuses == [] then b else Replay(OnStatusChanged(statuses[0]), statuses[1..])
  }

  /**
   * A panel and the stepper it controls; `wired` says whether the buttons'
   * `clicked` signals are connected to the stepper's slots.
   */
  datatype Session = Session(buttons: Buttons, stepper: State, wired: bool)

  /**
   * `connectStepper`: listen to `statusChanged`, wire the buttons, and apply
   * the mapping to the stepper's current status at once.
   */
  function ConnectStepper(b: Buttons, st: State): (s: Session)
    ensures s.stepper == st && s.wired
  {
    Session(OnStatusChanged(st.status), st, true)
  }

  /**
   * `disconnectStepper`: the four `clicked` signals lose their slots; the
   * `statusChanged` connection is left in place.
   */
  function DisconnectStepper(s: Session): (r: Session)
    ensures !r.wired && r.stepper == s.stepper && r.buttons == s.buttons
  {
    s.(wired := false)
  }

  /**
   * A click reaches its slot only if the button is enabled; the queued
   * `try_step` calls are delivered by the event loop. Every status the
   * stepper emits meanwhile reaches `on_stepper_statusChanged`.
   */
  function Handle(s: Session, e: Event): (r: Session)
    ensures r.stepper.work == s.stepper.work && r.wired == s.wired
    ensures e.Click? && s.wired && IsEnabled(s.buttons, e.button) ==>
      r.stepper == s.stepper.Apply(Slot(e.button)).0
    ensures e.Click? && !(s.wired && IsEnabled(s.buttons, e.button)) ==> r == s
    ensures e.Deliver? ==> r.stepper == s.stepper.Apply(DeliverCmd).0
    ensures s.stepper.emitted <= r.stepper.emitted
    ensures r.buttons == Replay(s.buttons, r.stepper.emitted[|s.stepper.emitted|..])
  {
    var c := match e
      case Click(button) => if s.wired && IsEnabled(s.buttons, button) then Some(Slot(button)) else None
      case Deliver => Some(DeliverCmd);
    match c
    case None => s
    case Some(cmd) =>
      var next := s.stepper.Apply(cmd).0;
      StepperProperties.ApplyOnlyExtends(s.stepper, cmd);
      Session(Replay(s.buttons, next.emitted[|s.stepper.emitted|..]), next, s.wired)
  }

  function HandleAll(s: Session, events: seq<Event>): (r: Session)
    ensures r.wired == s.wired
    decreases |events|
  {
    if events == [] then s else HandleAll(Handle(s, events[0]), events[1..])
  }

  predicate InSync(s: Session)
  {
    s.buttons == OnStatusChanged(s.stepper.status)
  }

  /** Pause is enabled exactly while RUNNING. */
  lemma PauseEnabledIffRunning(status: Status)
    ensures OnStatusChanged(status).pause <==> status.Code() == 1
  {
  }

  /** Run and Step are enabled exactly while PAUSED; Cancel exactly until FINISHED. */
  lemma RunStepCancelEnabling(status: Status)
    ensures OnStatusChanged(status).run <==> status.Code() == 0
    ensures OnStatusChanged(status).step <==> status.Code() == 0
    ensures OnStatusChanged(status).cancel <==> status.Code() != 2
  {
  }

  /** Run and Pause are never enabled together, and FINISHED disables all four. */
  lemma RunAndPauseExclusive(status: Status)
    ensures !(OnStatusChanged(status).run && OnStatusChanged(status).pause)
    ensures status == Finished <==> forall button: Button :: !IsEnabled(OnStatusChanged(status), button)
  {
    if status != Finished {
      assert IsEnabled(OnStatusChanged(status), CancelButton);
    }
  }

  /** No status enables the panel as it was built: connecting always changes Run or Pause. */
  lemma ConnectAlwaysResyncs(status: Status)
    ensures OnStatusChanged(status) != NewButtons()
  {
  }

  /** Each button is wired to the slot of the same name, and no two buttons to the same slot. */
  lemma SlotsAreDistinct(b1: Button, b2: Button)
    ensures Slot(b1) == Slot(b2) ==> b1 == b2
    ensures Slot(b1) != DeliverCmd
  {
  }

  /**
   * Once connected, whatever is clicked and delivered, the buttons show the
   * stepper's current status.
   */
  lemma {:induction false} ButtonsFollowStatus(b: Buttons, st: State, events: seq<Event>)
    requires st.Valid()
    ensures var s := HandleAll(ConnectStepper(b, st), events);
      InSync(s) && s.stepper.Valid()
  {
    KeepsSync(ConnectStepper(b, st), events);
  }

  lemma {:induction false} KeepsSync(s: Session, events: seq<Event>)
    requires InSync(s) && s.stepper.Valid()
    ensures InSync(HandleAll(s, events)) && HandleAll(s, events).stepper.Valid()
    decreases |events|
  {
    if events != [] {
      HandleKeepsSync(s, events[0]);
      KeepsSync(Handle(s, events[0]), events[1..]);
    }
  }

  lemma HandleKeepsSync(s: Session, e: Event)
    requires InSync(s) && s.stepper.Valid()
    ensures InSync(Handle(s, e)) && Handle(s, e).stepper.Valid()
  {
    var cmd := match e
      case Click(button) => Slot(button)
      case Deliver => DeliverCmd;
    StepperProperties.ApplyKeepsValid(s.stepper, cmd);
    StepperProperties.ApplyOnlyExtends(s.stepper, cmd);
    var next := s.stepper.Apply(cmd).0;
    var later := next.emitted[|s.stepper.emitted|..];
    if later == [] {
      assert next.emitted == s.stepper.emitted;
    } else {
      assert later[|later| - 1] == next.emitted[|next.emitted| - 1];
    }
  }

  /**
   * Through a connected panel, Step is clickable only while PAUSED, so it
   * never meets `Warning('Task finished')`, and a click on a disabled
   * button changes nothing.
   */
  lemma EnabledStepNeverWarns(s: Session, button: Button)
    requires InSync(s)
    ensures IsEnabled(s.buttons, StepButton) ==> s.stepper.Step().1 != TaskFinished
    ensures !IsEnabled(s.buttons, button) ==> Handle(s, Click(button)) == s
  {
  }

  /**
   * After `disconnectStepper` no click reaches the stepper, while queued
   * calls still run and the buttons keep following the status.
   */
  lemma {:induction false} DisconnectedClicksIgnored(s: Session, events: seq<Event>)
    requires InSync(s) && s.stepper.Valid()
    ensures var d := DisconnectStepper(s);
      && (forall button :: Handle(d, Click(button)) == d)
      && InSync(HandleAll(d, events)) && !HandleAll(d, events).wired
      && HandleAll(d, events).stepper == s.stepper.Exec(Delivered(events))
    decreases |events|
  {
    var d := DisconnectStepper(s);
    if events != [] {
      HandleKeepsSync(d, events[0]);
      DisconnectedClicksIgnored(Handle(d, events[0]), events[1..]);
      match events[0]
      case Click(button) =>
        assert Handle(d, events[0]) == d;
        assert Delivered(events) == Delivered(events[1..]);
      case Deliver =>
        assert Delivered(events) == [DeliverCmd] + Delivered(events[1..]);
    }
  }

  /** The deliveries among the events, as stepper commands. */
  function Delivered(events: seq<Event>): seq<Command>
    decreases |events|
  {
    if events == [] then []
    else (if events[0].Deliver? then [DeliverCmd] else []) + Delivered(events[1..])
  }
}

=== FILE: stepper_properties.dfy ===
/**
 * What the stepper guarantees, stated over its specification `Stepper.State`:
 * the invariant is kept by every slot, `finalize()` runs at most once,
 * steps are counted exactly, `cancel`, `pause`, `run` and the queued
 * `try_step` behave as the object's code says, and an exception from
 * `work()` escapes after `finalize()`.
 */
module StepperProperties {
  import opened Wrappers
  import opened Stepper

  /** `work()` yields `breakpoints` times and then returns, never raising. */
  predicate NeverRaises(w: Work)
  {
    w.raisesIn.None? || w.raisesIn.value > w.breakpoints
  }

  /** The state after the event loop delivered `k` queued calls. */
  function DeliverN(st: State, k: nat): State
  {
    if k == 0 then st else DeliverN(st, k - 1).DeliverQueued().0
  }

  lemma StepKeepsValid(st: State)
    requires st.Valid()
    ensures st.Step().0.Valid()
  {
    if st.status != Finished {
      var (r, res) := st.Resume();
      assert r.Valid();
      if res == Stopped {
        assert r.phase == Exhausted;
      }
    }
  }

  lemma TryStepKeepsValid(st: State)
    requires st.Valid()
    ensures st.TryStep().0.Valid()
  {
    StepKeepsValid(st);
  }

  lemma ApplyKeepsValid(st: State, c: Command)
    requires st.Valid()
    ensures st.Apply(c).0.Valid()
  {
    match c
    case StepCmd => StepKeepsValid(st);
    case RunCmd => TryStepKeepsValid(st.SetStatus(Running));
    case PauseCmd =>
    case CancelCmd =>
    case DeliverCmd =>
      if st.queued > 0 { TryStepKeepsValid(st.(queued := st.queued - 1)); }
  }

  /** Every sequence of slot calls keeps the invariant. */
  lemma {:induction false} ExecKeepsValid(st: State, cmds: seq<Command>)
    requires st.Valid()
    ensures st.Exec(cmds).Valid()
    decreases |cmds|
  {
    if cmds != [] {
      ApplyKeepsValid(st, cmds[0]);
      ExecKeepsValid(st.Apply(cmds[0]).0, cmds[1..]);
    }
  }

  /**
   * `finalize()` runs at most once over any sequence of step, run, pause,
   * cancel and queued calls, and it has run exactly when `work()` was
   * entered and the generator has ended.
   */
  lemma FinalizeAtMostOnce(w: Work, cmds: seq<Command>)
    ensures Initial(w).Exec(cmds).finalized <= 1
    ensures var st := Initial(w).Exec(cmds);
      st.finalized == 1 <==> st.phase == Exhausted && st.segments != []
  {
    ExecKeepsValid(Initial(w), cmds);
  }

  /** One slot call only appends to the segments run and to the statuses emitted. */
  lemma ApplyOnlyExtends(st: State, c: Command)
    ensures var r := st.Apply(c).0;
      && st.segments <= r.segments && st.emitted <= r.emitted
      && st.finalized <= r.finalized && r.work == st.work
  {
  }

  /**
   * Progress is never undone: the segments already run stay a prefix of
   * the segments run later, `finalize()` is not un-run, and the emitted
   * statuses are only appended to.
   */
  lemma {:induction false} ExecOnlyExtends(st: State, cmds: seq<Command>)
    ensures var r := st.Exec(cmds);
      && st.segments <= r.segments && st.emitted <= r.emitted
      && st.finalized <= r.finalized && r.work == st.work
    decreases |cmds|
  {
    if cmds != [] {
      ApplyOnlyExtends(st, cmds[0]);
      ExecOnlyExtends(st.Apply(cmds[0]).0, cmds[1..]);
    }
  }

  /** A `step` that reaches a breakpoint advances exactly one, leaving the status alone. */
  lemma StepAdvancesOneBreakpoint(st: State)
    requires st.Valid() && st.status != Finished && st.phase != Exhausted
    requires !st.work.EndsAt(st.position)
    ensures st.Step() == (st.(phase := Suspended, position := st.position + 1,
                              segments := st.segments + [st.position]), Returned)
  {
  }

  /** `step` while FINISHED raises `Warning('Task finished')` and changes nothing. */
  lemma StepWhenFinished(st: State)
    requires st.status == Finished
    ensures st.Step() == (st, TaskFinished)
  {
  }

  /** The first `breakpoints` calls of `step` each advance one breakpoint and keep PAUSED. */
  lemma {:induction false} StepsCountedExactly(w: Work, m: nat)
    requires NeverRaises(w) && m <= w.breakpoints
    ensures Initial(w).StepN(m)
      == Initial(w).(phase := if m == 0 then NotStarted else Suspended,
                     position := m, segments := Range(m))
  {
    if m > 0 {
      StepsCountedExactly(w, m - 1);
    }
  }

  /**
   * The next `step` runs the tail of `work()`, then `finalize()`, and sets
   * FINISHED; every later `step` raises `Warning('Task finished')`.
   */
  lemma LastStepFinishes(w: Work)
    requires NeverRaises(w)
    ensures var st := Initial(w).StepN(w.breakpoints + 1);
      && st.status == Finished && st.finalized == 1
      && st.segments == Range(w.breakpoints + 1)
      && st.emitted == [Paused, Finished]
      && st.Step() == (st, TaskFinished)
  {
    StepsCountedExactly(w, w.breakpoints);
  }

  /**
   * `cancel` always ends FINISHED. It runs `finalize()` only when the
   * generator is suspended at a breakpoint: after the end it adds nothing,
   * and before the first step closing skips the `finally` altogether.
   */
  lemma CancelFinalizesOnlyASuspendedTask(st: State)
    requires st.Valid()
    ensures st.Cancel().Valid()
    ensures st.Cancel().status == Finished
    ensures st.Cancel().finalized == (if st.phase == Suspended then 1 else st.finalized)
    ensures st.phase == NotStarted ==> st.Cancel().finalized == 0
    ensures st.Cancel().segments == st.segments
  {
  }

  /** A second `cancel` changes nothing but emitting FINISHED once more. */
  lemma CancelIsIdempotent(st: State)
    requires st.Valid()
    ensures st.Cancel().Cancel() == st.Cancel().(emitted := st.Cancel().emitted + [Finished])
  {
  }

  /** `try_step` does nothing unless RUNNING. */
  lemma TryStepOnlyWhenRunning(st: State)
    requires st.status != Running
    ensures st.TryStep() == (st, Returned)
  {
  }

  /**
   * While RUNNING, `try_step` is one `step` followed by queuing another
   * `try_step`, unless the step raised.
   */
  lemma TryStepWhenRunning(st: State)
    requires st.status == Running
    ensures st.Step().1 == Returned ==>
      st.TryStep() == (st.Step().0.(queued := st.queued + 1), Returned)
    ensures st.Step().1 != Returned ==> st.TryStep() == st.Step()
  {
  }

  /**
   * A `pause` handled before the queued `try_step` stops the run before
   * the next breakpoint: delivering the queued call steps nothing.
   */
  lemma PauseBeforeQueuedCallStopsRun(st: State)
    requires st.queued > 0
    ensures st.Pause().DeliverQueued() == (st.Pause().(queued := st.queued - 1), Returned)
  {
  }

  /**
   * `run` keeps stepping through queued `try_step` calls: on a fresh
   * stepper, `run` runs segment 0 and each delivery one more segment,
   * still RUNNING, until the delivery that runs the tail of `work()`,
   * which finalizes and sets FINISHED.
   */
  lemma {:induction false} RunStepsOncePerDelivery(w: Work, k: nat)
    requires NeverRaises(w) && k <= w.breakpoints
    ensures var st := DeliverN(Initial(w).Run().0, k);
      && st.queued == 1 && st.segments == Range(k + 1)
      && (k < w.breakpoints ==> st == RunningAt(w, k))
      && (k == w.breakpoints ==>
            st.status == Finished && st.finalized == 1
            && st.emitted == [Paused, Running, Finished])
  {
    if k > 0 {
      RunStepsOncePerDelivery(w, k - 1);
      DeliverWhileRunning(w, k - 1);
    }
  }

  /** Running, suspended after segment k, with one `try_step` queued. */
  function RunningAt(w: Work, k: nat): State
  {
    Initial(w).(status := Running, phase := Suspended, position := k + 1,
                segments := Range(k + 1), emitted := [Paused, Running], queued := 1)
  }

  /** One delivered `try_step` while running runs the next segment, finishing after the last. */
  lemma DeliverWhileRunning(w: Work, k: nat)
    requires NeverRaises(w) && k < w.breakpoints
    ensures var st := RunningAt(w, k).DeliverQueued().0;
      && st.queued == 1 && st.segments == Range(k + 2)
      && (k + 1 < w.breakpoints ==> st == RunningAt(w, k + 1))
      && (k + 1 == w.breakpoints ==>
            st.status == Finished && st.finalized == 1
            && st.emitted == [Paused, Running, Finished])
  {
    var mid := RunningAt(w, k).(queued := 0);
    assert Range(k + 2) == Range(k + 1) + [k + 1];
    if k + 1 < w.breakpoints {
      assert !w.EndsAt(k + 1);
      assert mid.Step() == (mid.(position := k + 2, segments := Range(k + 2)), Returned);
    } else {
      assert mid.Resume() == (mid.(phase := Exhausted, segments := Range(k + 2), finalized := 1), Stopped);
    }
  }

  /** Once FINISHED, a delivered `try_step` does nothing. */
  lemma QueuedCallAfterFinishIsIgnored(st: State)
    requires st.status == Finished && st.queued > 0
    ensures st.DeliverQueued() == (st.(queued := st.queued - 1), Returned)
  {
  }

  /**
   * `pause` followed by `run` resumes at the breakpoint where it stopped:
   * the next segment run is exactly the one after it.
   */
  lemma PauseThenRunResumes(st: State)
    requires st.Valid() && st.phase == Suspended && !st.work.EndsAt(st.position)
    ensures st.Pause().Run().0.segments == st.segments + [st.position]
    ensures st.Pause().Run().0.position == st.position + 1
    ensures st.Pause().Run().0.status == Running
  {
  }

  /**
   * An exception raised inside `work()` leaves through `step` after
   * `finalize()` ran; the status is unchanged and, under `try_step`, no
   * `stepped` is emitted, so nothing more is queued. A later `step` finds
   * the generator exhausted, runs no work and sets FINISHED.
   */
  lemma WorkExceptionEscapesAfterFinalize(st: State)
    requires st.Valid() && st.status != Finished && st.phase != Exhausted
    requires st.work.RaisesAt(st.position)
    ensures st.Step() == (st.(phase := Exhausted, segments := st.segments + [st.position],
                              finalized := 1), WorkRaised)
    ensures st.status == Running ==> st.TryStep() == st.Step()
    ensures var after := st.Step().0;
      after.Step() == (after.SetStatus(Finished), Returned)
  {
  }

  /**
   * `pause` and `run` have no FINISHED guard: `pause` sets PAUSED, and a
   * later `step` or `run` finds the generator exhausted, runs no work and
   * no `finalize()`, and sets FINISHED again.
   */
  lemma PauseAndRunAfterFinish(st: State)
    requires st.Valid() && st.status == Finished
    ensures st.Pause().status == Paused
    ensures st.Pause().Step() == (st.Pause().SetStatus(Finished), Returned)
    ensures st.Run() == (st.SetStatus(Running).SetStatus(Finished).(queued := st.queued + 1), Returned)
  {
  }

  /**
   * A task with three breakpoints: `run`, one delivered `try_step`,
   * `pause`, and the pending `try_step` delivered. Two segments ran, the
   * statuses emitted were RUNNING then PAUSED; a `step` reaches the third
   * breakpoint and one more `step` finishes.
   */
  lemma ThreeBreakpointScenario()
    ensures var st := Initial(Work(3, None)).Exec([RunCmd, DeliverCmd, PauseCmd, DeliverCmd]);
      && st.emitted == [Paused, Running, Paused] && st.segments == [0, 1] && st.queued == 0
      && st.Step().0.position == 3 && st.Step().0.status == Paused
      && st.Step().0.Step().0.status == Finished && st.Step().0.Step().0.finalized == 1
  {
  }
}

=== FILE: test_driver.dfy ===
/**
 * A trial driver for the HP 8112A settings string. A metaclass turns each
 * entry of the `settings` table into a feature, and `read_settings` splits
 * a settings reply into `<COMMAND><value>` pieces and fills the cache of
 * the feature each known command belongs to.
 */
module TestDriver {
  import opened Wrappers
  import opened Text

  /** The length of the run of capitals that starts the text. */
  function CapitalRun(s: string): (m: nat)
    ensures m <= |s|
    ensures forall k :: 0 <= k < m ==> IsUpper(s[k])
    ensures m == |s| || !IsUpper(s[m])
  {
    if |s| > 0 && IsUpper(s[0]) then 1 + CapitalRun(s[1..]) else 0
  }

  /**
   * `command_re.match(part).groups()` for `([A-Z]+ ?)([^A-Z].*)`: the
   * command is the leading run of capitals, with the space after it when
   * a non-capital follows that space; the value is the rest of the line,
   * which starts with a non-capital. `None` when there is no match.
   */
  function CommandMatch(part: string): (r: Option<(string, string)>)
    ensures r.None? <==> CapitalRun(part) == 0 || CapitalRun(part) == |part|
    ensures r.Some? ==> var (command, value) := r.value; var m := CapitalRun(part);
      && |command| >= 1 && |value| >= 1 && command + value <= part
      && (|command| == m + 1 <==> (part[m] == ' ' && m + 1 < |part| && !IsUpper(part[m + 1])))
      && (|command| == m || |command| == m + 1)
      && value == part[|command|..LineEnd(part, |command| + 1)]
      && !IsUpper(value[0]) && '\n' !in value[1..]
  {
    var m := CapitalRun(part);
    if m == 0 || m == |part| then None
    else
      var c := if part[m] == ' ' && m + 1 < |part| && !IsUpper(part[m + 1]) then m + 1 else m;
      var e := LineEnd(part, c + 1);
      assert part[..c] + part[c..e] == part[..e];
      Some((part[..c], part[c..e]))
  }

  /**
   * A piece made of a run of capitals, an optional space and a one-line
   * value that starts with a non-capital splits back into command and
   * value, unless the space belongs to the value yet the pattern's ` ?`
   * would take it into the command.
   */
  lemma CommandMatchRoundTrip(caps: string, space: bool, value: string)
    requires |caps| >= 1 && forall k :: 0 <= k < |caps| ==> IsUpper(caps[k])
    requires |value| >= 1 && !IsUpper(value[0]) && '\n' !in value
    requires !space ==> !(value[0] == ' ' && |value| > 1 && !IsUpper(value[1]))
    ensures var command := caps + (if space then " " else "");
      CommandMatch(command + value) == Some((command, value))
  {
    var command := caps + (if space then " " else "");
    var part := command + value;
    var m := |caps|;
    assert forall k :: 0 <= k < m ==> part[k] == caps[k];
    assert part[m] == if space then ' ' else value[0];
    CapitalRunIs(part, m);
    var c := if part[m] == ' ' && m + 1 < |part| && !IsUpper(part[m + 1]) then m + 1 else m;
    if space {
      assert part[m + 1] == value[0];
    } else if part[m] == ' ' && m + 1 < |part| {
      assert part[m + 1] == value[1];
    }
    assert c == |command|;
    forall k | |command| <= k < |part| ensures part[k] != '\n' {
      assert part[k] == value[k - |command|];
    }
    LineEndAtEnd(part, c + 1);
    assert part[..c] == command && part[c..|part|] == value;
    assert m != 0 && m != |part|;
  }

  /** The text of the pieces, each followed by its comma. */
  function Terminated(ps: seq<string>): string
  {
    if ps == [] then "" else ps[0] + "," + Terminated(ps[1..])
  }

  /**
   * The pieces of a settings reply, `recv.split(',')[:-1]`: comma-free
   * pieces which, each followed by its comma, make up the reply up to its
   * last comma.
   */
  function Parts(recv: string): (ps: seq<string>)
    ensures |ps| == |Split(recv, ',')| - 1
    ensures forall i :: 0 <= i < |ps| ==> ',' !in ps[i]
    ensures Terminated(ps) <= recv && ',' !in recv[|Terminated(ps)|..]
  {
    var pieces := Split(recv, ',');
    JoinSplit(recv, ',');
    JoinIsTerminated(pieces);
    pieces[..|pieces| - 1]
  }

  lemma {:induction false} JoinIsTerminated(pieces: seq<string>)
    requires |pieces| >= 1
    ensures Join(pieces, ',') == Terminated(pieces[..|pieces| - 1]) + pieces[|pieces| - 1]
  {
    if |pieces| > 1 {
      JoinIsTerminated(pieces[1..]);
      assert pieces[..|pieces| - 1][1..] == pieces[1..][..|pieces[1..]| - 1];
    }
  }

  /** A feature as the metaclass builds it; `command` is what its setter and getter closures read. */
  datatype Feat = Feat(name: string, command: string, values: Option<seq<(string, string)>>, unitProcessor: bool)

  /**
   * An entry of the `settings` table: `values` lists name and code pairs
   * in the order of the dictionary; `feat` is filled in by the metaclass.
   */
  datatype Attrs = Attrs(name: string, values: Option<seq<(string, string)>>, limits: Option<(string, string)>,
                         feat: Option<Feat>)

  /** The name listed last with the given code: the inverse dictionary keeps the last one. */
  function NameOf(vs: seq<(string, string)>, code: string): (r: Option<string>)
    ensures r.None? <==> forall i :: 0 <= i < |vs| ==> vs[i].1 != code
    ensures r.Some? ==> exists i :: 0 <= i < |vs| && vs[i] == (r.value, code)
  {
    if vs == [] then None
    else if vs[|vs| - 1].1 == code then Some(vs[|vs| - 1].0)
    else
      assert forall i :: 0 <= i < |vs| - 1 ==> vs[..|vs| - 1][i] == vs[i];
      NameOf(vs[..|vs| - 1], code)
  }

  /**
   * `feat.post_get(value)`: a feature with `values` turns the instrument's
   * code back into the value's name (an unknown code is refused); one with
   * limits passes the text through its unit processor, which lowercases it
   * and restores a capital V; any other feature keeps the text.
   */
  function PostGet(f: Feat, raw: string): (r: Result<string>)
    ensures f.values.Some? && !f.unitProcessor ==>
      (r.Ok? <==> exists i :: 0 <= i < |f.values.value| && f.values.value[i].1 == raw)
    ensures f.values.Some? && !f.unitProcessor && r.Ok? ==>
      exists i :: 0 <= i < |f.values.value| && f.values.value[i] == (r.value, raw)
    ensures f.values.None? ==> r.Ok?
    ensures f.values.None? && f.unitProcessor ==> r.value == ReplaceChar(Lower(raw), 'v', 'V')
    ensures f.values.None? && !f.unitProcessor ==> r.value == raw
  {
    var text := if f.unitProcessor then ReplaceChar(Lower(raw), 'v', 'V') else raw;
    match f.values
    case None => Ok(text)
    case Some(vs) =>
      match NameOf(vs, text)
      case Some(n) => Ok(n)
      case None => Err(ValueError)
  }

  /**
   * `read_settings` over the remaining pieces: each piece must match the
   * command pattern; a command without a `settings` entry is skipped; a
   * known one sets the cache of that entry's feature. The first failure
   * stops the loop, and the caches set before it stay set.
   */
  function ReadFrom(settings: map<string, Attrs>, cache: map<string, string>, parts: seq<string>)
    : (r: (map<string, string>, Option<PyError>))
    decreases |parts|
  {
    if parts == [] then (cache, None)
    else match CommandMatch(parts[0])
      case None => (cache, Some(AttributeError))
      case Some((command, value)) =>
        // An entry without a feature is skipped: the metaclass gives every
        // entry one, so `attrs['feat']` never raises KeyError in the driver.
        if command !in settings || settings[command].feat.None? then ReadFrom(settings, cache, parts[1..])
        else
          var f := settings[command].feat.value;
          match PostGet(f, value)
          case Err(e) => (cache, Some(e))
          case Ok(v) => ReadFrom(settings, cache[f.name := v], parts[1..])
  }

  /** The piece matches and, when its command is known, its feature accepts the value. */
  predicate Accepted(settings: map<string, Attrs>, part: string)
  {
    CommandMatch(part).Some? && !PostGetFails(settings, part)
  }

  /** The piece's command belongs to a feature exposed under `name`. */
  predicate Selects(settings: map<string, Attrs>, part: string, name: string)
  {
    match CommandMatch(part)
    case None => false
    case Some((command, _)) =>
      command in settings && settings[command].feat.Some? && settings[command].feat.value.name == name
  }

  /** The value the piece gives its feature's cache, once through `post_get`. */
  function Decoded(settings: map<string, Attrs>, part: string): Option<string>
  {
    match CommandMatch(part)
    case None => None
    case Some((command, value)) =>
      if command in settings && settings[command].feat.Some? then
        match PostGet(settings[command].feat.value, value)
        case Ok(v) => Some(v)
        case Err(_) => None
      else None
  }

  /** A reading completes exactly when every piece matches and every known command's value is accepted. */
  lemma {:induction false} ReadFromSucceeds(settings: map<string, Attrs>, cache: map<string, string>, parts: seq<string>)
    ensures ReadFrom(settings, cache, parts).1.None? <==> forall j :: 0 <= j < |parts| ==> Accepted(settings, parts[j])
    decreases |parts|
  {
    if parts != [] {
      assert forall j :: 0 <= j < |parts| - 1 ==> parts[1..][j] == parts[j + 1];
      match CommandMatch(parts[0])
      case None =>
        assert !Accepted(settings, parts[0]);
      case Some((command, value)) =>
        if command !in settings || settings[command].feat.None? {
          assert Accepted(settings, parts[0]);
          ReadFromSucceeds(settings, cache, parts[1..]);
        } else {
          var f := settings[command].feat.value;
          match PostGet(f, value)
          case Err(_) =>
            assert !Accepted(settings, parts[0]);
          case Ok(v) =>
            assert Accepted(settings, parts[0]);
            ReadFromSucceeds(settings, cache[f.name := v], parts[1..]);
        }
    }
  }

  /**
   * After a complete reading, the cache of the feature exposed under `name`
   * holds the decoded value of the last piece whose command selects it.
   */
  lemma {:induction false} ReadFromCaches(settings: map<string, Attrs>, cache: map<string, string>,
                                          parts: seq<string>, name: string, j: nat)
    requires j < |parts| && Selects(settings, parts[j], name)
    requires forall k :: j < k < |parts| ==> !Selects(settings, parts[k], name)
    ensures ReadFrom(settings, cache, parts).1.None? ==>
      name in ReadFrom(settings, cache, parts).0
      && Decoded(settings, parts[j]) == Some(ReadFrom(settings, cache, parts).0[name])
    decreases |parts|
  {
    var rest := parts[1..];
    match CommandMatch(parts[0])
    case None =>
    case Some((command, value)) =>
      if command !in settings || settings[command].feat.None? {
        assert j > 0;
        ReadFromCaches(settings, cache, rest, name, j - 1);
      } else {
        var f := settings[command].feat.value;
        match PostGet(f, value)
        case Err(_) =>
        case Ok(v) =>
          var c2 := cache[f.name := v];
          if j > 0 {
            ReadFromCaches(settings, c2, rest, name, j - 1);
          } else {
            assert forall k :: 0 <= k < |rest| ==> !Selects(settings, rest[k], name) by {
              forall k | 0 <= k < |rest| ensures !Selects(settings, rest[k], name) {
                assert rest[k] == parts[k + 1];
              }
            }
            ReadFromKeeps(settings, c2, rest, name);
            assert Decoded(settings, parts[0]) == Some(v);
          }
      }
  }

  /**
   * After a complete reading, a name that no piece selects keeps its cache
   * entry: pieces with unknown commands, or for other features, leave it alone.
   */
  lemma {:induction false} ReadFromKeeps(settings: map<string, Attrs>, cache: map<string, string>,
                                         parts: seq<string>, name: string)
    requires forall j :: 0 <= j < |parts| ==> !Selects(settings, parts[j], name)
    ensures ReadFrom(settings, cache, parts).1.None? ==>
      var r := ReadFrom(settings, cache, parts).0;
      (name in r <==> name in cache) && (name in r ==> r[name] == cache[name])
    decreases |parts|
  {
    if parts != [] {
      var rest := parts[1..];
      assert !Selects(settings, parts[0], name);
      assert forall j :: 0 <= j < |rest| ==> !Selects(settings, rest[j], name) by {
        forall j | 0 <= j < |rest| ensures !Selects(settings, rest[j], name) {
          assert rest[j] == parts[j + 1];
        }
      }
      match CommandMatch(parts[0])
      case None =>
      case Some((command, value)) =>
        if command !in settings || settings[command].feat.None? {
          ReadFromKeeps(settings, cache, rest, name);
        } else {
          var f := settings[command].feat.value;
          match PostGet(f, value)
          case Err(_) =>
          case Ok(v) =>
            ReadFromKeeps(settings, cache[f.name := v], rest, name);
        }
    }
  }

  /**
   * The metaclass loop: one feature per `settings` entry, each exposed
   * under the entry's `name` and stored back in the entry. Each feature
   * here carries its own command; see `RegisterFeatsAsWritten` for the command
   * the closures of the loop as written read.
   */
  method RegisterFeats(entries: seq<(string, Attrs)>) returns (feats: map<string, Feat>, updated: seq<(string, Attrs)>)
    ensures |updated| == |entries|
    ensures forall i :: 0 <= i < |entries| ==>
      updated[i] == (entries[i].0, entries[i].1.(feat := Some(FeatFor(entries[i].0, entries[i].1))))
    ensures forall n :: n in feats <==> exists i :: 0 <= i < |entries| && entries[i].1.name == n
    ensures forall i :: 0 <= i < |entries| && LastWithName(entries, i) ==>
      feats[entries[i].1.name] == FeatFor(entries[i].0, entries[i].1)
  {
    feats := map[];
    updated := [];
    var i := 0;
    while i < |entries|
      invariant 0 <= i <= |entries|
      invariant |updated| == i
      invariant forall j :: 0 <= j < i ==>
        updated[j] == (entries[j].0, entries[j].1.(feat := Some(FeatFor(entries[j].0, entries[j].1))))
      invariant forall n :: n in feats <==> exists j :: 0 <= j < i && entries[j].1.name == n
      invariant forall j :: 0 <= j < i && LastWithNameBefore(entries, j, i) ==>
        feats[entries[j].1.name] == FeatFor(entries[j].0, entries[j].1)
    {
      var (command, attrs) := entries[i];
      var feat := FeatFor(command, attrs);
      feats := feats[attrs.name := feat];
      updated := updated + [(command, attrs.(feat := Some(feat)))];
      i := i + 1;
    }
  }

  /** The feature built for one entry: processors exactly when the entry has limits. */
  function FeatFor(command: string, attrs: Attrs): (f: Feat)
    ensures f.name == attrs.name && f.command == command && f.values == attrs.values
    ensures f.unitProcessor <==> attrs.limits.Some?
  {
    Feat(attrs.name, command, attrs.values, attrs.limits.Some?)
  }

  /** No entry after the i-th and before `upTo` has the same name. */
  predicate LastWithNameBefore(entries: seq<(string, Attrs)>, i: nat, upTo: nat)
    requires i < upTo <= |entries|
  {
    forall j :: i < j < upTo ==> entries[j].1.name != entries[i].1.name
  }

  predicate LastWithName(entries: seq<(string, Attrs)>, i: nat)
    requires i < |entries|
  {
    LastWithNameBefore(entries, i, |entries|)
  }

  /**
   * The message the setter of a feature logs for a value: `Mando "<cmd>"`
   * with the command and the value's text.
   */
  function SetterLog(f: Feat, value: string): (msg: string)
    ensures |msg| == 8 + |f.command| + |value|
    ensures msg[..7] == "Mando \"" && msg[|msg| - 1] == '"'
    ensures msg[7..|msg| - 1] == f.command + value
  {
    "Mando \"" + f.command + value + "\""
  }

  /** The message the getter logs, `Quiero "<command>"`; the getter itself returns 33. */
  function GetterLog(f: Feat): (msg: string)
    ensures |msg| == 9 + |f.command|
    ensures msg[..8] == "Quiero \"" && msg[8..|msg| - 1] == f.command
  {
    "Quiero \"" + f.command + "\""
  }

  /**
   * The loop variable `command` of `__new__`: one cell of the enclosing
   * scope, which every `setter` and `getter` closure reads when it runs.
   */
  class Scope {
    var command: string

    constructor ()
      ensures command == ""
    {
      command := "";
    }
  }

  /** A feature as written: its closures look the command up in the shared scope. */
  datatype ClosureFeat = ClosureFeat(scope: Scope, name: string, values: Option<seq<(string, string)>>,
                                     unitProcessor: bool)
  {
    /** The feature as its closures see it once the scope holds its current command. */
    function Resolve(): (f: Feat)
      reads scope
      ensures f.name == name && f.command == scope.command
    {
      Feat(name, scope.command, values, unitProcessor)
    }
  }

  /**
   * `MetaTest.__new__` as written: each pass of the loop assigns the entry's
   * key to the one shared `command` and builds a feature whose closures
   * read it. After the loop every feature resolves to the last key, so each
   * logs the last entry's command with its own name and values.
   */
  method RegisterFeatsAsWritten(entries: seq<(string, Attrs)>) returns (scope: Scope, feats: seq<ClosureFeat>)
    ensures fresh(scope)
    ensures |feats| == |entries|
    ensures forall i :: 0 <= i < |feats| ==> feats[i].scope == scope
    ensures |entries| > 0 ==> forall i :: 0 <= i < |entries| ==>
      feats[i].Resolve() == FeatFor(entries[|entries| - 1].0, entries[i].1)
  {
    scope := new Scope();
    feats := [];
    var i := 0;
    while i < |entries|
      invariant 0 <= i <= |entries| && |feats| == i
      invariant forall j :: 0 <= j < i ==>
        feats[j] == ClosureFeat(scope, entries[j].1.name, entries[j].1.values, entries[j].1.limits.Some?)
      invariant i > 0 ==> scope.command == entries[i - 1].0
    {
      scope.command := entries[i].0;
      feats := feats + [ClosureFeat(scope, entries[i].1.name, entries[i].1.values, entries[i].1.limits.Some?)];
      i := i + 1;
    }
  }

  /**
   * With two or more distinct commands, the setter as written of every
   * feature but the last, which `RegisterFeatsAsWritten` resolves to the
   * last key, logs another feature's command, whereas the feature built by
   * `RegisterFeats` logs its own.
   */
  lemma LateBindingLogsWrongCommand(entries: seq<(string, Attrs)>, i: nat, value: string)
    requires i < |entries| && entries[i].0 != entries[|entries| - 1].0
    ensures SetterLog(FeatFor(entries[i].0, entries[i].1), value)[7..] == entries[i].0 + value + "\""
    ensures SetterLog(FeatFor(entries[|entries| - 1].0, entries[i].1), value)
         != SetterLog(FeatFor(entries[i].0, entries[i].1), value)
  {
    var right := SetterLog(FeatFor(entries[i].0, entries[i].1), value);
    var wrong := SetterLog(FeatFor(entries[|entries| - 1].0, entries[i].1), value);
    if wrong == right {
      assert wrong[7..|wrong| - 1] == right[7..|right| - 1];
      CommandFromLog(entries[|entries| - 1].0, entries[i].0, value);
    }
  }

  lemma CommandFromLog(a: string, b: string, value: string)
    requires a + value == b + value
    ensures a == b
  {
    assert |a| == |b|;
    assert (a + value)[..|a|] == a && (b + value)[..|b|] == b;
  }

  /** The driver's `settings` table: `M` with its five codes, `PER ` with its limits. */
  function TestSettings(): seq<(string, Attrs)>
  {
    [("M", Attrs("trigger_mode",
                 Some([("normal", "1"), ("trigger", "2"), ("gate", "3"), ("ewid", "4"), ("ebur", "5")]),
                 None, None)),
     ("PER ", Attrs("period", None, Some(("ns", "ms")), None))]
  }

  /** The trial driver: its settings table, with features, and the features' caches. */
  class TestDriv {
    const settings: map<string, Attrs>
    var cache: map<string, string>

    constructor (settings: map<string, Attrs>)
      ensures this.settings == settings && cache == map[]
    {
      this.settings := settings;
      cache := map[];
    }

    /** `read_settings`: the loop over the pieces of the reply. */
    method ReadSettings(recv: string) returns (err: Option<PyError>)
      modifies this
      ensures (cache, err) == ReadFrom(settings, old(cache), Parts(recv))
    {
      var parts := Parts(recv);
      var i := 0;
      while i < |parts|
        invariant 0 <= i <= |parts|
        invariant ReadFrom(settings, old(cache), parts) == ReadFrom(settings, cache, parts[i..])
      {
        assert parts[i..][1..] == parts[i + 1..];
        var m := CommandMatch(parts[i]);
        if m.None? {
          return Some(AttributeError);
        }
        var (command, value) := m.value;
        if command in settings && settings[command].feat.Some? {
          var f := settings[command].feat.value;
          var v := PostGet(f, value);
          if v.Err? {
            return Some(v.error);
          }
          cache := cache[f.name := v.value];
        }
        i := i + 1;
      }
      err := None;
    }
  }

  /** The cache of a name that no feature of the table carries keeps its entry, whatever the reply. */
  lemma {:induction false} OnlyNamedFeaturesChange(settings: map<string, Attrs>, cache: map<string, string>,
                                                   parts: seq<string>, name: string)
    requires forall c :: c in settings && settings[c].feat.Some? ==> settings[c].feat.value.name != name
    ensures var r := ReadFrom(settings, cache, parts).0;
      (name in r <==> name in cache) && (name in r ==> r[name] == cache[name])
    decreases |parts|
  {
    if parts != [] {
      match CommandMatch(parts[0])
      case None =>
      case Some((command, value)) =>
        if command in settings && settings[command].feat.Some? {
          var f := settings[command].feat.value;
          match PostGet(f, value)
          case Err(_) =>
          case Ok(v) => OnlyNamedFeaturesChange(settings, cache[f.name := v], parts[1..], name);
        } else {
          OnlyNamedFeaturesChange(settings, cache, parts[1..], name);
        }
    }
  }

  /** A piece that does not match stops the reading with AttributeError, keeping what was read before it. */
  lemma {:induction false} UnmatchedPieceStops(settings: map<string, Attrs>, cache: map<string, string>,
                                               parts: seq<string>, i: nat)
    requires i < |parts| && CommandMatch(parts[i]).None?
    requires forall j :: 0 <= j < i ==> CommandMatch(parts[j]).Some?
    ensures ReadFrom(settings, cache, parts).1.Some?
    ensures ReadFrom(settings, cache, parts).1 == Some(AttributeError) || exists j :: 0 <= j < i && PostGetFails(settings, parts[j])
    decreases i
  {
    if i > 0 {
      var rest := parts[1..];
      assert forall j :: 0 <= j < |rest| ==> rest[j] == parts[j + 1];
      var (command, value) := CommandMatch(parts[0]).value;
      if command in settings && settings[command].feat.Some? {
        var f := settings[command].feat.value;
        var v := PostGet(f, value);
        if v.Err? {
          assert PostGetFails(settings, parts[0]);
        } else {
          UnmatchedPieceStops(settings, cache[f.name := v.value], rest, i - 1);
          EarlierFailureShifts(settings, parts, i);
        }
      } else {
        UnmatchedPieceStops(settings, cache, rest, i - 1);
        EarlierFailureShifts(settings, parts, i);
      }
    }
  }

  lemma EarlierFailureShifts(settings: map<string, Attrs>, parts: seq<string>, i: nat)
    requires 0 < i <= |parts|
    ensures (exists j :: 0 <= j < i - 1 && PostGetFails(settings, parts[1..][j])) ==>
      exists j :: 0 <= j < i && PostGetFails(settings, parts[j])
  {
    if exists j :: 0 <= j < i - 1 && PostGetFails(settings, parts[1..][j]) {
      var j :| 0 <= j < i - 1 && PostGetFails(settings, parts[1..][j]);
      assert parts[1..][j] == parts[j + 1];
    }
  }

  /** The piece's command is known and its value is refused by the feature. */
  predicate PostGetFails(settings: map<string, Attrs>, part: string)
  {
    match CommandMatch(part)
    case None => false
    case Some((command, value)) =>
      command in settings && settings[command].feat.Some? && PostGet(settings[command].feat.value, value).Err?
  }

  lemma {:induction false} CapitalRunIs(s: string, m: nat)
    requires m <= |s| && (forall k :: 0 <= k < m ==> IsUpper(s[k])) && (m == |s| || !IsUpper(s[m]))
    ensures CapitalRun(s) == m
  {
    if m > 0 {
      CapitalRunIs(s[1..], m - 1);
    } else if |s| > 0 {
      assert !IsUpper(s[0]);
    }
  }

  lemma {:induction false} LineEndAtEnd(s: string, j: nat)
    requires j <= |s| && forall k :: j <= k < |s| ==> s[k] != '\n'
    ensures LineEnd(s, j) == |s|
    decreases |s| - j
  {
    if j < |s| { LineEndAtEnd(s, j + 1); }
  }

  /** Pieces of the sample settings string split as the driver expects; a run of capitals alone does not match. */
  lemma SamplePieces(per: string, m1: string, ct0: string, caps: string)
    requires per == "PER 1.00 MS" && m1 == "M1" && ct0 == "CT0" && caps == "PER"
    ensures CommandMatch(per) == Some(("PER ", "1.00 MS"))
    ensures CommandMatch(m1) == Some(("M", "1"))
    ensures CommandMatch(ct0) == Some(("CT", "0"))
    ensures CommandMatch(caps).None?
  {
    CapitalRunIs(per, 3);
    LineEndAtEnd(per, 5);
    assert per[3] == ' ' && !IsUpper(per[4]);
    assert per[..4] == "PER " && per[4..|per|] == "1.00 MS";
    CapitalRunIs(m1, 1);
    LineEndAtEnd(m1, 2);
    assert m1[1] != ' ';
    assert m1[..1] == "M" && m1[1..|m1|] == "1";
    CapitalRunIs(ct0, 2);
    LineEndAtEnd(ct0, 3);
    assert ct0[2] != ' ';
    assert ct0[..2] == "CT" && ct0[2..|ct0|] == "0";
    CapitalRunIs(caps, 3);
  }
}

=== FILE: text.dfy ===
/**
 * The few Python string builtins the drivers rely on, over ASCII text:
 * `str(n)`, `int(s)`, `'{:03d}'`, `s.split(c)`, `s.strip()`, `s.lower()`,
 * `s.replace(a, b)` and slicing, plus the character classes `\d`, `\w`
 * and `[A-Z]` of Python regular expressions.
 */
module Text {
  import opened Wrappers

  predicate IsDigit(c: char) { '0' <= c <= '9' }

  predicate IsUpper(c: char) { 'A' <= c <= 'Z' }

  predicate IsLower(c: char) { 'a' <= c <= 'z' }

  /** `\w` restricted to ASCII. */
  predicate IsWordChar(c: char) { IsDigit(c) || IsUpper(c) || IsLower(c) || c == '_' }

  /** What `str.isspace` accepts among the ASCII characters. */
  predicate IsSpace(c: char) {
    c == ' ' || c == '\t' || c == '\n' || c == '\r' || c == '\U{0B}' || c == '\U{0C}'
    || ('\U{1C}' <= c <= '\U{1F}')
  }

  predicate AllDigits(s: string) { forall i :: 0 <= i < |s| ==> IsDigit(s[i]) }

  function DigitChar(d: nat): (c: char)
    requires d < 10
    ensures IsDigit(c)
  {
    ['0', '1', '2', '3', '4', '5', '6', '7', '8', '9'][d]
  }

  function DigitValue(c: char): (d: nat)
    requires IsDigit(c)
    ensures d < 10 && DigitChar(d) == c
  {
    (c as int - '0' as int) as nat
  }

  /** A digit's character reads back as that digit. */
  lemma DigitRoundTrip(d: nat)
    requires d < 10
    ensures DigitValue(DigitChar(d)) == d
  {
  }

  /** The value of a string of decimal digits, most significant first. */
  function DigitsValue(s: string): nat
    requires AllDigits(s)
  {
    if |s| == 0 then 0 else DigitsValue(s[..|s| - 1]) * 10 + DigitValue(s[|s| - 1])
  }

  /** `str(n)` for a non-negative integer. */
  function NatToString(n: nat): (s: string)
    ensures |s| >= 1 && AllDigits(s)
    ensures (s[0] == '0') == (n == 0)
  {
    if n < 10 then [DigitChar(n)] else NatToString(n / 10) + [DigitChar(n % 10)]
  }

  /** `str(i)` and `'{:d}'.format(i)` for any integer. */
  function IntToString(i: int): string
  {
    if i < 0 then "-" + NatToString(-i) else NatToString(i)
  }

  lemma {:induction false} NatToStringValue(n: nat)
    ensures DigitsValue(NatToString(n)) == n
  {
    if n >= 10 {
      var s := NatToString(n);
      assert s[..|s| - 1] == NatToString(n / 10);
      NatToStringValue(n / 10);
    }
  }

  /** A digit string without a superfluous leading zero is `str` of its value. */
  lemma {:induction false} DigitsValueToString(s: string)
    requires AllDigits(s) && |s| >= 1 && (s[0] == '0' ==> |s| == 1)
    ensures NatToString(DigitsValue(s)) == s
  {
    if |s| > 1 {
      var p := s[..|s| - 1];
      DigitsValueToString(p);
      DigitsValuePositive(p);
      assert s == p + [s[|s| - 1]];
    }
  }

  lemma {:induction false} DigitsValuePositive(s: string)
    requires AllDigits(s) && |s| >= 1 && s[0] != '0'
    ensures DigitsValue(s) >= 1
  {
    if |s| > 1 { DigitsValuePositive(s[..|s| - 1]); }
  }

  /** Three digits are worth at most 999. */
  lemma DigitsValueBound3(s: string)
    requires AllDigits(s) && |s| == 3
    ensures DigitsValue(s) <= 999
  {
    var a, b := s[..1], s[..2];
    assert a[..0] == [] && b[..1] == a && s[..3] == s;
    assert DigitsValue(a) <= 9;
    assert DigitsValue(b) <= 99;
  }

  /** `'{:03d}'.format(n)`: at least three digits, padded with zeros on the left. */
  function ZeroPad3(n: nat): (s: string)
  {
    var t := NatToString(n);
    if |t| >= 3 then t else seq(3 - |t|, _ => '0') + t
  }

  lemma ZeroPad3Shape(n: nat)
    ensures AllDigits(ZeroPad3(n)) && DigitsValue(ZeroPad3(n)) == n
    ensures |ZeroPad3(n)| == (if n < 1000 then 3 else |NatToString(n)|)
  {
    var t := NatToString(n);
    NatToStringValue(n);
    if |t| < 3 {
      var z := seq(3 - |t|, _ => '0');
      LeadingZeros(z, t);
    }
    NatToStringLength(n);
  }

  lemma {:induction false} LeadingZeros(z: string, t: string)
    requires forall i :: 0 <= i < |z| ==> z[i] == '0'
    requires AllDigits(t)
    ensures AllDigits(z + t) && DigitsValue(z + t) == DigitsValue(t)
  {
    if |t| == 0 {
      assert z + t == z;
      ZerosValue(z);
    } else {
      var p := t[..|t| - 1];
      assert (z + t)[..|z + t| - 1] == z + p;
      LeadingZeros(z, p);
    }
  }

  lemma {:induction false} ZerosValue(z: string)
    requires forall i :: 0 <= i < |z| ==> z[i] == '0'
    ensures AllDigits(z) && DigitsValue(z) == 0
  {
    if |z| > 0 { ZerosValue(z[..|z| - 1]); }
  }

  /** `str(n)` has fewer than three characters exactly when n < 100, three exactly when n < 1000. */
  lemma {:induction false} NatToStringLength(n: nat)
    ensures |NatToString(n)| <= 2 <==> n < 100
    ensures |NatToString(n)| <= 3 <==> n < 1000
    ensures n < 10 <==> |NatToString(n)| == 1
  {
    if n >= 10 { NatToStringLength(n / 10); }
  }

  /** Python `s.strip()` with the ASCII whitespace set. */
  function Strip(s: string): (r: string)
    ensures |r| <= |s|
    ensures |r| > 0 ==> !IsSpace(r[0]) && !IsSpace(r[|r| - 1])
  {
    StripRight(StripLeft(s))
  }

  function StripLeft(s: string): (r: string)
    ensures |r| <= |s| && (|r| > 0 ==> !IsSpace(r[0]))
    ensures r == s[|s| - |r|..]
  {
    if |s| > 0 && IsSpace(s[0]) then StripLeft(s[1..]) else s
  }

  function StripRight(s: string): (r: string)
    ensures |r| <= |s| && (|r| > 0 ==> !IsSpace(r[|r| - 1]))
    ensures r == s[..|r|]
  {
    if |s| > 0 && IsSpace(s[|s| - 1]) then StripRight(s[..|s| - 1]) else s
  }

  /**
   * Python `int(s)` for ASCII text: surrounding whitespace, an optional
   * sign and at least one decimal digit; anything else is a ValueError.
   */
  function PyInt(s: string): (r: Result<int>)
  {
    var t := Strip(s);
    if |t| >= 2 && (t[0] == '+' || t[0] == '-') && AllDigits(t[1..]) then
      var v: int := DigitsValue(t[1..]);
      Ok(if t[0] == '-' then -v else v)
    else if |t| >= 1 && AllDigits(t) then Ok(DigitsValue(t))
    else Err(ValueError)
  }

  lemma PyIntOfNatToString(n: nat)
    ensures PyInt(NatToString(n)) == Ok(n)
  {
    var s := NatToString(n);
    assert !IsSpace(s[0]) && !IsSpace(s[|s| - 1]);
    assert StripLeft(s) == s;
    assert StripRight(s) == s;
    NatToStringValue(n);
  }

  /** `int(str(i))` is i, for every integer, and `str(i)` has no surrounding whitespace. */
  lemma PyIntOfIntToString(i: int)
    ensures Strip(IntToString(i)) == IntToString(i)
    ensures PyInt(IntToString(i)) == Ok(i)
  {
    var s := IntToString(i);
    if i < 0 {
      var n: nat := -i;
      assert s == "-" + NatToString(n);
      PyIntOfNegative(n);
      assert PyInt(s) == Ok(-(n as int));
    } else {
      assert s == NatToString(i);
      PyIntOfNatToString(i);
      StripUnpadded(s);
    }
  }

  lemma PyIntOfNegative(n: nat)
    ensures Strip("-" + NatToString(n)) == "-" + NatToString(n)
    ensures PyInt("-" + NatToString(n)) == Ok(-(n as int))
  {
    var digits := NatToString(n);
    var s := "-" + digits;
    NegativeShape(digits, s);
    StripUnpadded(s);
    NatToStringValue(n);
    PyIntNegative(s);
  }

  lemma NegativeShape(digits: string, s: string)
    requires |digits| >= 1 && AllDigits(digits) && s == "-" + digits
    ensures |s| >= 2 && s[0] == '-' && s[1..] == digits && AllDigits(s[1..])
    ensures !IsSpace(s[0]) && !IsSpace(s[|s| - 1])
  {
    assert s[|s| - 1] == digits[|digits| - 1];
  }

  /** `int` of a minus sign followed by digits. */
  lemma PyIntNegative(t: string)
    requires |t| >= 2 && t[0] == '-' && AllDigits(t[1..]) && Strip(t) == t
    ensures PyInt(t) == Ok(-(DigitsValue(t[1..]) as int))
  {
  }

  /** Text that neither starts nor ends with whitespace is its own strip. */
  lemma StripUnpadded(s: string)
    requires |s| > 0 && !IsSpace(s[0]) && !IsSpace(s[|s| - 1])
    ensures Strip(s) == s
  {
    assert StripLeft(s) == s;
    assert StripRight(s) == s;
  }

  /** `int` of a single character succeeds exactly on a digit, with that digit's value. */
  lemma PyIntOfChar(c: char)
    ensures PyInt([c]).Ok? <==> IsDigit(c)
    ensures IsDigit(c) ==> PyInt([c]) == Ok(DigitValue(c))
  {
    if IsSpace(c) {
      assert StripLeft([c]) == [];
    } else {
      assert StripLeft([c]) == [c];
      assert StripRight([c]) == [c];
      assert DigitsValue([c][..0]) == 0;
    }
  }

  /** Python `s.split(sep)` for a one-character separator. */
  function Split(s: string, sep: char): (r: seq<string>)
    ensures |r| >= 1
  {
    if |s| == 0 then [""]
    else if s[0] == sep then [""] + Split(s[1..], sep)
    else var rest := Split(s[1..], sep); [[s[0]] + rest[0]] + rest[1..]
  }

  /** `sep.join(pieces)`. */
  function Join(pieces: seq<string>, sep: char): string
    requires |pieces| >= 1
  {
    if |pieces| == 1 then pieces[0] else pieces[0] + [sep] + Join(pieces[1..], sep)
  }

  /** Joining the pieces of a split gives the text back, and no piece holds the separator. */
  lemma {:induction false} JoinSplit(s: string, sep: char)
    ensures Join(Split(s, sep), sep) == s
    ensures forall i :: 0 <= i < |Split(s, sep)| ==> sep !in Split(s, sep)[i]
  {
    if |s| > 0 {
      JoinSplit(s[1..], sep);
      var rest := Split(s[1..], sep);
      if s[0] == sep {
        assert Split(s, sep)[1..] == rest;
      } else {
        var r := Split(s, sep);
        if |rest| > 1 {
          assert r[1..] == rest[1..];
        }
        forall i | 0 <= i < |r| ensures sep !in r[i] {
          if i > 0 { assert r[i] == rest[i]; }
        }
      }
    }
  }

  /** Splitting a join of separator-free pieces gives the pieces back. */
  lemma {:induction false} SplitJoin(pieces: seq<string>, sep: char)
    requires |pieces| >= 1
    requires forall i :: 0 <= i < |pieces| ==> sep !in pieces[i]
    ensures Split(Join(pieces, sep), sep) == pieces
  {
    if |pieces| == 1 {
      SplitFree(pieces[0], sep);
    } else {
      var tail := Join(pieces[1..], sep);
      SplitJoin(pieces[1..], sep);
      SplitPrefix(pieces[0], tail, sep);
    }
  }

  lemma {:induction false} SplitFree(s: string, sep: char)
    requires sep !in s
    ensures Split(s, sep) == [s]
  {
    if |s| > 0 {
      SplitFree(s[1..], sep);
      assert [s[0]] + s[1..] == s;
    }
  }

  lemma {:induction false} SplitPrefix(p: string, t: string, sep: char)
    requires sep !in p
    ensures Split(p + [sep] + t, sep) == [p] + Split(t, sep)
  {
    if |p| == 0 {
      assert p + [sep] + t == [sep] + t;
      assert ([sep] + t)[1..] == t;
    } else {
      assert (p + [sep] + t)[1..] == p[1..] + [sep] + t;
      SplitPrefix(p[1..], t, sep);
      assert [p[0]] + p[1..] == p;
    }
  }

  /** Splitting at one separator is splitting each side. */
  lemma {:induction false} SplitConcat(a: string, b: string, sep: char)
    ensures Split(a + [sep] + b, sep) == Split(a, sep) + Split(b, sep)
  {
    if |a| == 0 {
      assert a + [sep] + b == [sep] + b;
      assert ([sep] + b)[1..] == b;
    } else {
      assert (a + [sep] + b)[1..] == a[1..] + [sep] + b;
      SplitConcat(a[1..], b, sep);
      if a[0] != sep {
        var rest := Split(a[1..], sep);
        assert (rest + Split(b, sep))[1..] == rest[1..] + Split(b, sep);
      }
    }
  }

  /** Where `.` stops matching: the index of the first newline at or after j, or the length. */
  function LineEnd(s: string, j: nat): (e: nat)
    requires j <= |s|
    ensures j <= e <= |s|
    ensures e == |s| || s[e] == '\n'
    ensures forall k :: j <= k < e ==> s[k] != '\n'
    decreases |s| - j
  {
    if j == |s| || s[j] == '\n' then j else LineEnd(s, j + 1)
  }

  /** Python `s[i:j]` for non-negative bounds, which clamps them to the length. */
  function Slice(s: string, i: nat, j: nat): (r: string)
    ensures |r| <= |s|
  {
    var hi := if j <= |s| then j else |s|;
    var lo := if i <= hi then i else hi;
    s[lo..hi]
  }

  /** Python `s.lower()` restricted to ASCII letters. */
  function Lower(s: string): (r: string)
    ensures |r| == |s|
  {
    seq(|s|, i requires 0 <= i < |s| => if IsUpper(s[i]) then (s[i] as int + 32) as char else s[i])
  }

  /** Python `s.replace(a, b)` for single characters. */
  function ReplaceChar(s: string, a: char, b: char): (r: string)
    ensures |r| == |s|
  {
    seq(|s|, i requires 0 <= i < |s| => if s[i] == a then b else s[i])
  }
}

=== FILE: wrappers.dfy ===
/**
 * Failure-carrying results. The drivers and the stepper report errors as
 * Python exceptions; the model returns them as values instead.
 */
module Wrappers {

  datatype Option<+T> = None | Some(value: T)

  /** The Python exceptions that the modelled code raises. */
  datatype PyError =
    | KeyError              // a dict lookup or an explicit `raise KeyError`
    | ValueError            // int() of a malformed text, tuple unpacking of the wrong length
    | IndexError            // indexing past the end of a string or list
    | AttributeError        // `.groups()` on the None of a failed regex match
    | StructError           // struct.unpack on too few bytes
    | ZeroDivisionError
    | RuntimeError(message: string)
    | Exception(message: string)
    | RangeException(message: string, low: real, high: real)  // `Exception(message, low, high)`
    | Warning(message: string)

  datatype Result<+T> = Ok(value: T) | Err(error: PyError)
  {
    predicate IsFailure() { Err? }

    function PropagateFailure<U>(): Result<U>
      requires Err?
    {
      Err(error)
    }

    function Extract(): T
      requires Ok?
    {
      value
    }
  }
}
